=== FILE: README.md ===
# StuStaPay core, modelled in Dafny

StuStaPay is a cashless payment system for festivals. Customers carry a user
tag (an NFC chip with a 64-bit uid) bound to a prepaid account. Tills sell
products, top up and pay out accounts, and sell entry tickets. Every order is
booked as a set of transfers between accounts. Each order must also be signed by
a TSE, the certified signing device required by German fiscal law. Customers can
top up online through the SumUp payment gateway.

This project models five parts of that system as pure Dafny functions over
immutable data, and proves properties about them:

- **Online top-up** (`Sumup`, `SumupAuth`). The checkout lifecycle. Creating a
  checkout runs its guards in a fixed order, draws a fresh reference and records
  the gateway's answer. Updating a checkout compares the stored row with the
  gateway's copy and books a top-up once, when the gateway reports it paid. The
  customer-facing status query and the background poller build on that update.
  The gateway and the clock are parameters: the gateway is an oracle function,
  and the clock is an integer number of seconds. Bearer-token caching keeps a
  180-second refresh margin.
- **TSE signature queue** (`TseWrapper`). The worker picks the oldest `todo`
  signature whose till has no `pending` signature and marks it `pending`. It
  builds the receipt, signs it and then either returns the request or records
  the result. At start-up it reconciles the tills registered on the TSE with the
  tills assigned in the database, and it handles the TSE's status.
- **Order arithmetic** (`OrderService`, `Ledger`). Sales, deposit returns,
  vouchers, top-ups, pay-outs and ticket sales. The order service itself is not
  part of this model. The model is an abstract specification of what the test
  suite asserts: line items, totals, balances and error cases. `Ledger` holds
  accounts, transfers and the booking of an order.
  `OrderScenarios` replays the test suite's fixtures as concrete lemmas.
- **User-tag search** (`UserTag`). A search term that matches
  `^[A-Fa-f0-9]+$` is also read as a hex uid. The SQL `LIKE '%term%'` match on
  the lower-cased hex form of the uid is modelled with a small `LIKE`
  tokenizer and matcher. The comment update is also modelled.
- **Account-type codec** (`AccountTypeCodec`). The Kotlin client's
  `AccountType` enum: its wire values, and `encode`/`decode` with
  case-insensitive decoding.

Money is integer cents throughout. `Wrappers` provides `Option` and `Result`,
`Ascii` provides ASCII lower-casing, and `StringOrder` provides the
lexicographic order and insertion sort that `sorted(extra_tills)` needs.

## Model

| member | source | states |
|---|---|---|
| Sumup.RequireSumupEnabled | stustapay/core/service/customer/sumup.py:103-118 | the decorated call goes ahead exactly when online top-up is enabled; otherwise it fails with InvalidArgument |
| Sumup.CreateGuards | stustapay/core/service/customer/sumup.py:334-357 | five guards in source order: disabled, then a pending checkout for the customer, then a non-positive amount, then exceeding the maximum account balance, then an amount that is not a whole number of euros; no error exactly when all five pass |
| Sumup.FirstFresh | stustapay/core/service/customer/sumup.py:359-365 | the reference drawn is the first candidate not already used by a stored checkout, and every earlier candidate was taken |
| Sumup.RowFromGateway | stustapay/core/service/customer/sumup.py:379-396 | the inserted row copies the gateway's answer field by field, with valid_until empty and the customer id taken from the gateway |
| Sumup.CreateCheckout | stustapay/core/service/customer/sumup.py:334-398 | a rejected guard means failure and no row; past the guards, the request built from the first fresh reference, the amount and the customer id goes to the gateway: a gateway failure is a GatewayError, an id already stored is DuplicateCheckoutId, and any other answer succeeds and adds exactly one row keyed by the gateway's id |
| Sumup.CreateUsesFirstFreshReference | stustapay/core/service/customer/sumup.py:359-377 | the request sent to the gateway uses a reference that no stored checkout uses |
| Sumup.RejectedCreateIgnoresGateway | stustapay/core/service/customer/sumup.py:337-357 | when a guard rejects, the outcome does not depend on the gateway, so the gateway is never asked |
| Sumup.CreateKeepsOnePending | stustapay/core/service/customer/sumup.py:337-343 | creating a checkout keeps the invariant that each customer has at most one pending checkout |
| Sumup.TopUpOrder | stustapay/core/service/customer/sumup.py:225-256 | the top-up order is keyed by the checkout reference; its line total equals its transfer total equals the paid amount; only the customer gains and only the online top-up account loses |
| Sumup.UpdateCheckoutStatus | stustapay/core/service/customer/sumup.py:286-316 | an unknown id gives NotFound; a gateway error propagates; a settled row returns its stored status and changes nothing; a mismatch with the gateway copy is an inconsistency error; a consistent pending checkout is always updated: its status and expiry are copied, and a top-up is booked exactly when the gateway says paid |
| Sumup.PaidCheckoutCreditsCustomer | stustapay/core/service/customer/sumup.py:306-307 | a pending checkout that the gateway reports paid raises the customer's balance by exactly the checkout amount |
| Sumup.SettledCheckoutIsFinal | stustapay/core/service/customer/sumup.py:290-291 | updating a checkout that is no longer pending changes nothing and reports its stored status |
| Sumup.SecondUpdateBooksNothing | stustapay/core/service/customer/sumup.py:286-316 | after an update settles a checkout, a second update leaves the store unchanged, so no top-up is booked twice |
| Sumup.UpdateKeepsOnePending | stustapay/core/service/customer/sumup.py:309-315 | a status update keeps the invariant that each customer has at most one pending checkout |
| Sumup.BookingFollowsGatewayCustomer | stustapay/core/service/customer/sumup.py:227-237 | the booked top-up credits the customer named by the gateway's copy, which the consistency check does not compare |
| Sumup.CheckCheckout | stustapay/core/service/customer/sumup.py:318-329 | disabled gives InvalidArgument, an unknown id gives NotFound, a checkout of another customer gives Unauthorized, otherwise the result is the status update |
| Sumup.ForeignCheckoutIgnoresGateway | stustapay/core/service/customer/sumup.py:326-328 | a checkout belonging to another customer fails before the gateway is asked |
| Sumup.ProcessListed | stustapay/core/service/customer/sumup.py:272-284 | the poller updates the listed checkouts in order; the first error ends the pass, and it is exactly the error the update of the next listed checkout gives; settled rows and rows not yet reached are untouched; no row is added or removed and no booked order is lost |
| Sumup.ProcessListedReconciles | stustapay/core/service/customer/sumup.py:277-316 | each pending checkout the pass got through now holds the gateway's status and expiry, the gateway's record agreed with the stored row, and a paid one has its top-up order booked |
| Sumup.PollPass | stustapay/core/service/customer/sumup.py:265-284 | a pass does nothing when top-up is disabled; otherwise each checkout it processed is reconciled with the gateway, and a pass that ends without error has reconciled every pending checkout; an early stop carries the error of the checkout it stopped at |
| Sumup.CleanGatewayPassSettlesAll | stustapay/core/service/customer/sumup.py:265-316 | when the gateway answers consistently for every pending checkout, an enabled pass ends without error and every pending checkout is reconciled |
| Sumup.ProcessListedKeepsOnePending | stustapay/core/service/customer/sumup.py:265-284 | a poller pass keeps the invariant that each customer has at most one pending checkout |
| Sumup.Iterate | stustapay/core/service/customer/sumup.py:263 | iterating `None` or an integer raises; a list yields its items and a record its column values |
| Sumup.ParseAll | stustapay/core/service/customer/sumup.py:263 | the comprehension parses exactly when every element is a record, and then gives those records' rows in order; a first element that is not a record raises |
| Sumup.FetchRow | stustapay/core/service/customer/sumup.py:260-262 | `fetchrow` gives `None` for no rows and the first row otherwise |
| Sumup.ListPending | stustapay/core/service/customer/sumup.py:258-263 | listing with `fetch` yields every pending checkout's id, in the database's order |
| Sumup.ListPendingAsWritten | stustapay/core/service/customer/sumup.py:258-263 | with `fetchrow`, no pending row makes the listing fail because `None` is not iterable, and any pending row makes it fail because the first record's column values do not parse as checkouts |
| Sumup.PollPassAsWritten | stustapay/core/service/customer/sumup.py:258-284 | with `fetchrow`, an enabled pass always fails in the listing, so it never processes a checkout and never changes the store; a disabled pass does nothing |
| Sumup.PollerAsWrittenNeverSettles | stustapay/core/service/customer/sumup.py:258-284 | a pending checkout that the gateway reports paid stays pending with the pass as written, and becomes paid with the corrected pass |
| SumupAuth.BearerHeaders | stustapay/core/service/customer/sumup.py:143-146 | the headers are Accept and then Authorization, whose value is "Bearer " followed by the cached access token |
| SumupAuth.AuthWithSumup | stustapay/core/service/customer/sumup.py:148-175 | a failed token request fails with the same error; a successful one caches the token, valid for expires_in seconds from the time it was issued |
| SumupAuth.GetAuthHeaders | stustapay/core/service/customer/sumup.py:136-146 | a new token is requested exactly when there is none or it expires within 180 seconds; that request's failure is the only failure; a still-valid cached token is reused unchanged |
| SumupAuth.RefreshWindow | stustapay/core/service/customer/sumup.py:124-137 | a token is reused up to and including the instant 180 seconds before its expiry, and refreshed after that |
| SumupAuth.RefreshedTokenIsReused | stustapay/core/service/customer/sumup.py:136-146 | right after a refresh with a lifetime of at least 180 seconds, a second call makes no request and sends the same token |
| TseWrapper.SelectFrom | stustapay/tse/wrapper.py:189-222 | the pick is a `todo` signature of a till on this TSE with no `pending` signature; none is picked only if no row qualifies; the picked order id is the least among the qualifying rows |
| TseWrapper.MarkPending | stustapay/tse/wrapper.py:235-247 | only the picked order's row changes; it becomes `pending` and is assigned to this TSE |
| TseWrapper.GrabNextRequest | stustapay/tse/wrapper.py:168-249 | a stopping worker grabs nothing; with no eligible row nothing changes; otherwise the oldest eligible order is marked pending and returned with its till |
| TseWrapper.GrabKeepsOnePendingPerTill | stustapay/tse/wrapper.py:191-217 | grabbing keeps the invariant that a till has at most one `pending` signature |
| TseWrapper.Zahlungsart | stustapay/tse/wrapper.py:19 | cash maps to "Bar", sumup and tag map to "Unbar", and every other payment method has no mapping |
| TseWrapper.PaymentTotal | stustapay/tse/wrapper.py:260-268 | the receipt total is the sum of the line items' total prices |
| TseWrapper.MakeSignatureRequest | stustapay/tse/wrapper.py:251-277 | a missing order or payment method is an invalid order; an unmapped payment method is an invalid payment method; an existing order with a mapped payment method always yields a request, which carries the order, the till, one receipt line per line item and the total with its Zahlungsart |
| TseWrapper.ReturnRequest | stustapay/tse/wrapper.py:279-289 | the returned request's row is back to `todo` with no TSE, and every other row is unchanged |
| TseWrapper.RequestDone | stustapay/tse/wrapper.py:291-321 | the finished request's row is `done` and holds the receipt and the signature result, and every other row is unchanged |
| TseWrapper.FinishKeepsOnePendingPerTill | stustapay/tse/wrapper.py:155-164 | returning or finishing a request keeps the invariant that a till has at most one `pending` signature |
| TseWrapper.TillAdd | stustapay/tse/wrapper.py:337-344 | registering a till adds it to the known set and appends one `register` history entry |
| TseWrapper.TillRemove | stustapay/tse/wrapper.py:346-353 | deregistering a known till removes it and appends one `deregister` history entry |
| TseWrapper.Sign | stustapay/tse/wrapper.py:323-335 | a till unknown to the TSE is registered before signing, a known till changes nothing, and the signing outcome is passed through |
| TseWrapper.Missing | stustapay/tse/wrapper.py:137-142 | the tills registered during reconciliation are exactly the database tills not yet on the TSE, each once |
| TseWrapper.AddMissing | stustapay/tse/wrapper.py:137-142 | after the registration loop the TSE knows every database till, and the history gained one `register` entry per missing till |
| TseWrapper.RemoveAll | stustapay/tse/wrapper.py:143-145 | deregistering a list of distinct known tills removes exactly those tills and logs them in order |
| TseWrapper.SortedExtra | stustapay/tse/wrapper.py:136-144 | the tills to deregister are the TSE's tills not in the database, each once, in sorted order |
| TseWrapper.ReconcileTills | stustapay/tse/wrapper.py:130-145 | after reconciliation the TSE's tills are exactly the database's tills |
| TseWrapper.ReconcileHistoryIsExact | stustapay/tse/wrapper.py:130-145 | the history gains a `register` entry exactly for each database till missing from the TSE and a `deregister` entry exactly for each extra TSE till |
| TseWrapper.HandleNextRequest | stustapay/tse/wrapper.py:150-164 | one loop step: no request leaves everything unchanged; building the request fails exactly when the order is missing or its payment method is missing or unmapped, and then the request stays pending; an aborted signature returns the request; a signature stores the order's receipt and the result on that order's rows and changes no other row |
| TseWrapper.PendingSignatureBlocksTill | stustapay/tse/wrapper.py:191-217 | with two `todo` orders of one till, the second is not picked while the first is `pending` |
| TseWrapper.ApplyTseStatus | stustapay/tse/wrapper.py:94-128 | "new" becomes "active" and stores the master data; "active", "disabled" and "failed" change nothing; any other state, or none, is an error |
| UserTag.ParseSearchTerm | stustapay/core/service/user_tag.py:55-57 | a term is read as a hex uid exactly when it is a non-empty run of hex digits, optionally followed by one newline, which `$` admits; its value is the big-endian hex value of those digits |
| UserTag.HexRoundTrip | stustapay/core/service/user_tag.py:55-64 | the lower-case hex form of any uid is read back as that uid |
| UserTag.ParseIgnoresCase | stustapay/core/service/user_tag.py:56-57 | upper- and lower-case hex digits give the same uid |
| UserTag.TrailingNewlineStillHex | stustapay/core/service/user_tag.py:56-57 | "ab" followed by a newline is still read as uid 171 |
| UserTag.PatternIsSubstringSearch | stustapay/core/service/user_tag.py:63-64 | for a term without `%`, `_` or `\`, the pattern `%term%` matches a text exactly when the lower-cased term occurs in it |
| UserTag.TokenizeLiteralThenRun | stustapay/core/service/user_tag.py:63-64 | a literal text without `%`, `_` or `\` followed by `%` reads as those literal characters and then one run wildcard |
| UserTag.ContainsMatch | stustapay/core/service/user_tag.py:63 | `%t%` with `t` literal matches a text exactly when `t` occurs in it |
| UserTag.RunEndedPatternReads | stustapay/core/service/user_tag.py:64 | a pattern ending in `%` always has a `LIKE` reading, so the search pattern is never refused |
| UserTag.SearchTokens | stustapay/core/service/user_tag.py:63-64 | the search term's tokens are the reading of `%` + lower-cased term + `%` |
| UserTag.TrailingBackslashEscapesRun | stustapay/core/service/user_tag.py:63-64 | in the search for "ab\" the backslash escapes the closing `%`, which then must match a literal percent sign |
| UserTag.FindUserTags | stustapay/core/service/user_tag.py:54-66 | the search returns only existing tags; it returns every tag whose hex uid matches the `LIKE` pattern and the tag whose uid the term spells in hex, and nothing else |
| UserTag.SearchIsSubstringOrValue | stustapay/core/service/user_tag.py:54-66 | for a term without `%`, `_` or `\`, the result is exactly the tags whose hex uid contains the lower-cased term, plus the tag the term spells in hex |
| UserTag.SearchByHexFindsTag | stustapay/core/service/user_tag.py:55-65 | searching for a tag's own hex uid in any letter case finds that tag |
| UserTag.UpdateUserTagComment | stustapay/core/service/user_tag.py:36-49 | the update fails with InvalidArgument exactly when the uid is absent; otherwise only that tag's comment changes, and the returned detail carries the new comment |
| AccountTypeCodec.FromValue | app/app/api/src/main/kotlin/de/stustapay/api/models/AccountType.kt:28-64 | the reverse table finds the variant whose wire value is the given string |
| AccountTypeCodec.ValuesIdentifyTypes | app/app/api/src/main/kotlin/de/stustapay/api/models/AccountType.kt:28-64 | every variant's wire value is lower-case, leads back to that variant, and the variant is among `values()` |
| AccountTypeCodec.ValueInjective | app/app/api/src/main/kotlin/de/stustapay/api/models/AccountType.kt:28-64 | two variants have the same wire value exactly when they are the same variant |
| AccountTypeCodec.AllTypesDistinct | app/app/api/src/main/kotlin/de/stustapay/api/models/AccountType.kt:25-64 | `values()` lists twelve variants, none twice |
| AccountTypeCodec.Encode | app/app/api/src/main/kotlin/de/stustapay/api/models/AccountType.kt:73-79 | only an AccountType encodes, and its encoding is the wire value that names it |
| AccountTypeCodec.FirstAccepting | app/app/api/src/main/kotlin/de/stustapay/api/models/AccountType.kt:86-88 | `firstOrNull` returns an accepting variant from the list, and nothing exactly when no variant accepts |
| AccountTypeCodec.Decode | app/app/api/src/main/kotlin/de/stustapay/api/models/AccountType.kt:84-89 | null decodes to null |
| AccountTypeCodec.DecodeOther | app/app/api/src/main/kotlin/de/stustapay/api/models/AccountType.kt:84-89 | a string decodes to a variant exactly when its lower-cased form is that variant's wire value |
| AccountTypeCodec.DecodeEncode | app/app/api/src/main/kotlin/de/stustapay/api/models/AccountType.kt:79-89 | decoding a variant gives that variant, and decoding its encoding gives it back |
| AccountTypeCodec.DecodeIgnoresCase | app/app/api/src/main/kotlin/de/stustapay/api/models/AccountType.kt:85-87 | lower-casing a string first does not change what it decodes to |
| AccountTypeCodec.DecodeUpperCase | app/app/api/src/main/kotlin/de/stustapay/api/models/AccountType.kt:84-89 | "CASH_VAULT" decodes to cashVault |
| Ledger.ApplyTransfersDelta | stustapay/tests/test_order_service.py:330-357 | booking transfers changes each account's balance by what flows in minus what flows out |
| OrderService.IndexOf | stustapay/tests/test_order_service.py:218-237 | the index found is the first line item of that product, and there is none exactly when no line has that product |
| OrderService.Aggregate | stustapay/tests/test_order_service.py:218-237 | the aggregated lines have one line per product, cover exactly the products ordered, and each takes its price and tax from the product's first item |
| OrderService.AggregatePreservesQuantity | stustapay/tests/test_order_service.py:218-237 | aggregation keeps each product's total quantity |
| OrderService.AggregatePreservesTotal | stustapay/tests/test_order_service.py:218-237 | when each product has one price, aggregation keeps the order total |
| OrderService.Expand | stustapay/tests/test_order_service.py:152-171 | each pressed button contributes its products, each with the pressed quantity and the catalog's price and tax |
| OrderService.ExpandTotal | stustapay/tests/test_order_service.py:152-171 | the expanded items' total equals the sum over buttons of quantity times the button's price |
| OrderService.ApplyVouchers | stustapay/tests/test_order_service.py:261-304 | vouchers used never exceed the budget or what the lines can absorb, and no discount comes without vouchers |
| OrderService.UnitVouchersSpentInFull | stustapay/tests/test_order_service.py:282-304 | when every product costs at most one voucher per unit, a budget no larger than what the lines can absorb is spent in full |
| OrderService.FixedVouchersSpentInFull | stustapay/tests/test_order_service.py:282-304 | a valid sale with a fixed, affordable voucher request on one-voucher products within the sale's capacity succeeds, uses exactly that many vouchers, and lowers the voucher balance by exactly that number |
| OrderService.EnoughVouchersCoverAll | stustapay/tests/test_order_service.py:261-280 | with enough vouchers, every voucher-priced item is covered and the discount is its full value |
| OrderService.WithDiscount | stustapay/tests/test_order_service.py:261-280 | the discount line is appended only when vouchers are used, and the other lines are kept as they are |
| OrderService.CheckSale | stustapay/tests/test_order_service.py:152-304 | an unknown button, then a non-returnable product with negative quantity, then more fixed vouchers than held, fail in that order; a valid sale's new balance is the old balance minus the total, its new voucher balance drops by the vouchers used, and its item count is the number of line items |
| OrderService.SaleWithoutVouchers | stustapay/tests/test_order_service.py:163-171 | a valid sale with no vouchers to spend succeeds with exactly the aggregated product lines, no discount line, no voucher used and the voucher balance unchanged |
| OrderService.SaleTotal | stustapay/tests/test_order_service.py:152-171 | a sale's total is the buttons' value minus the voucher discount |
| OrderService.SaleLinesPerProduct | stustapay/tests/test_order_service.py:218-259 | a sale has one line per product, carrying that product's total quantity over all buttons |
| OrderService.AutomaticVouchersCoverAll | stustapay/tests/test_order_service.py:261-280 | when no voucher count is given and the customer holds enough, all coverable items become free |
| OrderService.BookSale | stustapay/tests/test_order_service.py:152-195 | a sale is booked exactly when it checks, and the booking reports the checked sale |
| OrderService.BookedSaleMatchesCheck | stustapay/tests/test_order_service.py:152-195 | after booking, the customer's balance is the checked new balance and the sale-exit account gained the total |
| OrderService.CheckTopUp | stustapay/tests/test_order_service.py:306-379 | a till without top-up permission fails first; otherwise only cash and sumup are accepted; the new balance is the old plus the amount |
| OrderService.BookTopUp | stustapay/tests/test_order_service.py:306-379 | a top-up is booked exactly when it checks, and the booking reports the checked top-up |
| OrderService.BookedTopUpDeltas | stustapay/tests/test_order_service.py:330-379 | a cash top-up credits the customer from the cash entry account and moves the cash from the vault to the cashier; a sumup top-up credits the customer from the sumup entry account |
| OrderService.CheckPayOut | stustapay/tests/test_order_service.py:381-454 | a till without pay-out permission fails first; the amount defaults to the whole balance; paying out more than the balance fails; the new balance is the old plus the (negative) amount |
| OrderService.PayOutAllEmptiesAccount | stustapay/tests/test_order_service.py:403-426 | a pay-out without an amount succeeds and leaves the account at zero |
| OrderService.BookPayOut | stustapay/tests/test_order_service.py:381-454 | a pay-out is booked exactly when it checks, and the booking reports the checked pay-out |
| OrderService.BookedPayOutDeltas | stustapay/tests/test_order_service.py:403-454 | a pay-out moves the amount from the customer to cash exit and from the cashier to the vault |
| OrderService.CheckTicketSale | stustapay/tests/test_order_service.py:456-612 | permission, unknown ticket, payment method and age-class mismatch fail in that order; a valid sale ends with one top-up line for all tags, its item count is its number of lines and its total is their line total |
| OrderService.TicketLinesPerProduct | stustapay/tests/test_order_service.py:572-612 | the lines before the top-up line are one line per ticket product, each with that product's total quantity over all buttons |
| OrderService.BookTicketSale | stustapay/tests/test_order_service.py:480-612 | a ticket sale is booked exactly when it checks, and the booking reports the checked sale |
| OrderService.TicketTotal | stustapay/tests/test_order_service.py:480-612 | the ticket total is the tickets' value, and the order total adds the initial top-up once per tag |
| OrderService.BookedTicketDeltas | stustapay/tests/test_order_service.py:480-612 | a ticket booking takes the tickets into sale exit and credits each tag's account with the initial top-up, funded from cash or sumup |
| OrderService.NewTagsHoldInitialTopUp | stustapay/tests/test_order_service.py:546-612 | distinct, previously empty tag accounts each end with exactly the initial top-up |
| OrderScenarios.BasicSale | stustapay/tests/test_order_service.py:152-195 | a beer with deposit on a balance of 100 costs 5 per press; two presses give 2 line items, total 10, new balance 90 |
| OrderScenarios.BeerReturnRefused | stustapay/tests/test_order_service.py:197-207 | returning a non-returnable beer is an invalid sale |
| OrderScenarios.DepositReturnRefunds | stustapay/tests/test_order_service.py:209-216 | returning one deposit is allowed and refunds its price: the total is -2 |
| OrderScenarios.DepositOnlyReturn | stustapay/tests/test_order_service.py:241-259 | returning three deposits gives one line of total -6 and a new balance of 106 |
| OrderScenarios.AutomaticVouchers | stustapay/tests/test_order_service.py:261-280 | three vouchers pay for three beers; the customer pays only the deposits, and the voucher balance drops to 0 |
| OrderScenarios.FixedVouchers | stustapay/tests/test_order_service.py:282-304 | asking for more vouchers than held fails with the requested and available counts; asking for two leaves one |
| OrderScenarios.TopUpScenarios | stustapay/tests/test_order_service.py:306-379 | a till without permission is refused; a permitted cash top-up of 20 raises the balance from 100 to 120 |
| OrderScenarios.PayOutScenarios | stustapay/tests/test_order_service.py:381-454 | a till without permission is refused; a pay-out without an amount pays out all 100 and leaves 0; paying out twice the balance fails with NotEnoughFunds; paying out 20 leaves 80 |
| OrderScenarios.TicketsMustMatchAges | stustapay/tests/test_order_service.py:546-570 | four adult tickets for tags of mixed age classes are refused |
| OrderScenarios.MixedTicketLines | stustapay/tests/test_order_service.py:572-612 | the mixed ticket sale's lines are 2 adult, 1 under-18 and 1 under-16 ticket, then the initial top-up for the 4 tags |
| OrderScenarios.MixedTicketSale | stustapay/tests/test_order_service.py:572-612 | tickets matching the tags' age classes give 4 items and a total of 4 tickets plus 4 initial top-ups |

## Left out

- Database access, HTTP sessions, timeouts, logging and the 20-second poller sleep are not modelled. Tables are maps, the gateway is an oracle function returning a `Result`, and the time is an integer parameter.
- Sumup.CreateGuards: the amount is an integer number of cents, so `round(amount, 2)` on a float is not modelled; the "must be an integer" check becomes "a multiple of 100 cents".
- Sumup.CreateCheckout: `uuid4()` is not modelled. The caller supplies a finite candidate list that contains a fresh reference, and the function takes the first fresh one.
- Sumup.CreateCheckout: the database's primary-key violation when the gateway returns an id already stored is modelled as the error DuplicateCheckoutId, which the source has no name for.
- Sumup.Iterate: iterating a text is modelled character by character, but no listing ever iterates a text. Integers, `None`, records and lists are modelled as the driver returns them. The column order of a record is the model's own; no column value is a record, whatever the order.
- Sumup.PollPass: the checkout table is a map whose every row is stored under its own id, because `id` is the table's primary key. The pass requires this (KeyedById), and CreateCheckout and UpdateCheckoutStatus keep it.
- Sumup.CreateCheckout: the gateway's `customer_id` is a string that the source turns back into an account id with `int()` (sumup.py:48, :395). The model types it as an integer, so it leaves out the ValueError a non-numeric id raises. In the source that error comes after the gateway has created the checkout, and the insert is rolled back.
- Sumup.TopUpOrder: `customer_id` is parsed with `int()` before booking (sumup.py:227). The model takes an integer id, so it leaves out the ValueError a non-numeric id raises. In the source that error aborts the top-up before anything is booked, and the checkout status is not written.
- Sumup.TopUpOrder: `fetch_top_up_product` and `book_order` are not part of this model. `Ledger.Book` stands in for `book_order`: it is idempotent per order uuid and requires line totals to equal transfer totals.
- SumupAuth.GetAuthHeaders: the "could not authenticate" branch cannot be reached, because a successful token request always caches a token. The model has no such failure.
- Login at start-up (`login_to_sumup`) is one call to `AuthWithSumup` and has no separate member.
- TseWrapper: the TSE handler, the Kassenbeleg process-data format and the `orders available` event are not modelled. Receipt lines are (total, tax name) pairs. A signature attempt that raises is not modelled; the source leaves it as a TODO.
- TseWrapper.ApplyTseStatus: the TODO branches for "active", "disabled" and "failed" change nothing, as in the source.
- OrderService: the order service's code is not part of this model. Every contract is what the test suite asserts, and choices beyond it are the model's own:
  - the order of the sale guards;
  - greedy use of whole vouchers in line order;
  - the discount line with product id -1;
  - InvalidPaymentMethod for till payments other than cash and sumup;
  - age-restriction matching per class.
- OrderService.CheckSale: a sale is not refused for an insufficient balance, because the tests never exercise that case.
- OrderService.CheckTopUp: validation of the top-up amount (positive, within the maximum balance) is not modelled.
- OrderService.CheckPayOut: a positive amount is checked by its absolute value, like a negative one.
- OrderService.BookTicketSale: creating accounts for new tags, and refusing tags already in use, are not modelled. The tag's account id is given.
- OrderService bookings use `Ledger.ApplyTransfers` rather than `Ledger.Book`, because a cash booking's transfers move more money than the order's line total.
- UserTag.FindUserTags: uids of 2^63 and above overflow the `bigint` cast in the query. The model converts every uid to hex without that overflow.
- UserTag: the search term is lower-cased with ASCII case mapping, where Python's `str.lower()` uses Unicode case mapping (user_tag.py:64). No non-ASCII character lower-cases into a hex digit or a LIKE metacharacter, so matches against the hex uid text do not change.
- UserTag: `get_user_tag_detail` is a plain lookup. Only the comment part of the detail is modelled.
- AccountTypeCodec: Kotlin's `lowercase()` is modelled as ASCII lower-casing. No wire value contains a letter whose Unicode lower-casing differs from ASCII's, such as the Kelvin sign for `k`.
- Kotlin serialization annotations are not modelled; the wire value is the `value` field.

## Findings

| source | as written | input that shows it | evidently intended | confidence | as-written member | corrected member |
|---|---|---|---|---|---|---|
| stustapay/core/service/customer/sumup.py:258-263 | `_get_pending_checkouts` calls `fetchrow`, which returns one record or None. Iterating over it and calling `parse_obj` on each element fails, so every poller pass ends in the caught exception. | one stored checkout "c1", pending, that the gateway reports paid | list every pending checkout with `fetch`, so that the poller settles it | not executed | Sumup.PollPassAsWritten (shown by Sumup.PollerAsWrittenNeverSettles) | Sumup.PollPass |

=== FILE: account_type.dfy ===
/** The client's account-type enum and its string codec: each variant is
    written as its API value; reading accepts the variant itself or any
    object whose string form equals a value up to letter case. */
module AccountTypeCodec {
  import opened Wrappers
  import opened Ascii

  datatype AccountType =
    | Private | SaleExit | CashEntry | CashExit | CashTopupSource | CashImbalance
    | CashVault | SumupEntry | SumupOnlineEntry | Transport | Cashier | VoucherCreate

  /** The API value, which is also the variant's string form. */
  function Value(t: AccountType): string {
    match t
    case Private => "private"
    case SaleExit => "sale_exit"
    case CashEntry => "cash_entry"
    case CashExit => "cash_exit"
    case CashTopupSource => "cash_topup_source"
    case CashImbalance => "cash_imbalance"
    case CashVault => "cash_vault"
    case SumupEntry => "sumup_entry"
    case SumupOnlineEntry => "sumup_online_entry"
    case Transport => "transport"
    case Cashier => "cashier"
    case VoucherCreate => "voucher_create"
  }

  /** The variants in declaration order, as the decoder scans them. */
  const AllTypes: seq<AccountType> :=
    [Private, SaleExit, CashEntry, CashExit, CashTopupSource, CashImbalance,
     CashVault, SumupEntry, SumupOnlineEntry, Transport, Cashier, VoucherCreate]

  /** A value the codec may be handed: nothing, a variant, or any other
      object, represented by its string form. */
  datatype Data = Null | Enum(t: AccountType) | Other(repr: string)

  function StringForm(d: Data): string
    requires !d.Null?
  {
    if d.Enum? then Value(d.t) else d.repr
  }

  /** Reference reading of a value string, independent of the scan. */
  function FromValue(s: string): (r: Option<AccountType>)
    ensures r.Some? ==> Value(r.value) == s
  {
    if s == "private" then Some(Private)
    else if s == "sale_exit" then Some(SaleExit)
    else if s == "cash_entry" then Some(CashEntry)
    else if s == "cash_exit" then Some(CashExit)
    else if s == "cash_topup_source" then Some(CashTopupSource)
    else if s == "cash_imbalance" then Some(CashImbalance)
    else if s == "cash_vault" then Some(CashVault)
    else if s == "sumup_entry" then Some(SumupEntry)
    else if s == "sumup_online_entry" then Some(SumupOnlineEntry)
    else if s == "transport" then Some(Transport)
    else if s == "cashier" then Some(Cashier)
    else if s == "voucher_create" then Some(VoucherCreate)
    else None
  }

  predicate LowerCaseOnly(s: string) {
    forall i :: 0 <= i < |s| ==> !('A' <= s[i] <= 'Z')
  }

  lemma LowerCaseOnlyIsFolded(s: string)
    requires LowerCaseOnly(s)
    ensures Lower(s) == s
  {
    assert forall i :: 0 <= i < |s| ==> Lower(s)[i] == s[i];
  }

  lemma ValuesAreLowerCase(t: AccountType)
    ensures LowerCaseOnly(Value(t))
  {
    match t
    case Private | SaleExit | CashEntry | CashExit => PlainValuesAreLowerCase(t);
    case CashTopupSource | CashImbalance | CashVault | SumupEntry => CashValuesAreLowerCase(t);
    case SumupOnlineEntry | Transport | Cashier | VoucherCreate => OtherValuesAreLowerCase(t);
  }

  lemma PlainValuesAreLowerCase(t: AccountType)
    requires t.Private? || t.SaleExit? || t.CashEntry? || t.CashExit?
    ensures LowerCaseOnly(Value(t))
  {
  }

  lemma CashValuesAreLowerCase(t: AccountType)
    requires t.CashTopupSource? || t.CashImbalance? || t.CashVault? || t.SumupEntry?
    ensures LowerCaseOnly(Value(t))
  {
  }

  lemma OtherValuesAreLowerCase(t: AccountType)
    requires t.SumupOnlineEntry? || t.Transport? || t.Cashier? || t.VoucherCreate?
    ensures LowerCaseOnly(Value(t))
  {
  }

  /** Every variant is listed, its value is already lower case, and the
      value reads back as the variant. */
  lemma ValuesIdentifyTypes(t: AccountType)
    ensures FromValue(Value(t)) == Some(t)
    ensures t in AllTypes
    ensures Lower(Value(t)) == Value(t)
  {
    ValueReadsBack(t);
    ListedType(t);
    ValuesAreLowerCase(t);
    LowerCaseOnlyIsFolded(Value(t));
  }

  lemma ValueReadsBack(t: AccountType)
    ensures FromValue(Value(t)) == Some(t)
  {
    match t
    case Private => {}
    case SaleExit => {}
    case CashEntry => {}
    case CashExit => {}
    case CashTopupSource => {}
    case CashImbalance => {}
    case CashVault => {}
    case SumupEntry => {}
    case SumupOnlineEntry => {}
    case Transport => {}
    case Cashier => {}
    case VoucherCreate => {}
  }

  lemma ListedType(t: AccountType)
    ensures t in AllTypes
  {
    match t
    case Private => assert AllTypes[0] == t;
    case SaleExit => assert AllTypes[1] == t;
    case CashEntry => assert AllTypes[2] == t;
    case CashExit => assert AllTypes[3] == t;
    case CashTopupSource => assert AllTypes[4] == t;
    case CashImbalance => assert AllTypes[5] == t;
    case CashVault => assert AllTypes[6] == t;
    case SumupEntry => assert AllTypes[7] == t;
    case SumupOnlineEntry => assert AllTypes[8] == t;
    case Transport => assert AllTypes[9] == t;
    case Cashier => assert AllTypes[10] == t;
    case VoucherCreate => assert AllTypes[11] == t;
  }

  lemma ValueInjective(a: AccountType, b: AccountType)
    ensures Value(a) == Value(b) <==> a == b
  {
    ValuesIdentifyTypes(a);
    ValuesIdentifyTypes(b);
  }

  lemma AllTypesDistinct()
    ensures |AllTypes| == 12
    ensures forall i, j :: 0 <= i < j < |AllTypes| ==> AllTypes[i] != AllTypes[j]
  {
  }

  /** The string form of the variant, or nothing for anything else. */
  function Encode(d: Data): (r: Option<string>)
    ensures r.Some? <==> d.Enum?
    ensures r.Some? ==> FromValue(r.value) == Some(d.t)
  {
    if d.Enum? then ValuesIdentifyTypes(d.t); Some(Value(d.t)) else None
  }

  predicate Accepts(d: Data, t: AccountType)
    requires !d.Null?
  {
    d == Enum(t) || Lower(StringForm(d)) == Lower(Value(t))
  }

  /** The first variant of `ts` that accepts `d`. */
  function FirstAccepting(d: Data, ts: seq<AccountType>): (r: Option<AccountType>)
    requires !d.Null?
    ensures r.Some? ==> r.value in ts && Accepts(d, r.value)
    ensures r.None? <==> forall t :: t in ts ==> !Accepts(d, t)
  {
    if |ts| == 0 then None
    else if Accepts(d, ts[0]) then Some(ts[0])
    else FirstAccepting(d, ts[1..])
  }

  function Decode(d: Data): (r: Option<AccountType>)
    ensures d.Null? ==> r.None?
  {
    if d.Null? then None else FirstAccepting(d, AllTypes)
  }

  /** Reading a non-enum object succeeds exactly when its lower-cased string
      form is a value, and yields that value's variant. */
  lemma DecodeOther(s: string, t: AccountType)
    ensures Decode(Other(s)) == Some(t) <==> Lower(s) == Value(t)
  {
    var d := Other(s);
    ValuesIdentifyTypes(t);
    var r := Decode(d);
    if r.Some? {
      ValuesIdentifyTypes(r.value);
      ValueInjective(r.value, t);
    }
  }

  /** Decoding undoes encoding, for the variant and for its string form. */
  lemma DecodeEncode(t: AccountType)
    ensures Decode(Enum(t)) == Some(t)
    ensures Encode(Enum(t)).Some? && Decode(Other(Encode(Enum(t)).value)) == Some(t)
  {
    ValuesIdentifyTypes(t);
    DecodeOther(Value(t), t);
    var r := Decode(Enum(t));
    if r.Some? && r.value != t {
      ValuesIdentifyTypes(r.value);
      ValueInjective(r.value, t);
    }
  }

  /** Letter case in the input does not matter. */
  lemma DecodeIgnoresCase(s: string)
    ensures Decode(Other(Lower(s))) == Decode(Other(s))
  {
    LowerIdempotent(s);
    var r := Decode(Other(s));
    if r.Some? {
      DecodeOther(s, r.value);
      DecodeOther(Lower(s), r.value);
    } else {
      var r2 := Decode(Other(Lower(s)));
      if r2.Some? {
        DecodeOther(s, r2.value);
        DecodeOther(Lower(s), r2.value);
      }
    }
  }

  /** A concrete reading: upper-case input is accepted. */
  lemma DecodeUpperCase()
    ensures Decode(Other("CASH_VAULT")) == Some(CashVault)
  {
    var s := "CASH_VAULT";
    var l := Lower(s);
    assert l[0] == 'c' && l[1] == 'a' && l[2] == 's' && l[3] == 'h' && l[4] == '_';
    assert l[5] == 'v' && l[6] == 'a' && l[7] == 'u' && l[8] == 'l' && l[9] == 't';
    assert l == Value(CashVault);
    DecodeOther(s, CashVault);
  }
}

=== FILE: ascii.dfy ===
/** ASCII case folding, shared by the server's search and the client's enum
    decoder.  Letters outside A-Z are left as they are. */
module Ascii {
  function LowerChar(c: char): char {
    if 'A' <= c <= 'Z' then (c as int + 32) as char else c
  }

  function Lower(s: string): (r: string)
    ensures |r| == |s|
    ensures forall i :: 0 <= i < |s| ==> r[i] == LowerChar(s[i])
  {
    seq(|s|, i requires 0 <= i < |s| => LowerChar(s[i]))
  }

  /** Folding twice is folding once. */
  lemma LowerIdempotent(s: string)
    ensures Lower(Lower(s)) == Lower(s)
  {
    assert forall i :: 0 <= i < |s| ==> Lower(Lower(s))[i] == Lower(s)[i];
  }
}

=== FILE: ledger.dfy ===
/** The booking ledger that top-ups, sales and pay-outs are written to.
    Balances are integer cents; an account that was never touched has
    balance 0.  An order is keyed by its uuid and booked at most once. */
module Ledger {
  import opened Wrappers

  /** The fixed system accounts the services book against. */
  datatype SystemAccount =
    | SumupCustomerTopup
    | SaleExit
    | CashEntry
    | CashExit
    | CashVault
    | SumupEntry

  /** System accounts and per-user accounts (customers, cashiers) are
      distinct rows of the account table. */
  datatype AccountId = System(kind: SystemAccount) | User(id: int)

  datatype OrderType = TopUp | Sale | PayOut | Ticket

  datatype PaymentMethod = Cash | Sumup | Tag | SumupOnline

  /** One money movement of `amount` cents from `source` to `target`. */
  datatype Transfer = Transfer(source: AccountId, target: AccountId, amount: int)

  datatype LineItem = LineItem(productId: int, quantity: int, price: int, taxName: string)

  datatype Order = Order(
    uuid: string,
    orderType: OrderType,
    paymentMethod: PaymentMethod,
    customer: int,
    lineItems: seq<LineItem>,
    transfers: seq<Transfer>)

  datatype State = State(balances: map<AccountId, int>, orders: map<string, Order>)

  datatype BookingError = UnbalancedOrder(lineTotal: int, transferTotal: int)

  function Balance(b: map<AccountId, int>, a: AccountId): int {
    if a in b then b[a] else 0
  }

  /** Money flowing into `a` through the transfers `ts`. */
  function Inflow(ts: seq<Transfer>, a: AccountId): int {
    if |ts| == 0 then 0
    else Into(ts[0], a) + Inflow(ts[1..], a)
  }

  /** Money flowing out of `a` through the transfers `ts`. */
  function Outflow(ts: seq<Transfer>, a: AccountId): int {
    if |ts| == 0 then 0
    else OutOf(ts[0], a) + Outflow(ts[1..], a)
  }

  function Move(b: map<AccountId, int>, t: Transfer): (r: map<AccountId, int>)
    ensures forall a ::
              Balance(r, a) == Balance(b, a) + (if t.target == a then t.amount else 0)
                                             - (if t.source == a then t.amount else 0)
  {
    var debited := b[t.source := Balance(b, t.source) - t.amount];
    debited[t.target := Balance(debited, t.target) + t.amount]
  }

  function ApplyTransfers(b: map<AccountId, int>, ts: seq<Transfer>): map<AccountId, int>
    decreases |ts|
  {
    if |ts| == 0 then b else ApplyTransfers(Move(b, ts[0]), ts[1..])
  }

  /** Every account ends with its old balance plus what flowed in minus what
      flowed out; in particular an account no transfer names is unchanged. */
  lemma {:induction false} ApplyTransfersDelta(b: map<AccountId, int>, ts: seq<Transfer>, a: AccountId)
    ensures Balance(ApplyTransfers(b, ts), a) == Balance(b, a) + Inflow(ts, a) - Outflow(ts, a)
    decreases |ts|
  {
    if |ts| > 0 {
      ApplyTransfersDelta(Move(b, ts[0]), ts[1..], a);
    }
  }

  lemma {:induction false} FlowConcat(xs: seq<Transfer>, ys: seq<Transfer>, a: AccountId)
    ensures Inflow(xs + ys, a) == Inflow(xs, a) + Inflow(ys, a)
    ensures Outflow(xs + ys, a) == Outflow(xs, a) + Outflow(ys, a)
  {
    if |xs| == 0 {
      assert xs + ys == ys;
    } else {
      assert (xs + ys)[0] == xs[0];
      assert (xs + ys)[1..] == xs[1..] + ys;
      FlowConcat(xs[1..], ys, a);
    }
  }

  /** The flows of a single transfer. */
  function Into(t: Transfer, a: AccountId): int {
    if t.target == a then t.amount else 0
  }

  function OutOf(t: Transfer, a: AccountId): int {
    if t.source == a then t.amount else 0
  }

  lemma FlowOfTwo(t1: Transfer, t2: Transfer, a: AccountId)
    ensures Inflow([t1, t2], a) == Into(t1, a) + Into(t2, a)
    ensures Outflow([t1, t2], a) == OutOf(t1, a) + OutOf(t2, a)
  {
    assert [t1, t2][1..] == [t2];
    assert [t2][1..] == [];
    assert Inflow([t2], a) == Into(t2, a) && Outflow([t2], a) == OutOf(t2, a);
  }

  function LineTotal(items: seq<LineItem>): int {
    if |items| == 0 then 0 else items[0].quantity * items[0].price + LineTotal(items[1..])
  }

  function TransferTotal(ts: seq<Transfer>): int {
    if |ts| == 0 then 0 else ts[0].amount + TransferTotal(ts[1..])
  }

  /** Books an order: an order whose uuid is already booked is a no-op, an
      order whose transfers do not add up to its line items is refused, and
      otherwise every transfer is applied and the order is recorded. */
  function Book(s: State, o: Order): (r: Result<State, BookingError>)
    ensures o.uuid in s.orders ==> r == Success(s)
    ensures o.uuid !in s.orders ==>
      (r.Failure? <==> LineTotal(o.lineItems) != TransferTotal(o.transfers))
    ensures r.Success? && o.uuid !in s.orders ==>
      && r.value.orders == s.orders[o.uuid := o]
      && forall a :: Balance(r.value.balances, a)
           == Balance(s.balances, a) + Inflow(o.transfers, a) - Outflow(o.transfers, a)
  {
    if o.uuid in s.orders then Success(s)
    else if LineTotal(o.lineItems) != TransferTotal(o.transfers) then
      Failure(UnbalancedOrder(LineTotal(o.lineItems), TransferTotal(o.transfers)))
    else
      var b := ApplyTransfers(s.balances, o.transfers);
      assert forall a ::
               Balance(b, a) == Balance(s.balances, a) + Inflow(o.transfers, a) - Outflow(o.transfers, a) by {
        forall a { ApplyTransfersDelta(s.balances, o.transfers, a); }
      }
      Success(State(b, s.orders[o.uuid := o]))
  }

  /** Booking the same order twice has the effect of booking it once. */
  lemma BookIdempotent(s: State, o: Order)
    requires Book(s, o).Success?
    ensures Book(Book(s, o).value, o) == Book(s, o)
  {
  }
}

=== FILE: order_scenarios.dfy ===
/** The order-service test scenarios, replayed on the model: a beer (3, one
    voucher) sold together with a returnable deposit (2), a deposit button,
    and a customer starting with a balance of 100. */
module OrderScenarios {
  import opened Wrappers
  import opened Ledger
  import opened OrderService

  const Beer := 1
  const Deposit := 2
  const BeerButton := 100
  const DepositButton := 101
  const CustomerAccount := 7
  const StartBalance := 100

  function ShopCatalog(): Catalog {
    map[Beer := Product(3, "ust", false, Some(1), None),
        Deposit := Product(2, "none", true, None, None)]
  }

  function ShopLayout(): Layout {
    map[BeerButton := [Beer, Deposit], DepositButton := [Deposit]]
  }

  function StartLedger(): map<AccountId, int> {
    map[User(CustomerAccount) := StartBalance]
  }

  lemma ShopLayoutClosed()
    ensures LayoutClosed(ShopLayout(), ShopCatalog())
  {
  }

  lemma AggregateOfTwo(a: LineItem, b: LineItem)
    requires a.productId != b.productId
    ensures Aggregate([a, b]) == [a, b]
  {
    AggregateOfOne(a);
    AggregateAppendFresh([a], b);
    assert [a] + [b] == [a, b];
  }

  lemma AggregateOfOne(a: LineItem)
    ensures Aggregate([a]) == [a]
  {
    AggregateSnoc([], a);
    assert [] + [a] == [a];
  }

  /** Appending an item of a new product to already aggregated lines adds
      it as a line of its own. */
  lemma AggregateAppendFresh(lines: seq<LineItem>, x: LineItem)
    requires Aggregate(lines) == lines
    requires forall i :: 0 <= i < |lines| ==> lines[i].productId != x.productId
    ensures Aggregate(lines + [x]) == lines + [x]
  {
    AggregateSnoc(lines, x);
  }

  lemma BeerButtonLines(q: int)
    ensures LayoutClosed(ShopLayout(), ShopCatalog())
    ensures Expand([ButtonQty(BeerButton, q)], ShopLayout(), ShopCatalog())
            == [LineItem(Beer, q, 3, "ust"), LineItem(Deposit, q, 2, "none")]
  {
    var items := ButtonItems([Beer, Deposit], q, ShopCatalog());
    assert items == [LineItem(Beer, q, 3, "ust"), LineItem(Deposit, q, 2, "none")];
    assert [ButtonQty(BeerButton, q)][1..] == [];
    assert ShopLayout()[BeerButton] == [Beer, Deposit];
  }

  lemma LineTotalOfOne(a: LineItem)
    ensures LineTotal([a]) == a.quantity * a.price
  {
    assert [a][1..] == [];
  }

  lemma LineTotalOfTwo(a: LineItem, b: LineItem)
    ensures LineTotal([a, b]) == a.quantity * a.price + b.quantity * b.price
  {
    assert [a, b][1..] == [b];
    assert [b][1..] == [];
    assert LineTotal([b]) == b.quantity * b.price + LineTotal([]);
  }

  /** Two presses of the beer button: a beer line and a deposit line, 10 in
      total, taken from the balance. */
  lemma BasicSale()
    ensures LayoutClosed(ShopLayout(), ShopCatalog())
    ensures var r := CheckSale(StartLedger(), ShopLayout(), ShopCatalog(), Customer(CustomerAccount, 0),
                               NewSale([ButtonQty(BeerButton, 2)], None));
            && r.Success?
            && r.value.oldBalance == StartBalance
            && r.value.itemCount == 2
            && r.value.totalPrice == 2 * 3 + 2 * 2
            && r.value.newBalance == StartBalance - r.value.totalPrice
  {
    var lines := [LineItem(Beer, 2, 3, "ust"), LineItem(Deposit, 2, 2, "none")];
    BeerSaleKnown(2, None);
    BeerSaleLines(2, None);
    SaleWithoutVouchers(StartLedger(), ShopLayout(), ShopCatalog(), Customer(CustomerAccount, 0),
                        NewSale([ButtonQty(BeerButton, 2)], None));
    LineTotalOfTwo(lines[0], lines[1]);
  }

  /** Returning a beer is refused: the beer button also holds a product
      that cannot be returned. */
  lemma BeerReturnRefused()
    ensures LayoutClosed(ShopLayout(), ShopCatalog())
    ensures CheckSale(StartLedger(), ShopLayout(), ShopCatalog(), Customer(CustomerAccount, 0),
                      NewSale([ButtonQty(BeerButton, -1)], None)) == Failure(InvalidSale)
  {
    var beer := [ButtonQty(BeerButton, -1)];
    assert ShopLayout()[BeerButton][0] == Beer;
    assert !ShopCatalog()[Beer].isReturnable;
    assert beer[0].quantity < 0 && !ShopCatalog()[ShopLayout()[beer[0].buttonId][0]].isReturnable;
    assert !ReturnsAllowed(beer, ShopLayout(), ShopCatalog());
  }

  lemma OneDepositReturnLine()
    ensures LayoutClosed(ShopLayout(), ShopCatalog())
    ensures AllKnown([ButtonQty(DepositButton, -1)], ShopLayout())
    ensures Aggregate(Expand([ButtonQty(DepositButton, -1)], ShopLayout(), ShopCatalog()))
            == [LineItem(Deposit, -1, 2, "none")]
  {
    var buttons := [ButtonQty(DepositButton, -1)];
    var line := LineItem(Deposit, -1, 2, "none");
    assert ShopLayout()[DepositButton] == [Deposit];
    assert ButtonItems([Deposit], -1, ShopCatalog()) == [line];
    assert buttons[1..] == [];
    assert Expand(buttons, ShopLayout(), ShopCatalog()) == [line];
    assert [line][..0] == [];
  }

  /** Returning a deposit refunds its price. */
  lemma DepositReturnRefunds()
    ensures LayoutClosed(ShopLayout(), ShopCatalog())
    ensures var r := CheckSale(StartLedger(), ShopLayout(), ShopCatalog(), Customer(CustomerAccount, 0),
                               NewSale([ButtonQty(DepositButton, -1)], None));
            r.Success? && r.value.totalPrice == -2
  {
    var sale := NewSale([ButtonQty(DepositButton, -1)], None);
    var line := LineItem(Deposit, -1, 2, "none");
    OneDepositReturnLine();
    SaleLinesFrom(sale, ShopLayout(), ShopCatalog(), Expand(sale.buttons, ShopLayout(), ShopCatalog()), [line]);
    DepositReturnsAllowed(sale.buttons);
    SaleWithoutVouchers(StartLedger(), ShopLayout(), ShopCatalog(), Customer(CustomerAccount, 0), sale);
    LineTotalOfOne(line);
  }

  lemma DepositReturnsAllowed(buttons: seq<ButtonQty>)
    requires forall i :: 0 <= i < |buttons| ==> buttons[i].buttonId == DepositButton
    ensures LayoutClosed(ShopLayout(), ShopCatalog())
    ensures AllKnown(buttons, ShopLayout()) && ReturnsAllowed(buttons, ShopLayout(), ShopCatalog())
  {
    assert ShopLayout()[DepositButton] == [Deposit];
  }

  lemma TwoDepositItems()
    ensures LayoutClosed(ShopLayout(), ShopCatalog())
    ensures var buttons := [ButtonQty(DepositButton, -1), ButtonQty(DepositButton, -2)];
            && AllKnown(buttons, ShopLayout())
            && Expand(buttons, ShopLayout(), ShopCatalog())
               == [LineItem(Deposit, -1, 2, "none"), LineItem(Deposit, -2, 2, "none")]
  {
    var buttons := [ButtonQty(DepositButton, -1), ButtonQty(DepositButton, -2)];
    assert ShopLayout()[DepositButton] == [Deposit];
    assert ButtonItems([Deposit], -1, ShopCatalog()) == [LineItem(Deposit, -1, 2, "none")];
    assert ButtonItems([Deposit], -2, ShopCatalog()) == [LineItem(Deposit, -2, 2, "none")];
    assert buttons[1..] == [ButtonQty(DepositButton, -2)] && buttons[1..][1..] == [];
    assert Expand(buttons[1..], ShopLayout(), ShopCatalog()) == [LineItem(Deposit, -2, 2, "none")];
  }

  lemma MergeTwoDeposits()
    ensures Aggregate([LineItem(Deposit, -1, 2, "none"), LineItem(Deposit, -2, 2, "none")])
            == [LineItem(Deposit, -3, 2, "none")]
  {
    var a := LineItem(Deposit, -1, 2, "none");
    var b := LineItem(Deposit, -2, 2, "none");
    AggregateOfOne(a);
    AggregateSnoc([a], b);
    assert [a] + [b] == [a, b];
    assert IndexOf([a], Deposit) == Some(0);
  }

  lemma TwoDepositReturnsMerge()
    ensures LayoutClosed(ShopLayout(), ShopCatalog())
    ensures var buttons := [ButtonQty(DepositButton, -1), ButtonQty(DepositButton, -2)];
            && AllKnown(buttons, ShopLayout())
            && Aggregate(Expand(buttons, ShopLayout(), ShopCatalog())) == [LineItem(Deposit, -3, 2, "none")]
  {
    TwoDepositItems();
    MergeTwoDeposits();
  }

  /** Two deposit returns are aggregated into one line of three. */
  lemma DepositOnlyReturn()
    ensures LayoutClosed(ShopLayout(), ShopCatalog())
    ensures var r := CheckSale(StartLedger(), ShopLayout(), ShopCatalog(), Customer(CustomerAccount, 0),
                               NewSale([ButtonQty(DepositButton, -1), ButtonQty(DepositButton, -2)], None));
            && r.Success?
            && r.value.itemCount == 1
            && r.value.totalPrice == -3 * 2
            && r.value.newBalance == StartBalance + 6
  {
    var sale := NewSale([ButtonQty(DepositButton, -1), ButtonQty(DepositButton, -2)], None);
    var merged := LineItem(Deposit, -3, 2, "none");
    TwoDepositReturnsMerge();
    SaleLinesFrom(sale, ShopLayout(), ShopCatalog(), Expand(sale.buttons, ShopLayout(), ShopCatalog()), [merged]);
    DepositReturnsAllowed(sale.buttons);
    SaleWithoutVouchers(StartLedger(), ShopLayout(), ShopCatalog(), Customer(CustomerAccount, 0), sale);
    LineTotalOfOne(merged);
  }

  /** A sale of `q > 0` presses of the beer button presses a known button
      and returns nothing. */
  lemma BeerSaleKnown(q: int, used: Option<nat>)
    requires q > 0
    ensures LayoutClosed(ShopLayout(), ShopCatalog())
    ensures var sale := NewSale([ButtonQty(BeerButton, q)], used);
            && AllKnown(sale.buttons, ShopLayout())
            && ReturnsAllowed(sale.buttons, ShopLayout(), ShopCatalog())
  {
  }

  /** The beer button gives one beer and one deposit line, whatever voucher
      request the sale carries. */
  lemma BeerSaleLines(q: int, used: Option<nat>)
    ensures LayoutClosed(ShopLayout(), ShopCatalog())
    ensures AllKnown([ButtonQty(BeerButton, q)], ShopLayout())
    ensures SaleLines(NewSale([ButtonQty(BeerButton, q)], used), ShopLayout(), ShopCatalog())
            == [LineItem(Beer, q, 3, "ust"), LineItem(Deposit, q, 2, "none")]
  {
    var lines := [LineItem(Beer, q, 3, "ust"), LineItem(Deposit, q, 2, "none")];
    BeerButtonLines(q);
    AggregateOfTwo(lines[0], lines[1]);
    SaleLinesFrom(NewSale([ButtonQty(BeerButton, q)], used), ShopLayout(), ShopCatalog(), lines, lines);
  }

  /** Three vouchers pay for three beers (9) and nothing of the deposit. */
  lemma ThreeBeerVouchers()
    ensures ApplyVouchers([LineItem(Beer, 3, 3, "ust"), LineItem(Deposit, 3, 2, "none")], ShopCatalog(), 3)
            == VoucherUse(3, 9)
  {
    var deposit := LineItem(Deposit, 3, 2, "none");
    var lines := [LineItem(Beer, 3, 3, "ust"), deposit];
    assert lines[1..] == [deposit] && [deposit][1..] == [];
    assert ShopCatalog()[Beer].priceInVouchers == Some(1);
    assert ApplyVouchers([deposit], ShopCatalog(), 0) == VoucherUse(0, 0);
  }

  /** Three beers with three vouchers: the beers are free, only the deposit
      is charged, and a discount line is added. */
  lemma AutomaticVouchers()
    ensures LayoutClosed(ShopLayout(), ShopCatalog())
    ensures var r := CheckSale(StartLedger(), ShopLayout(), ShopCatalog(), Customer(CustomerAccount, 3),
                               NewSale([ButtonQty(BeerButton, 3)], None));
            && r.Success?
            && r.value.newBalance == StartBalance - 2 * 3
            && r.value.itemCount == 3
            && r.value.oldVoucherBalance == 3
            && r.value.newVoucherBalance == 0
  {
    var beer := LineItem(Beer, 3, 3, "ust");
    var deposit := LineItem(Deposit, 3, 2, "none");
    var lines := [beer, deposit];
    BeerSaleKnown(3, None);
    BeerSaleLines(3, None);
    ThreeBeerVouchers();
    var v := VoucherUse(3, 9);
    WithDiscountTotal(lines, v);
    LineTotalOfTwo(beer, deposit);
  }

  /** Asking for more vouchers than the customer holds is refused; asking
      for two of three leaves one. */
  lemma FixedVouchers()
    ensures LayoutClosed(ShopLayout(), ShopCatalog())
    ensures CheckSale(StartLedger(), ShopLayout(), ShopCatalog(), Customer(CustomerAccount, 3),
                      NewSale([ButtonQty(BeerButton, 3)], Some(4))) == Failure(NotEnoughVouchers(4, 3))
    ensures var r := CheckSale(StartLedger(), ShopLayout(), ShopCatalog(), Customer(CustomerAccount, 3),
                               NewSale([ButtonQty(BeerButton, 3)], Some(2)));
            r.Success? && r.value.oldVoucherBalance == 3 && r.value.newVoucherBalance == 1
  {
    BeerSaleKnown(3, Some(4));
    BeerSaleKnown(3, Some(2));
    BeerSaleLines(3, Some(2));
    TwoBeerVouchers();
  }

  /** Two vouchers pay for two of three beers. */
  lemma TwoBeerVouchers()
    ensures ApplyVouchers([LineItem(Beer, 3, 3, "ust"), LineItem(Deposit, 3, 2, "none")], ShopCatalog(), 2).used == 2
  {
    var deposit := LineItem(Deposit, 3, 2, "none");
    var lines := [LineItem(Beer, 3, 3, "ust"), deposit];
    assert lines[1..] == [deposit] && [deposit][1..] == [];
    assert ShopCatalog()[Beer].priceInVouchers == Some(1);
    assert ApplyVouchers([deposit], ShopCatalog(), 0) == VoucherUse(0, 0);
  }

  const Open := TillProfile(true, true, true)
  const Closed := TillProfile(false, false, false)

  /** Top-ups are refused at a till whose profile forbids them; a cash
      top-up of 20 raises the balance to 120. */
  lemma TopUpScenarios()
    ensures CheckTopUp(StartLedger(), Closed, Customer(CustomerAccount, 0), NewTopUp(20, Cash)) == Failure(TillPermission)
    ensures CheckTopUp(StartLedger(), Open, Customer(CustomerAccount, 0), NewTopUp(20, Cash))
            == Success(PendingTopUp(StartBalance, 20, StartBalance + 20))
  {
  }

  /** Pay-outs: refused without permission; everything by default; more
      than the balance is refused; a partial pay-out of 20 leaves 80. */
  lemma PayOutScenarios()
    ensures CheckPayOut(StartLedger(), Closed, Customer(CustomerAccount, 0), NewPayOut(None)) == Failure(TillPermission)
    ensures CheckPayOut(StartLedger(), Open, Customer(CustomerAccount, 0), NewPayOut(None))
            == Success(PendingPayOut(StartBalance, -StartBalance, 0))
    ensures CheckPayOut(StartLedger(), Open, Customer(CustomerAccount, 0), NewPayOut(Some(-2 * StartBalance)))
            == Failure(NotEnoughFunds(-2 * StartBalance, StartBalance))
    ensures CheckPayOut(StartLedger(), Open, Customer(CustomerAccount, 0), NewPayOut(Some(-20)))
            == Success(PendingPayOut(StartBalance, -20, StartBalance - 20))
  {
  }

  const Ticket := 10
  const TicketU18 := 11
  const TicketU16 := 12
  const EntryButton := 200
  const EntryU18Button := 201
  const EntryU16Button := 202
  const TicketPrice := 12
  const InitialTopUp := 8

  function TicketCatalog(): Catalog {
    map[Ticket := Product(TicketPrice, "ust", false, None, None),
        TicketU18 := Product(TicketPrice, "ust", false, None, Some(Under18)),
        TicketU16 := Product(TicketPrice, "ust", false, None, Some(Under16))]
  }

  function TicketLayout(): Layout {
    map[EntryButton := [Ticket], EntryU18Button := [TicketU18], EntryU16Button := [TicketU16]]
  }

  function FourTags(): seq<TicketTag> {
    [TicketTag(12345, None, 20), TicketTag(12346, None, 21),
     TicketTag(12347, Some(Under18), 22), TicketTag(12348, Some(Under16), 23)]
  }

  lemma TagsOfFour()
    ensures TagsWith(FourTags(), None) == 2
    ensures TagsWith(FourTags(), Some(Under18)) == 1
    ensures TagsWith(FourTags(), Some(Under16)) == 1
  {
    var t := FourTags();
    assert t[1..] == [t[1], t[2], t[3]];
    assert t[1..][1..] == [t[2], t[3]];
    assert t[1..][1..][1..] == [t[3]];
    assert t[1..][1..][1..][1..] == [];
  }

  lemma EntryItems(button: int, product: int, q: int)
    requires button in TicketLayout() && TicketLayout()[button] == [product] && product in TicketCatalog()
    ensures LayoutClosed(TicketLayout(), TicketCatalog())
    ensures Expand([ButtonQty(button, q)], TicketLayout(), TicketCatalog()) == [LineItem(product, q, TicketPrice, "ust")]
  {
    assert TicketCatalog()[product].price == TicketPrice && TicketCatalog()[product].taxName == "ust";
    assert ButtonItems([product], q, TicketCatalog()) == [LineItem(product, q, TicketPrice, "ust")];
    assert [ButtonQty(button, q)][1..] == [];
  }

  /** Four adult tickets for two adults and two minors are refused. */
  lemma TicketsMustMatchAges()
    ensures LayoutClosed(TicketLayout(), TicketCatalog())
    ensures CheckTicketSale(TicketLayout(), TicketCatalog(), Open, InitialTopUp,
                            NewTicketSale(FourTags(), [ButtonQty(EntryButton, 4)], Cash)) == Failure(InvalidArgument)
  {
    EntryItems(EntryButton, Ticket, 4);
    var items := [LineItem(Ticket, 4, TicketPrice, "ust")];
    assert items[1..] == [];
    assert TicketsFor(items, TicketCatalog(), None) == 4;
    TagsOfFour();
  }

  lemma MixedTicketItems()
    ensures LayoutClosed(TicketLayout(), TicketCatalog())
    ensures var tickets := [ButtonQty(EntryButton, 2), ButtonQty(EntryU18Button, 1), ButtonQty(EntryU16Button, 1)];
            && AllKnown(tickets, TicketLayout())
            && Expand(tickets, TicketLayout(), TicketCatalog())
               == [LineItem(Ticket, 2, TicketPrice, "ust"), LineItem(TicketU18, 1, TicketPrice, "ust"),
                   LineItem(TicketU16, 1, TicketPrice, "ust")]
  {
    var tickets := [ButtonQty(EntryButton, 2), ButtonQty(EntryU18Button, 1), ButtonQty(EntryU16Button, 1)];
    EntryItems(EntryButton, Ticket, 2);
    EntryItems(EntryU18Button, TicketU18, 1);
    EntryItems(EntryU16Button, TicketU16, 1);
    assert tickets[1..] == [tickets[1], tickets[2]] && tickets[1..][1..] == [tickets[2]];
    assert Expand(tickets[1..][1..], TicketLayout(), TicketCatalog()) == [LineItem(TicketU16, 1, TicketPrice, "ust")];
  }

  lemma AggregateOfThree(a: LineItem, b: LineItem, c: LineItem)
    requires a.productId != b.productId && a.productId != c.productId && b.productId != c.productId
    ensures Aggregate([a, b, c]) == [a, b, c]
  {
    AggregateOfTwo(a, b);
    AggregateAppendFresh([a, b], c);
    assert [a, b] + [c] == [a, b, c];
  }

  function MixedTickets(): seq<ButtonQty> {
    [ButtonQty(EntryButton, 2), ButtonQty(EntryU18Button, 1), ButtonQty(EntryU16Button, 1)]
  }

  function MixedItems(): seq<LineItem> {
    [LineItem(Ticket, 2, TicketPrice, "ust"), LineItem(TicketU18, 1, TicketPrice, "ust"),
     LineItem(TicketU16, 1, TicketPrice, "ust")]
  }

  lemma MixedTicketCounts(r: Option<AgeRestriction>)
    ensures TicketsFor(MixedItems(), TicketCatalog(), r)
            == (if r == None then 2 else 0) + (if r == Some(Under18) then 1 else 0) + (if r == Some(Under16) then 1 else 0)
  {
    var items := MixedItems();
    var b := items[1];
    var c := items[2];
    var cat := TicketCatalog();
    assert items[1..] == [b, c] && [b, c][1..] == [c] && [c][1..] == [];
    assert cat[Ticket].restriction == None && cat[TicketU18].restriction == Some(Under18)
           && cat[TicketU16].restriction == Some(Under16);
    assert TicketsFor([c], cat, r) == (if r == Some(Under16) then 1 else 0) + TicketsFor([], cat, r);
    assert TicketsFor([b, c], cat, r) == (if r == Some(Under18) then 1 else 0) + TicketsFor([c], cat, r);
  }

  lemma MixedTicketValue()
    ensures LayoutClosed(TicketLayout(), TicketCatalog())
    ensures ButtonsTotal(MixedTickets(), TicketLayout(), TicketCatalog()) == TicketPrice * 4
  {
    MixedTicketItems();
    var items := MixedItems();
    var b := items[1];
    var c := items[2];
    ExpandTotal(MixedTickets(), TicketLayout(), TicketCatalog());
    LineTotalOfTwo(b, c);
    assert items[1..] == [b, c];
    assert LineTotal(items) == 2 * TicketPrice + LineTotal([b, c]);
  }

  /** Two adult, one under-18 and one under-16 ticket for the four tags: four
      line items and the tickets plus four initial top-ups to pay. */
  lemma MixedTicketSale()
    ensures LayoutClosed(TicketLayout(), TicketCatalog())
    ensures var r := CheckTicketSale(TicketLayout(), TicketCatalog(), Open, InitialTopUp,
                       NewTicketSale(FourTags(), MixedTickets(), Cash));
            && r.Success?
            && r.value.itemCount == 4
            && r.value.totalPrice == TicketPrice * 4 + InitialTopUp * 4
  {
    var s := NewTicketSale(FourTags(), MixedTickets(), Cash);
    var items := MixedItems();
    MixedTicketItems();
    MixedTicketsMatch();
    TicketSaleAccepted(TicketLayout(), TicketCatalog(), Open, InitialTopUp, s, items);
    AggregateOfThree(items[0], items[1], items[2]);
    assert [items[0], items[1], items[2]] == items;
    TicketTotal(TicketLayout(), TicketCatalog(), Open, InitialTopUp, s);
    MixedTicketValue();
  }

  /** The mixed sale's lines: adult 2, under-18 1, under-16 1, then the
      initial top-up for all four tags. */
  lemma MixedTicketLines()
    ensures LayoutClosed(TicketLayout(), TicketCatalog())
    ensures var r := CheckTicketSale(TicketLayout(), TicketCatalog(), Open, InitialTopUp,
                       NewTicketSale(FourTags(), MixedTickets(), Cash));
            && r.Success?
            && r.value.lineItems == MixedItems() + [LineItem(TopUpProductId, 4, InitialTopUp, "none")]
  {
    var s := NewTicketSale(FourTags(), MixedTickets(), Cash);
    var items := MixedItems();
    MixedTicketItems();
    MixedTicketsMatch();
    TicketSaleAccepted(TicketLayout(), TicketCatalog(), Open, InitialTopUp, s, items);
    AggregateOfThree(items[0], items[1], items[2]);
    assert [items[0], items[1], items[2]] == items;
  }

  /** The mixed tickets match the four tags' age classes one for one. */
  lemma MixedTicketsMatch()
    ensures RestrictionsMatch(MixedItems(), TicketCatalog(), FourTags())
  {
    MixedTicketCounts(None);
    MixedTicketCounts(Some(Under18));
    MixedTicketCounts(Some(Under16));
    TagsOfFour();
  }
}

=== FILE: order_service.dfy ===
/** The arithmetic of the till's order checks, as the order-service tests
    state it: sales (with returnable deposits and drink vouchers), top-ups,
    pay-outs and ticket sales.  Each check computes the pending order a till
    shows; each booking applies that order's transfers to the ledger. */
module OrderService {
  import opened Wrappers
  import opened Ledger

  // ---------------------------------------------------------------------
  // Aggregating line items per product

  /** The first item for product `id`, if any. */
  function IndexOf(items: seq<LineItem>, id: int): (r: Option<nat>)
    ensures r.Some? ==> r.value < |items| && items[r.value].productId == id
    ensures r.Some? ==> forall i :: 0 <= i < r.value ==> items[i].productId != id
    ensures r.None? <==> forall i :: 0 <= i < |items| ==> items[i].productId != id
  {
    if |items| == 0 then None
    else if items[0].productId == id then Some(0)
    else match IndexOf(items[1..], id)
      case None => None
      case Some(i) => Some(i + 1)
  }

  predicate UniqueProducts(items: seq<LineItem>) {
    forall i, j :: 0 <= i < j < |items| ==> items[i].productId != items[j].productId
  }

  /** Items of the same product carry the same unit price. */
  predicate PriceConsistent(items: seq<LineItem>) {
    forall i, j :: 0 <= i < |items| && 0 <= j < |items| && items[i].productId == items[j].productId
                   ==> items[i].price == items[j].price
  }

  /** The total quantity of product `id` among `items`. */
  function QuantityOf(items: seq<LineItem>, id: int): int {
    if |items| == 0 then 0
    else (if items[0].productId == id then items[0].quantity else 0) + QuantityOf(items[1..], id)
  }

  /** Adds one item to the aggregated lines: onto the line of its product,
      or as a new last line. */
  function Merge(lines: seq<LineItem>, item: LineItem): seq<LineItem> {
    match IndexOf(lines, item.productId)
    case None => lines + [item]
    case Some(i) => lines[i := lines[i].(quantity := lines[i].quantity + item.quantity)]
  }

  /** `r` holds one line per product of `items`, each with the price and
      tax of that product's first item. */
  predicate AggregatedFrom(items: seq<LineItem>, r: seq<LineItem>) {
    && UniqueProducts(r)
    && (forall j :: 0 <= j < |items| ==> IndexOf(r, items[j].productId).Some?)
    && (forall k :: 0 <= k < |r| ==>
          && IndexOf(items, r[k].productId).Some?
          && items[IndexOf(items, r[k].productId).value].price == r[k].price
          && items[IndexOf(items, r[k].productId).value].taxName == r[k].taxName)
  }

  /** One line per product, in order of first appearance. */
  function Aggregate(items: seq<LineItem>): (r: seq<LineItem>)
    ensures AggregatedFrom(items, r)
    decreases |items|
  {
    if |items| == 0 then []
    else
      var init := items[..|items| - 1];
      var x := items[|items| - 1];
      assert items == init + [x];
      AggregateStep(init, x, Aggregate(init));
      Merge(Aggregate(init), x)
  }

  /** Aggregating one more item merges it into the lines so far. */
  lemma AggregateSnoc(init: seq<LineItem>, x: LineItem)
    ensures Aggregate(init + [x]) == Merge(Aggregate(init), x)
  {
    var items := init + [x];
    assert items[..|items| - 1] == init;
  }

  lemma AggregateStep(init: seq<LineItem>, x: LineItem, lines: seq<LineItem>)
    requires AggregatedFrom(init, lines)
    ensures AggregatedFrom(init + [x], Merge(lines, x))
  {
    var items := init + [x];
    var r := Merge(lines, x);
    IndexOfExtend(init, x);
    MergeShape(lines, x);
    forall j | 0 <= j < |items| ensures IndexOf(r, items[j].productId).Some? {
      if j < |init| {
        assert items[j] == init[j];
      }
    }
    forall k | 0 <= k < |r|
      ensures && IndexOf(items, r[k].productId).Some?
              && items[IndexOf(items, r[k].productId).value].price == r[k].price
              && items[IndexOf(items, r[k].productId).value].taxName == r[k].taxName
    {
      if k < |lines| {
        var i := IndexOf(init, lines[k].productId).value;
        assert items[i] == init[i];
      } else {
        assert r[k] == x;
        assert IndexOf(init, x.productId).None?;
      }
    }
  }

  /** Merging keeps every existing line's product, price and tax, and adds
      a line only for a product not yet present. */
  lemma MergeShape(lines: seq<LineItem>, x: LineItem)
    ensures var r := Merge(lines, x);
      && (|r| == |lines| || (|r| == |lines| + 1 && r[|lines|] == x && IndexOf(lines, x.productId).None?))
      && (forall k :: 0 <= k < |lines| ==>
            r[k].productId == lines[k].productId && r[k].price == lines[k].price && r[k].taxName == lines[k].taxName)
      && IndexOf(r, x.productId).Some?
      && (forall id :: IndexOf(lines, id).Some? ==> IndexOf(r, id).Some?)
      && (UniqueProducts(lines) ==> UniqueProducts(r))
  {
    var r := Merge(lines, x);
    match IndexOf(lines, x.productId)
    case None =>
      assert r[|lines|].productId == x.productId;
      forall id | IndexOf(lines, id).Some? ensures IndexOf(r, id).Some? {
        assert r[IndexOf(lines, id).value].productId == id;
      }
    case Some(i) =>
      assert r[i].productId == x.productId;
      forall id | IndexOf(lines, id).Some? ensures IndexOf(r, id).Some? {
        assert r[IndexOf(lines, id).value].productId == id;
      }
  }

  /** The first item of a product stays first when items are appended. */
  lemma IndexOfAppend(items: seq<LineItem>, x: LineItem, id: int)
    ensures IndexOf(items, id).Some? ==> IndexOf(items + [x], id) == IndexOf(items, id)
    ensures IndexOf(items, id).None? && x.productId == id ==> IndexOf(items + [x], id) == Some(|items|)
    ensures IndexOf(items, id).None? && x.productId != id ==> IndexOf(items + [x], id).None?
  {
    if IndexOf(items, id).Some? {
      IndexOfAppendFound(items, x, id);
    } else {
      IndexOfAppendMissing(items, x, id);
    }
  }

  lemma IndexOfAppendFound(items: seq<LineItem>, x: LineItem, id: int)
    requires IndexOf(items, id).Some?
    ensures IndexOf(items + [x], id) == IndexOf(items, id)
  {
    var ext := items + [x];
    var i := IndexOf(items, id).value;
    assert ext[i] == items[i];
    var j := IndexOf(ext, id).value;
    assert j <= i;
    assert ext[j] == items[j];
  }

  lemma IndexOfAppendMissing(items: seq<LineItem>, x: LineItem, id: int)
    requires IndexOf(items, id).None?
    ensures x.productId == id ==> IndexOf(items + [x], id) == Some(|items|)
    ensures x.productId != id ==> IndexOf(items + [x], id).None?
  {
    var ext := items + [x];
    forall k | 0 <= k < |items| ensures ext[k].productId != id {
      assert ext[k] == items[k];
    }
    if x.productId == id {
      assert ext[|items|].productId == id;
    }
  }

  lemma IndexOfExtend(items: seq<LineItem>, x: LineItem)
    ensures forall id :: IndexOf(items, id).Some? ==> IndexOf(items + [x], id) == IndexOf(items, id)
    ensures IndexOf(items, x.productId).None? ==> IndexOf(items + [x], x.productId) == Some(|items|)
    ensures forall id :: IndexOf(items + [x], id).Some? ==> IndexOf(items, id).Some? || id == x.productId
  {
    forall id ensures IndexOf(items, id).Some? ==> IndexOf(items + [x], id) == IndexOf(items, id)
      ensures IndexOf(items + [x], id).Some? ==> IndexOf(items, id).Some? || id == x.productId
    {
      IndexOfAppend(items, x, id);
    }
    IndexOfAppend(items, x, x.productId);
  }

  lemma {:induction false} QuantityAppend(items: seq<LineItem>, x: LineItem, id: int)
    ensures QuantityOf(items + [x], id) == QuantityOf(items, id) + (if x.productId == id then x.quantity else 0)
  {
    if |items| > 0 {
      assert (items + [x])[1..] == items[1..] + [x];
      QuantityAppend(items[1..], x, id);
    }
  }

  lemma {:induction false} QuantityUpdate(lines: seq<LineItem>, i: nat, l: LineItem, id: int)
    requires i < |lines| && l.productId == lines[i].productId
    ensures QuantityOf(lines[i := l], id)
            == QuantityOf(lines, id) + (if l.productId == id then l.quantity - lines[i].quantity else 0)
  {
    if i > 0 {
      assert lines[i := l][1..] == lines[1..][i - 1 := l];
      QuantityUpdate(lines[1..], i - 1, l, id);
    }
  }

  lemma {:induction false} LineTotalAppend(items: seq<LineItem>, x: LineItem)
    ensures LineTotal(items + [x]) == LineTotal(items) + x.quantity * x.price
  {
    if |items| > 0 {
      assert (items + [x])[1..] == items[1..] + [x];
      LineTotalAppend(items[1..], x);
    }
  }

  lemma {:induction false} LineTotalUpdate(lines: seq<LineItem>, i: nat, l: LineItem)
    requires i < |lines| && l.price == lines[i].price
    ensures LineTotal(lines[i := l]) == LineTotal(lines) + (l.quantity - lines[i].quantity) * l.price
  {
    if i > 0 {
      assert lines[i := l][1..] == lines[1..][i - 1 := l];
      LineTotalUpdate(lines[1..], i - 1, l);
    }
  }

  lemma MergeQuantity(lines: seq<LineItem>, x: LineItem, id: int)
    ensures QuantityOf(Merge(lines, x), id) == QuantityOf(lines, id) + (if x.productId == id then x.quantity else 0)
  {
    match IndexOf(lines, x.productId)
    case None =>
      QuantityAppend(lines, x, id);
    case Some(i) =>
      QuantityUpdate(lines, i, lines[i].(quantity := lines[i].quantity + x.quantity), id);
  }

  lemma MergeTotal(lines: seq<LineItem>, x: LineItem)
    requires IndexOf(lines, x.productId).Some? ==> lines[IndexOf(lines, x.productId).value].price == x.price
    ensures LineTotal(Merge(lines, x)) == LineTotal(lines) + x.quantity * x.price
  {
    match IndexOf(lines, x.productId)
    case None =>
      LineTotalAppend(lines, x);
    case Some(i) =>
      LineTotalUpdate(lines, i, lines[i].(quantity := lines[i].quantity + x.quantity));
  }

  /** Aggregation neither loses nor invents quantity of any product. */
  lemma {:induction false} AggregatePreservesQuantity(items: seq<LineItem>, id: int)
    ensures QuantityOf(Aggregate(items), id) == QuantityOf(items, id)
    decreases |items|
  {
    if |items| > 0 {
      var init := items[..|items| - 1];
      var x := items[|items| - 1];
      assert items == init + [x];
      AggregatePreservesQuantity(init, id);
      QuantityAppend(init, x, id);
      MergeQuantity(Aggregate(init), x, id);
    }
  }

  lemma PriceConsistentPrefix(items: seq<LineItem>, n: nat)
    requires n <= |items| && PriceConsistent(items)
    ensures PriceConsistent(items[..n])
  {
    forall i, j | 0 <= i < n && 0 <= j < n && items[..n][i].productId == items[..n][j].productId
      ensures items[..n][i].price == items[..n][j].price
    {
      assert items[..n][i] == items[i] && items[..n][j] == items[j];
    }
  }

  /** With one price per product, aggregation keeps the order total. */
  lemma {:induction false} AggregatePreservesTotal(items: seq<LineItem>)
    requires PriceConsistent(items)
    ensures LineTotal(Aggregate(items)) == LineTotal(items)
    decreases |items|
  {
    if |items| > 0 {
      var init := items[..|items| - 1];
      var x := items[|items| - 1];
      assert items == init + [x];
      PriceConsistentPrefix(items, |items| - 1);
      var lines := Aggregate(init);
      AggregatePreservesTotal(init);
      LineTotalAppend(init, x);
      if IndexOf(lines, x.productId).Some? {
        FirstPriceOfLine(init, lines, x);
      }
      MergeTotal(lines, x);
    }
  }

  lemma FirstPriceOfLine(init: seq<LineItem>, lines: seq<LineItem>, x: LineItem)
    requires AggregatedFrom(init, lines)
    requires PriceConsistent(init + [x])
    requires IndexOf(lines, x.productId).Some?
    ensures lines[IndexOf(lines, x.productId).value].price == x.price
  {
    var i := IndexOf(lines, x.productId).value;
    var first := IndexOf(init, x.productId).value;
    var items := init + [x];
    assert items[first] == init[first] && items[|init|] == x;
  }

  // ---------------------------------------------------------------------
  // Catalog, till layout and customers

  /** Age classes of customer tags and of ticket products. */
  datatype AgeRestriction = Under18 | Under16

  datatype Product = Product(
    price: int,
    taxName: string,
    isReturnable: bool,
    priceInVouchers: Option<nat>,
    restriction: Option<AgeRestriction>)

  /** Products by id, and till buttons by id with the products each holds. */
  type Catalog = map<int, Product>
  type Layout = map<int, seq<int>>

  /** Every product a button names exists (a foreign key in the database). */
  predicate LayoutClosed(layout: Layout, catalog: Catalog) {
    forall b, i :: b in layout && 0 <= i < |layout[b]| ==> layout[b][i] in catalog
  }

  datatype ButtonQty = ButtonQty(buttonId: int, quantity: int)

  datatype Customer = Customer(accountId: int, vouchers: nat)

  datatype TillProfile = TillProfile(allowTopUp: bool, allowCashOut: bool, allowTicketSale: bool)

  datatype OrderError =
    | TillPermission
    | UnknownButton
    | InvalidSale
    | NotEnoughVouchers(requested: nat, available: nat)
    | NotEnoughFunds(payout: int, balance: int)
    | InvalidPaymentMethod
    | InvalidArgument

  /** Reserved line-item products for the voucher discount and for the
      initial top-up of a ticket. */
  const DiscountProductId: int := -1
  const TopUpProductId: int := -2

  predicate AllKnown(buttons: seq<ButtonQty>, layout: Layout) {
    forall i :: 0 <= i < |buttons| ==> buttons[i].buttonId in layout
  }

  /** A button may be pressed a negative number of times only if every
      product on it can be returned. */
  predicate ReturnsAllowed(buttons: seq<ButtonQty>, layout: Layout, catalog: Catalog)
    requires AllKnown(buttons, layout) && LayoutClosed(layout, catalog)
  {
    forall i, j :: 0 <= i < |buttons| && buttons[i].quantity < 0 && 0 <= j < |layout[buttons[i].buttonId]|
                   ==> catalog[layout[buttons[i].buttonId][j]].isReturnable
  }

  /** One line item per product on one button, at the button's quantity. */
  function ButtonItems(productIds: seq<int>, quantity: int, catalog: Catalog): (r: seq<LineItem>)
    requires forall i :: 0 <= i < |productIds| ==> productIds[i] in catalog
    ensures |r| == |productIds|
    ensures forall i :: 0 <= i < |r| ==>
              && r[i].productId == productIds[i] && r[i].quantity == quantity
              && r[i].price == catalog[productIds[i]].price && r[i].taxName == catalog[productIds[i]].taxName
  {
    seq(|productIds|, i requires 0 <= i < |productIds| =>
      LineItem(productIds[i], quantity, catalog[productIds[i]].price, catalog[productIds[i]].taxName))
  }

  /** The line items of all pressed buttons, before aggregation. */
  function Expand(buttons: seq<ButtonQty>, layout: Layout, catalog: Catalog): (r: seq<LineItem>)
    requires AllKnown(buttons, layout) && LayoutClosed(layout, catalog)
    ensures forall i :: 0 <= i < |r| ==>
              r[i].productId in catalog && r[i].price == catalog[r[i].productId].price
  {
    if |buttons| == 0 then []
    else
      ButtonItems(layout[buttons[0].buttonId], buttons[0].quantity, catalog)
      + Expand(buttons[1..], layout, catalog)
  }

  lemma ExpandPriceConsistent(buttons: seq<ButtonQty>, layout: Layout, catalog: Catalog)
    requires AllKnown(buttons, layout) && LayoutClosed(layout, catalog)
    ensures PriceConsistent(Expand(buttons, layout, catalog))
  {
  }

  /** Reference price of one press of a button: the sum of its products' prices. */
  function ButtonPrice(productIds: seq<int>, catalog: Catalog): int
    requires forall i :: 0 <= i < |productIds| ==> productIds[i] in catalog
  {
    if |productIds| == 0 then 0 else catalog[productIds[0]].price + ButtonPrice(productIds[1..], catalog)
  }

  /** Reference total of a sale: quantity times button price, summed. */
  function ButtonsTotal(buttons: seq<ButtonQty>, layout: Layout, catalog: Catalog): int
    requires AllKnown(buttons, layout) && LayoutClosed(layout, catalog)
  {
    if |buttons| == 0 then 0
    else buttons[0].quantity * ButtonPrice(layout[buttons[0].buttonId], catalog)
         + ButtonsTotal(buttons[1..], layout, catalog)
  }

  lemma {:induction false} LineTotalConcat(xs: seq<LineItem>, ys: seq<LineItem>)
    ensures LineTotal(xs + ys) == LineTotal(xs) + LineTotal(ys)
  {
    if |xs| == 0 {
      assert xs + ys == ys;
    } else {
      assert (xs + ys)[0] == xs[0];
      assert (xs + ys)[1..] == xs[1..] + ys;
      LineTotalConcat(xs[1..], ys);
    }
  }

  lemma {:induction false} ButtonItemsTotal(productIds: seq<int>, quantity: int, catalog: Catalog)
    requires forall i :: 0 <= i < |productIds| ==> productIds[i] in catalog
    ensures LineTotal(ButtonItems(productIds, quantity, catalog)) == quantity * ButtonPrice(productIds, catalog)
  {
    if |productIds| > 0 {
      var items := ButtonItems(productIds, quantity, catalog);
      assert items[1..] == ButtonItems(productIds[1..], quantity, catalog);
      ButtonItemsTotal(productIds[1..], quantity, catalog);
    }
  }

  /** The expanded line items cost exactly the reference total. */
  lemma {:induction false} ExpandTotal(buttons: seq<ButtonQty>, layout: Layout, catalog: Catalog)
    requires AllKnown(buttons, layout) && LayoutClosed(layout, catalog)
    ensures LineTotal(Expand(buttons, layout, catalog)) == ButtonsTotal(buttons, layout, catalog)
  {
    if |buttons| > 0 {
      var head := ButtonItems(layout[buttons[0].buttonId], buttons[0].quantity, catalog);
      LineTotalConcat(head, Expand(buttons[1..], layout, catalog));
      ButtonItemsTotal(layout[buttons[0].buttonId], buttons[0].quantity, catalog);
      ExpandTotal(buttons[1..], layout, catalog);
    }
  }

  // ---------------------------------------------------------------------
  // Vouchers

  datatype VoucherUse = VoucherUse(used: nat, discount: int)

  /** Vouchers one unit of a product costs; 0 when it cannot be paid with
      vouchers. */
  function VoucherCost(p: Product): nat {
    if p.priceInVouchers.Some? then p.priceInVouchers.value else 0
  }

  /** Units of a line that vouchers can pay for. */
  function Coverable(l: LineItem, catalog: Catalog): nat
    requires l.productId in catalog
  {
    if VoucherCost(catalog[l.productId]) > 0 && l.quantity > 0 then l.quantity else 0
  }

  /** Vouchers needed to pay every coverable unit. */
  function VoucherCapacity(lines: seq<LineItem>, catalog: Catalog): nat
    requires forall i :: 0 <= i < |lines| ==> lines[i].productId in catalog
  {
    if |lines| == 0 then 0
    else Coverable(lines[0], catalog) * VoucherCost(catalog[lines[0].productId])
         + VoucherCapacity(lines[1..], catalog)
  }

  /** The price of every coverable unit. */
  function CoverableValue(lines: seq<LineItem>, catalog: Catalog): int
    requires forall i :: 0 <= i < |lines| ==> lines[i].productId in catalog
  {
    if |lines| == 0 then 0
    else Coverable(lines[0], catalog) * lines[0].price + CoverableValue(lines[1..], catalog)
  }

  function Min(a: int, b: int): int {
    if a <= b then a else b
  }

  /** Spends up to `budget` vouchers on the lines in order, whole units at a
      time; each covered unit is discounted by its price. */
  function ApplyVouchers(lines: seq<LineItem>, catalog: Catalog, budget: nat): (v: VoucherUse)
    requires forall i :: 0 <= i < |lines| ==> lines[i].productId in catalog
    ensures v.used <= budget
    ensures v.used <= VoucherCapacity(lines, catalog)
    ensures v.used == 0 ==> v.discount == 0
  {
    if |lines| == 0 then VoucherUse(0, 0)
    else
      var cost := VoucherCost(catalog[lines[0].productId]);
      var units := if cost > 0 then Min(Coverable(lines[0], catalog), budget / cost) else 0;
      assert units * cost <= budget && units * cost <= Coverable(lines[0], catalog) * cost by {
        if cost > 0 {
          UnitsWithinBudget(units, Coverable(lines[0], catalog), cost, budget);
        }
      }
      var rest := ApplyVouchers(lines[1..], catalog, budget - units * cost);
      assert units * cost == 0 ==> units == 0 by {
        if cost > 0 {
          MulMonotone(units, 1, cost);
        }
      }
      VoucherUse(units * cost + rest.used, units * lines[0].price + rest.discount)
  }

  /** With enough vouchers every coverable unit is paid by vouchers. */
  lemma {:induction false} EnoughVouchersCoverAll(lines: seq<LineItem>, catalog: Catalog, budget: nat)
    requires forall i :: 0 <= i < |lines| ==> lines[i].productId in catalog
    requires VoucherCapacity(lines, catalog) <= budget
    ensures ApplyVouchers(lines, catalog, budget)
            == VoucherUse(VoucherCapacity(lines, catalog), CoverableValue(lines, catalog))
  {
    if |lines| > 0 {
      var cost := VoucherCost(catalog[lines[0].productId]);
      if cost > 0 {
        var c := Coverable(lines[0], catalog);
        assert c * cost <= budget;
        assert c <= budget / cost by {
          DivLowerBound(c, cost, budget);
        }
      }
      var units := if cost > 0 then Min(Coverable(lines[0], catalog), budget / cost) else 0;
      EnoughVouchersCoverAll(lines[1..], catalog, budget - units * cost);
    }
  }

  /**
   * When every product costs at most one voucher per unit, a budget no
   * larger than what the lines can absorb is spent in full: the greedy
   * pass never strands a voucher.
   */
  lemma {:induction false} UnitVouchersSpentInFull(lines: seq<LineItem>, catalog: Catalog, budget: nat)
    requires forall i :: 0 <= i < |lines| ==> lines[i].productId in catalog
    requires forall i :: 0 <= i < |lines| ==> VoucherCost(catalog[lines[i].productId]) <= 1
    requires budget <= VoucherCapacity(lines, catalog)
    ensures ApplyVouchers(lines, catalog, budget).used == budget
  {
    if |lines| > 0 {
      var cost := VoucherCost(catalog[lines[0].productId]);
      var c := Coverable(lines[0], catalog);
      var units := if cost > 0 then Min(c, budget / cost) else 0;
      UnitRemainderFits(c, cost, budget, VoucherCapacity(lines[1..], catalog));
      UnitVouchersSpentInFull(lines[1..], catalog, budget - units * cost);
    }
  }

  /** At one voucher per unit, what one line leaves of the budget fits the remaining lines. */
  lemma UnitRemainderFits(c: nat, cost: nat, budget: nat, restCapacity: nat)
    requires cost <= 1 && budget <= c * cost + restCapacity
    ensures var units := if cost > 0 then Min(c, budget / cost) else 0;
            units * cost <= budget && budget - units * cost <= restCapacity
  {
  }

  lemma DivLowerBound(c: nat, cost: nat, budget: nat)
    requires cost > 0 && c * cost <= budget
    ensures c <= budget / cost
  {
    MulMonotone(c, budget / cost + 1, cost);
    assert budget < (budget / cost + 1) * cost;
  }

  lemma MulMonotone(a: int, b: int, k: nat)
    ensures a >= b ==> a * k >= b * k
  {
    if a >= b {
      assert a * k - b * k == (a - b) * k;
    }
  }

  lemma UnitsWithinBudget(units: nat, c: nat, cost: nat, budget: nat)
    requires cost > 0 && units <= budget / cost && units <= c
    ensures units * cost <= budget && units * cost <= c * cost
  {
    assert (budget / cost) * cost <= budget;
  }

  // ---------------------------------------------------------------------
  // Sales

  datatype NewSale = NewSale(buttons: seq<ButtonQty>, usedVouchers: Option<nat>)

  datatype PendingSale = PendingSale(
    oldBalance: int,
    newBalance: int,
    oldVoucherBalance: nat,
    newVoucherBalance: nat,
    usedVouchers: nat,
    lineItems: seq<LineItem>,
    itemCount: nat,
    totalPrice: int)

  /** The aggregated product lines of a sale. */
  function SaleLines(sale: NewSale, layout: Layout, catalog: Catalog): (r: seq<LineItem>)
    requires AllKnown(sale.buttons, layout) && LayoutClosed(layout, catalog)
    ensures forall i :: 0 <= i < |r| ==> r[i].productId in catalog
  {
    var items := Expand(sale.buttons, layout, catalog);
    var r := Aggregate(items);
    assert forall k :: 0 <= k < |r| ==> r[k].productId in catalog by {
      forall k | 0 <= k < |r| ensures r[k].productId in catalog {
        assert items[IndexOf(items, r[k].productId).value].productId == r[k].productId;
      }
    }
    r
  }

  lemma SaleLinesFrom(sale: NewSale, layout: Layout, catalog: Catalog, items: seq<LineItem>, lines: seq<LineItem>)
    requires AllKnown(sale.buttons, layout) && LayoutClosed(layout, catalog)
    requires Expand(sale.buttons, layout, catalog) == items
    requires Aggregate(items) == lines
    ensures SaleLines(sale, layout, catalog) == lines
  {
  }

  /** The product lines followed by the discount line when vouchers are spent. */
  function WithDiscount(lines: seq<LineItem>, v: VoucherUse): (r: seq<LineItem>)
    ensures |r| == |lines| + (if v.used > 0 then 1 else 0)
    ensures r[..|lines|] == lines
    ensures v.used == 0 ==> r == lines
  {
    lines + (if v.used > 0 then [LineItem(DiscountProductId, 1, -v.discount, "none")] else [])
  }

  lemma WithDiscountTotal(lines: seq<LineItem>, v: VoucherUse)
    requires v.used == 0 ==> v.discount == 0
    ensures LineTotal(WithDiscount(lines, v)) == LineTotal(lines) - v.discount
  {
    if v.used > 0 {
      LineTotalAppend(lines, LineItem(DiscountProductId, 1, -v.discount, "none"));
    }
  }

  function VoucherBudget(sale: NewSale, customer: Customer): nat {
    if sale.usedVouchers.Some? then sale.usedVouchers.value else customer.vouchers
  }

  /** Checks a sale: unknown buttons, then returns of non-returnable
      products, then a voucher request above the customer's vouchers are
      refused; otherwise the pending sale lists one line per product plus a
      discount line when vouchers are spent. */
  function CheckSale(ledger: map<AccountId, int>, layout: Layout, catalog: Catalog, customer: Customer, sale: NewSale)
    : (r: Result<PendingSale, OrderError>)
    requires LayoutClosed(layout, catalog)
    ensures !AllKnown(sale.buttons, layout) ==> r == Failure(UnknownButton)
    ensures AllKnown(sale.buttons, layout) && !ReturnsAllowed(sale.buttons, layout, catalog) ==> r == Failure(InvalidSale)
    ensures AllKnown(sale.buttons, layout) && ReturnsAllowed(sale.buttons, layout, catalog) ==>
              (r.Failure? <==> sale.usedVouchers.Some? && sale.usedVouchers.value > customer.vouchers)
    ensures r.Failure? && sale.usedVouchers.Some? && sale.usedVouchers.value > customer.vouchers
            && AllKnown(sale.buttons, layout) && ReturnsAllowed(sale.buttons, layout, catalog)
            ==> r.error == NotEnoughVouchers(sale.usedVouchers.value, customer.vouchers)
    ensures r.Success? ==>
              && r.value.oldBalance == Balance(ledger, User(customer.accountId))
              && r.value.newBalance == r.value.oldBalance - r.value.totalPrice
              && r.value.totalPrice == LineTotal(r.value.lineItems)
              && r.value.itemCount == |r.value.lineItems|
              && r.value.oldVoucherBalance == customer.vouchers
              && r.value.usedVouchers <= VoucherBudget(sale, customer)
              && r.value.newVoucherBalance == customer.vouchers - r.value.usedVouchers
  {
    if !AllKnown(sale.buttons, layout) then Failure(UnknownButton)
    else if !ReturnsAllowed(sale.buttons, layout, catalog) then Failure(InvalidSale)
    else if sale.usedVouchers.Some? && sale.usedVouchers.value > customer.vouchers then
      Failure(NotEnoughVouchers(sale.usedVouchers.value, customer.vouchers))
    else
      var lines := SaleLines(sale, layout, catalog);
      var v := ApplyVouchers(lines, catalog, VoucherBudget(sale, customer));
      var items := WithDiscount(lines, v);
      var before := Balance(ledger, User(customer.accountId));
      var total := LineTotal(items);
      Success(PendingSale(before, before - total, customer.vouchers, customer.vouchers - v.used, v.used, items, |items|, total))
  }

  /** With no vouchers to spend the order is exactly the aggregated
      product lines: no voucher is used and no discount line is added. */
  lemma SaleWithoutVouchers(ledger: map<AccountId, int>, layout: Layout, catalog: Catalog, customer: Customer, sale: NewSale)
    requires LayoutClosed(layout, catalog)
    requires AllKnown(sale.buttons, layout) && ReturnsAllowed(sale.buttons, layout, catalog)
    requires VoucherBudget(sale, customer) == 0
    ensures var r := CheckSale(ledger, layout, catalog, customer, sale);
            && r.Success?
            && r.value.lineItems == SaleLines(sale, layout, catalog)
            && r.value.usedVouchers == 0
            && r.value.newVoucherBalance == customer.vouchers
  {
  }


  /** The sale total is the reference total of the pressed buttons minus
      the voucher discount, and the lines are the buttons' products
      aggregated. */
  lemma SaleTotal(ledger: map<AccountId, int>, layout: Layout, catalog: Catalog, customer: Customer, sale: NewSale)
    requires LayoutClosed(layout, catalog)
    requires CheckSale(ledger, layout, catalog, customer, sale).Success?
    ensures var p := CheckSale(ledger, layout, catalog, customer, sale).value;
            var lines := SaleLines(sale, layout, catalog);
            var v := ApplyVouchers(lines, catalog, VoucherBudget(sale, customer));
            && p.totalPrice == ButtonsTotal(sale.buttons, layout, catalog) - v.discount
            && p.usedVouchers == v.used
            && p.lineItems == WithDiscount(lines, v)
  {
    var lines := SaleLines(sale, layout, catalog);
    var v := ApplyVouchers(lines, catalog, VoucherBudget(sale, customer));
    SaleShape(ledger, layout, catalog, customer, sale);
    SaleLinesTotal(sale, layout, catalog);
    WithDiscountTotal(lines, v);
  }

  lemma SaleShape(ledger: map<AccountId, int>, layout: Layout, catalog: Catalog, customer: Customer, sale: NewSale)
    requires LayoutClosed(layout, catalog)
    requires CheckSale(ledger, layout, catalog, customer, sale).Success?
    ensures AllKnown(sale.buttons, layout)
    ensures var p := CheckSale(ledger, layout, catalog, customer, sale).value;
            var lines := SaleLines(sale, layout, catalog);
            var v := ApplyVouchers(lines, catalog, VoucherBudget(sale, customer));
            && p.totalPrice == LineTotal(WithDiscount(lines, v))
            && p.usedVouchers == v.used
            && p.lineItems == WithDiscount(lines, v)
  {
  }

  /**
   * A fixed voucher request the customer can afford, on products costing
   * at most one voucher each and within what the sale can absorb, is
   * booked in full: exactly that many vouchers leave the balance.
   */
  lemma FixedVouchersSpentInFull(ledger: map<AccountId, int>, layout: Layout, catalog: Catalog,
                                 customer: Customer, sale: NewSale, n: nat)
    requires LayoutClosed(layout, catalog)
    requires AllKnown(sale.buttons, layout) && ReturnsAllowed(sale.buttons, layout, catalog)
    requires sale.usedVouchers == Some(n) && n <= customer.vouchers
    requires var lines := SaleLines(sale, layout, catalog);
             && (forall i :: 0 <= i < |lines| ==> VoucherCost(catalog[lines[i].productId]) <= 1)
             && n <= VoucherCapacity(lines, catalog)
    ensures CheckSale(ledger, layout, catalog, customer, sale).Success?
    ensures CheckSale(ledger, layout, catalog, customer, sale).value.usedVouchers == n
    ensures CheckSale(ledger, layout, catalog, customer, sale).value.newVoucherBalance == customer.vouchers - n
  {
    SaleShape(ledger, layout, catalog, customer, sale);
    UnitVouchersSpentInFull(SaleLines(sale, layout, catalog), catalog, n);
  }

  /** The aggregated lines are worth what the pressed buttons are worth. */
  lemma SaleLinesTotal(sale: NewSale, layout: Layout, catalog: Catalog)
    requires AllKnown(sale.buttons, layout) && LayoutClosed(layout, catalog)
    ensures LineTotal(SaleLines(sale, layout, catalog)) == ButtonsTotal(sale.buttons, layout, catalog)
  {
    var items := Expand(sale.buttons, layout, catalog);
    ExpandPriceConsistent(sale.buttons, layout, catalog);
    AggregatePreservesTotal(items);
    ExpandTotal(sale.buttons, layout, catalog);
  }

  /** Each product's line carries the summed quantity of all presses. */
  lemma SaleLinesPerProduct(layout: Layout, catalog: Catalog, sale: NewSale, id: int)
    requires LayoutClosed(layout, catalog) && AllKnown(sale.buttons, layout)
    ensures UniqueProducts(SaleLines(sale, layout, catalog))
    ensures QuantityOf(SaleLines(sale, layout, catalog), id) == QuantityOf(Expand(sale.buttons, layout, catalog), id)
  {
    AggregatePreservesQuantity(Expand(sale.buttons, layout, catalog), id);
  }

  /** Without a voucher request and with vouchers for every coverable unit,
      those units are free and the customer pays only for the rest. */
  lemma AutomaticVouchersCoverAll(ledger: map<AccountId, int>, layout: Layout, catalog: Catalog, customer: Customer, sale: NewSale)
    requires LayoutClosed(layout, catalog)
    requires CheckSale(ledger, layout, catalog, customer, sale).Success?
    requires sale.usedVouchers.None?
    requires VoucherCapacity(SaleLines(sale, layout, catalog), catalog) <= customer.vouchers
    ensures var p := CheckSale(ledger, layout, catalog, customer, sale).value;
            var lines := SaleLines(sale, layout, catalog);
            && p.usedVouchers == VoucherCapacity(lines, catalog)
            && p.totalPrice == ButtonsTotal(sale.buttons, layout, catalog) - CoverableValue(lines, catalog)
  {
    EnoughVouchersCoverAll(SaleLines(sale, layout, catalog), catalog, customer.vouchers);
    SaleTotal(ledger, layout, catalog, customer, sale);
  }

  function SaleTransfers(customer: Customer, total: int): seq<Transfer> {
    [Transfer(User(customer.accountId), System(SaleExit), total)]
  }

  /** Books a sale: the check's pending sale, the customer charged its total
      into the sale exit account, and the customer's vouchers reduced. */
  function BookSale(ledger: map<AccountId, int>, layout: Layout, catalog: Catalog, customer: Customer, sale: NewSale)
    : (r: Result<(map<AccountId, int>, Customer, PendingSale), OrderError>)
    requires LayoutClosed(layout, catalog)
    ensures r.Failure? <==> CheckSale(ledger, layout, catalog, customer, sale).Failure?
    ensures r.Success? ==> r.value.2 == CheckSale(ledger, layout, catalog, customer, sale).value
  {
    match CheckSale(ledger, layout, catalog, customer, sale)
    case Failure(e) => Failure(e)
    case Success(p) =>
      Success((ApplyTransfers(ledger, SaleTransfers(customer, p.totalPrice)),
               customer.(vouchers := p.newVoucherBalance), p))
  }

  /** `after` is `before` with `total` moved from the customer to the sale
      exit, and `a` untouched unless it is one of the two. */
  predicate Charged(before: map<AccountId, int>, after: map<AccountId, int>, customer: Customer, total: int, a: AccountId) {
    && Balance(after, User(customer.accountId)) == Balance(before, User(customer.accountId)) - total
    && Balance(after, System(SaleExit)) == Balance(before, System(SaleExit)) + total
    && (a != User(customer.accountId) && a != System(SaleExit) ==> Balance(after, a) == Balance(before, a))
  }

  /** Charging a sale moves its total from the customer to the sale exit
      and touches no other account. */
  lemma SaleTransfersDelta(ledger: map<AccountId, int>, customer: Customer, total: int, a: AccountId)
    ensures Charged(ledger, ApplyTransfers(ledger, SaleTransfers(customer, total)), customer, total, a)
  {
    var ts := SaleTransfers(customer, total);
    ApplyTransfersDelta(ledger, ts, a);
    ApplyTransfersDelta(ledger, ts, User(customer.accountId));
    ApplyTransfersDelta(ledger, ts, System(SaleExit));
  }

  /** The booked balances are the ones the check announced. */
  lemma BookedSaleMatchesCheck(ledger: map<AccountId, int>, layout: Layout, catalog: Catalog, customer: Customer, sale: NewSale, a: AccountId)
    requires LayoutClosed(layout, catalog)
    requires BookSale(ledger, layout, catalog, customer, sale).Success?
    ensures var r := BookSale(ledger, layout, catalog, customer, sale).value;
            && Charged(ledger, r.0, customer, r.2.totalPrice, a)
            && Balance(r.0, User(customer.accountId)) == r.2.newBalance
            && r.1.vouchers == r.2.newVoucherBalance
  {
    var r := BookSale(ledger, layout, catalog, customer, sale).value;
    SaleTransfersDelta(ledger, customer, r.2.totalPrice, a);
  }

  // ---------------------------------------------------------------------
  // Top-ups

  datatype NewTopUp = NewTopUp(amount: int, paymentMethod: PaymentMethod)

  datatype PendingTopUp = PendingTopUp(oldBalance: int, amount: int, newBalance: int)

  /** A till accepts cash and card (sumup) payments. */
  predicate TillPayment(pm: PaymentMethod) {
    pm == Cash || pm == Sumup
  }

  /** Checks a top-up: the till profile must allow top-ups and the payment
      must be cash or card; the new balance is the old one plus the amount. */
  function CheckTopUp(ledger: map<AccountId, int>, profile: TillProfile, customer: Customer, t: NewTopUp)
    : (r: Result<PendingTopUp, OrderError>)
    ensures !profile.allowTopUp ==> r == Failure(TillPermission)
    ensures profile.allowTopUp ==> (r.Failure? <==> !TillPayment(t.paymentMethod))
    ensures r.Success? ==>
              && r.value.oldBalance == Balance(ledger, User(customer.accountId))
              && r.value.amount == t.amount
              && r.value.newBalance == r.value.oldBalance + t.amount
  {
    if !profile.allowTopUp then Failure(TillPermission)
    else if !TillPayment(t.paymentMethod) then Failure(InvalidPaymentMethod)
    else
      var before := Balance(ledger, User(customer.accountId));
      Success(PendingTopUp(before, t.amount, before + t.amount))
  }

  /** Cash enters through the cash entry account into the customer and
      through the vault into the cashier's drawer; card money enters through
      the sumup account. */
  function TopUpTransfers(pm: PaymentMethod, customer: Customer, cashierAccount: int, amount: int): seq<Transfer> {
    if pm == Cash then
      [Transfer(System(CashEntry), User(customer.accountId), amount),
       Transfer(System(CashVault), User(cashierAccount), amount)]
    else [Transfer(System(SumupEntry), User(customer.accountId), amount)]
  }

  function BookTopUp(ledger: map<AccountId, int>, profile: TillProfile, customer: Customer, cashierAccount: int, t: NewTopUp)
    : (r: Result<(map<AccountId, int>, PendingTopUp), OrderError>)
    ensures r.Failure? <==> CheckTopUp(ledger, profile, customer, t).Failure?
    ensures r.Success? ==> r.value.1 == CheckTopUp(ledger, profile, customer, t).value
  {
    match CheckTopUp(ledger, profile, customer, t)
    case Failure(e) => Failure(e)
    case Success(p) => Success((ApplyTransfers(ledger, TopUpTransfers(t.paymentMethod, customer, cashierAccount, t.amount)), p))
  }

  /** A booked top-up credits the customer with the amount; cash also fills
      the cashier's drawer from the vault and debits the cash entry, card
      money debits the sumup account; nothing else moves. */
  lemma BookedTopUpDeltas(ledger: map<AccountId, int>, profile: TillProfile, customer: Customer, cashierAccount: int, t: NewTopUp, a: AccountId)
    requires cashierAccount != customer.accountId
    requires BookTopUp(ledger, profile, customer, cashierAccount, t).Success?
    ensures var r := BookTopUp(ledger, profile, customer, cashierAccount, t).value;
            var booked := r.0;
            && Balance(booked, User(customer.accountId)) == r.1.newBalance
            && (t.paymentMethod == Cash ==>
                  && Balance(booked, User(cashierAccount)) == Balance(ledger, User(cashierAccount)) + t.amount
                  && Balance(booked, System(CashEntry)) == Balance(ledger, System(CashEntry)) - t.amount
                  && Balance(booked, System(CashVault)) == Balance(ledger, System(CashVault)) - t.amount
                  && (a !in {User(customer.accountId), User(cashierAccount), System(CashEntry), System(CashVault)}
                      ==> Balance(booked, a) == Balance(ledger, a)))
            && (t.paymentMethod == Sumup ==>
                  && Balance(booked, System(SumupEntry)) == Balance(ledger, System(SumupEntry)) - t.amount
                  && (a !in {User(customer.accountId), System(SumupEntry)} ==> Balance(booked, a) == Balance(ledger, a)))
  {
    var ts := TopUpTransfers(t.paymentMethod, customer, cashierAccount, t.amount);
    if t.paymentMethod == Cash {
      forall x { FlowOfTwo(ts[0], ts[1], x); }
    }
    ApplyTransfersDelta(ledger, ts, a);
    ApplyTransfersDelta(ledger, ts, User(customer.accountId));
    ApplyTransfersDelta(ledger, ts, User(cashierAccount));
    ApplyTransfersDelta(ledger, ts, System(CashEntry));
    ApplyTransfersDelta(ledger, ts, System(CashVault));
    ApplyTransfersDelta(ledger, ts, System(SumupEntry));
  }

  // ---------------------------------------------------------------------
  // Pay-outs

  /** A pay-out amount is negative (money leaves the account); without one
      the whole balance is paid out. */
  datatype NewPayOut = NewPayOut(amount: Option<int>)

  datatype PendingPayOut = PendingPayOut(oldBalance: int, amount: int, newBalance: int)

  function Abs(x: int): nat {
    if x < 0 then -x else x
  }

  /** Checks a pay-out: the till profile must allow cash-outs, and the
      amount paid out may not exceed the balance. */
  function CheckPayOut(ledger: map<AccountId, int>, profile: TillProfile, customer: Customer, p: NewPayOut)
    : (r: Result<PendingPayOut, OrderError>)
    ensures !profile.allowCashOut ==> r == Failure(TillPermission)
    ensures var before := Balance(ledger, User(customer.accountId));
            var amount := if p.amount.Some? then p.amount.value else -before;
            && (profile.allowCashOut ==> (r.Failure? <==> Abs(amount) > before))
            && (r.Failure? && profile.allowCashOut ==> r.error == NotEnoughFunds(amount, before))
            && (r.Success? ==> r.value == PendingPayOut(before, amount, before + amount))
  {
    var before := Balance(ledger, User(customer.accountId));
    var amount := if p.amount.Some? then p.amount.value else -before;
    if !profile.allowCashOut then Failure(TillPermission)
    else if Abs(amount) > before then Failure(NotEnoughFunds(amount, before))
    else Success(PendingPayOut(before, amount, before + amount))
  }

  /** Paying out everything leaves the account empty. */
  lemma PayOutAllEmptiesAccount(ledger: map<AccountId, int>, profile: TillProfile, customer: Customer)
    requires profile.allowCashOut && Balance(ledger, User(customer.accountId)) >= 0
    ensures CheckPayOut(ledger, profile, customer, NewPayOut(None)).Success?
    ensures CheckPayOut(ledger, profile, customer, NewPayOut(None)).value.newBalance == 0
  {
  }

  /** The customer's money leaves through the cash exit; the cashier's
      drawer hands it over, refilled from the vault's point of view. */
  function PayOutTransfers(customer: Customer, cashierAccount: int, amount: int): seq<Transfer> {
    [Transfer(User(customer.accountId), System(CashExit), -amount),
     Transfer(User(cashierAccount), System(CashVault), -amount)]
  }

  function BookPayOut(ledger: map<AccountId, int>, profile: TillProfile, customer: Customer, cashierAccount: int, p: NewPayOut)
    : (r: Result<(map<AccountId, int>, PendingPayOut), OrderError>)
    ensures r.Failure? <==> CheckPayOut(ledger, profile, customer, p).Failure?
    ensures r.Success? ==> r.value.1 == CheckPayOut(ledger, profile, customer, p).value
  {
    match CheckPayOut(ledger, profile, customer, p)
    case Failure(e) => Failure(e)
    case Success(q) => Success((ApplyTransfers(ledger, PayOutTransfers(customer, cashierAccount, q.amount)), q))
  }

  lemma BookedPayOutDeltas(ledger: map<AccountId, int>, profile: TillProfile, customer: Customer, cashierAccount: int, p: NewPayOut, a: AccountId)
    requires cashierAccount != customer.accountId
    requires BookPayOut(ledger, profile, customer, cashierAccount, p).Success?
    ensures var r := BookPayOut(ledger, profile, customer, cashierAccount, p).value;
            var booked := r.0;
            var paid := -r.1.amount;
            && Balance(booked, User(customer.accountId)) == r.1.newBalance
            && Balance(booked, User(cashierAccount)) == Balance(ledger, User(cashierAccount)) - paid
            && Balance(booked, System(CashExit)) == Balance(ledger, System(CashExit)) + paid
            && Balance(booked, System(CashVault)) == Balance(ledger, System(CashVault)) + paid
            && (a !in {User(customer.accountId), User(cashierAccount), System(CashExit), System(CashVault)}
                ==> Balance(booked, a) == Balance(ledger, a))
  {
    var q := CheckPayOut(ledger, profile, customer, p).value;
    var ts := PayOutTransfers(customer, cashierAccount, q.amount);
    forall x { FlowOfTwo(ts[0], ts[1], x); }
    ApplyTransfersDelta(ledger, ts, a);
    ApplyTransfersDelta(ledger, ts, User(customer.accountId));
    ApplyTransfersDelta(ledger, ts, User(cashierAccount));
    ApplyTransfersDelta(ledger, ts, System(CashExit));
    ApplyTransfersDelta(ledger, ts, System(CashVault));
  }

  // ---------------------------------------------------------------------
  // Ticket sales

  /** A new customer tag, its age class, and the account it will hold. */
  datatype TicketTag = TicketTag(uid: nat, restriction: Option<AgeRestriction>, accountId: int)

  datatype NewTicketSale = NewTicketSale(tags: seq<TicketTag>, tickets: seq<ButtonQty>, paymentMethod: PaymentMethod)

  datatype PendingTicketSale = PendingTicketSale(
    lineItems: seq<LineItem>,
    itemCount: nat,
    ticketTotal: int,
    totalPrice: int)

  /** Tickets sold for the age class `r`. */
  function TicketsFor(items: seq<LineItem>, catalog: Catalog, r: Option<AgeRestriction>): int
    requires forall i :: 0 <= i < |items| ==> items[i].productId in catalog
  {
    if |items| == 0 then 0
    else (if catalog[items[0].productId].restriction == r then items[0].quantity else 0)
         + TicketsFor(items[1..], catalog, r)
  }

  /** Tags of the age class `r`. */
  function TagsWith(tags: seq<TicketTag>, r: Option<AgeRestriction>): nat {
    if |tags| == 0 then 0 else (if tags[0].restriction == r then 1 else 0) + TagsWith(tags[1..], r)
  }

  /** Every tag gets exactly one ticket of its own age class. */
  predicate RestrictionsMatch(items: seq<LineItem>, catalog: Catalog, tags: seq<TicketTag>)
    requires forall i :: 0 <= i < |items| ==> items[i].productId in catalog
  {
    && TicketsFor(items, catalog, None) == TagsWith(tags, None)
    && TicketsFor(items, catalog, Some(Under18)) == TagsWith(tags, Some(Under18))
    && TicketsFor(items, catalog, Some(Under16)) == TagsWith(tags, Some(Under16))
  }

  function TopUpLine(tags: seq<TicketTag>, initialTopUp: int): LineItem {
    LineItem(TopUpProductId, |tags|, initialTopUp, "none")
  }

  /** Checks a ticket sale: the till profile must allow ticket sales, every
      button must exist, the payment must be cash or card, and the tickets
      must match the tags' age classes one for one.  The order is one line
      per ticket product plus one initial top-up line for all tags. */
  function CheckTicketSale(layout: Layout, catalog: Catalog, profile: TillProfile, initialTopUp: int, s: NewTicketSale)
    : (r: Result<PendingTicketSale, OrderError>)
    requires LayoutClosed(layout, catalog)
    ensures !profile.allowTicketSale ==> r == Failure(TillPermission)
    ensures profile.allowTicketSale && !AllKnown(s.tickets, layout) ==> r == Failure(UnknownButton)
    ensures profile.allowTicketSale && AllKnown(s.tickets, layout) && !TillPayment(s.paymentMethod)
            ==> r == Failure(InvalidPaymentMethod)
    ensures profile.allowTicketSale && AllKnown(s.tickets, layout) && TillPayment(s.paymentMethod) ==>
              (r.Failure? <==> !RestrictionsMatch(Expand(s.tickets, layout, catalog), catalog, s.tags))
    ensures r.Success? ==>
              && r.value.totalPrice == LineTotal(r.value.lineItems)
              && r.value.itemCount == |r.value.lineItems|
              && |r.value.lineItems| > 0
              && r.value.lineItems[|r.value.lineItems| - 1] == TopUpLine(s.tags, initialTopUp)
  {
    if !profile.allowTicketSale then Failure(TillPermission)
    else if !AllKnown(s.tickets, layout) then Failure(UnknownButton)
    else if !TillPayment(s.paymentMethod) then Failure(InvalidPaymentMethod)
    else if !RestrictionsMatch(Expand(s.tickets, layout, catalog), catalog, s.tags) then Failure(InvalidArgument)
    else
      var tickets := Aggregate(Expand(s.tickets, layout, catalog));
      var lines := tickets + [TopUpLine(s.tags, initialTopUp)];
      Success(PendingTicketSale(lines, |lines|, LineTotal(tickets), LineTotal(lines)))
  }

  lemma TicketSaleAccepted(layout: Layout, catalog: Catalog, profile: TillProfile, initialTopUp: int, s: NewTicketSale,
                           items: seq<LineItem>)
    requires LayoutClosed(layout, catalog)
    requires profile.allowTicketSale && AllKnown(s.tickets, layout) && TillPayment(s.paymentMethod)
    requires Expand(s.tickets, layout, catalog) == items
    requires RestrictionsMatch(items, catalog, s.tags)
    ensures var r := CheckTicketSale(layout, catalog, profile, initialTopUp, s);
            r.Success? && r.value.itemCount == |Aggregate(items)| + 1
  {
  }

  /** The lines before the top-up line are one line per ticket product,
      each carrying the summed quantity of all presses of that product. */
  lemma TicketLinesPerProduct(layout: Layout, catalog: Catalog, profile: TillProfile, initialTopUp: int,
                              s: NewTicketSale, id: int)
    requires LayoutClosed(layout, catalog)
    requires CheckTicketSale(layout, catalog, profile, initialTopUp, s).Success?
    ensures var lines := CheckTicketSale(layout, catalog, profile, initialTopUp, s).value.lineItems;
            && UniqueProducts(lines[..|lines| - 1])
            && QuantityOf(lines[..|lines| - 1], id) == QuantityOf(Expand(s.tickets, layout, catalog), id)
  {
    var lines := CheckTicketSale(layout, catalog, profile, initialTopUp, s).value.lineItems;
    TicketLinesShape(layout, catalog, profile, initialTopUp, s);
    AggregateThenLine(Expand(s.tickets, layout, catalog), lines, TopUpLine(s.tags, initialTopUp), id);
  }

  lemma TicketLinesShape(layout: Layout, catalog: Catalog, profile: TillProfile, initialTopUp: int, s: NewTicketSale)
    requires LayoutClosed(layout, catalog)
    requires CheckTicketSale(layout, catalog, profile, initialTopUp, s).Success?
    ensures CheckTicketSale(layout, catalog, profile, initialTopUp, s).value.lineItems
            == Aggregate(Expand(s.tickets, layout, catalog)) + [TopUpLine(s.tags, initialTopUp)]
  {
  }

  lemma AggregateThenLine(items: seq<LineItem>, lines: seq<LineItem>, last: LineItem, id: int)
    requires lines == Aggregate(items) + [last]
    ensures UniqueProducts(lines[..|lines| - 1])
    ensures QuantityOf(lines[..|lines| - 1], id) == QuantityOf(items, id)
  {
    assert lines[..|lines| - 1] == Aggregate(items);
    AggregatePreservesQuantity(items, id);
  }

  /** The ticket sale costs the tickets at their prices plus the initial
      top-up for every tag. */
  lemma TicketTotal(layout: Layout, catalog: Catalog, profile: TillProfile, initialTopUp: int, s: NewTicketSale)
    requires LayoutClosed(layout, catalog)
    requires CheckTicketSale(layout, catalog, profile, initialTopUp, s).Success?
    ensures var p := CheckTicketSale(layout, catalog, profile, initialTopUp, s).value;
            && p.ticketTotal == ButtonsTotal(s.tickets, layout, catalog)
            && p.totalPrice == p.ticketTotal + |s.tags| * initialTopUp
  {
    var items := Expand(s.tickets, layout, catalog);
    var tickets := Aggregate(items);
    ExpandPriceConsistent(s.tickets, layout, catalog);
    AggregatePreservesTotal(items);
    ExpandTotal(s.tickets, layout, catalog);
    LineTotalAppend(tickets, TopUpLine(s.tags, initialTopUp));
  }

  /** How many tags hold the account `x`. */
  function AccountCount(tags: seq<TicketTag>, x: int): nat {
    if |tags| == 0 then 0 else (if tags[0].accountId == x then 1 else 0) + AccountCount(tags[1..], x)
  }

  /** One initial top-up from `src` to every tag's account. */
  function TagTransfers(tags: seq<TicketTag>, src: SystemAccount, amount: int): (r: seq<Transfer>)
    ensures |r| == |tags|
  {
    if |tags| == 0 then [] else [Transfer(System(src), User(tags[0].accountId), amount)] + TagTransfers(tags[1..], src, amount)
  }

  lemma {:induction false} TagTransfersFlow(tags: seq<TicketTag>, src: SystemAccount, amount: int, a: AccountId)
    ensures Inflow(TagTransfers(tags, src, amount), a) == (if a.User? then amount * AccountCount(tags, a.id) else 0)
    ensures Outflow(TagTransfers(tags, src, amount), a) == (if a == System(src) then amount * |tags| else 0)
  {
    TagInflow(tags, src, amount, a);
    TagOutflow(tags, src, amount, a);
  }

  lemma {:induction false} TagInflow(tags: seq<TicketTag>, src: SystemAccount, amount: int, a: AccountId)
    ensures Inflow(TagTransfers(tags, src, amount), a) == (if a.User? then amount * AccountCount(tags, a.id) else 0)
  {
    if |tags| > 0 {
      var ts := TagTransfers(tags, src, amount);
      var rest := tags[1..];
      assert ts[1..] == TagTransfers(rest, src, amount);
      TagInflow(rest, src, amount, a);
      if a.User? {
        var c := if tags[0].accountId == a.id then 1 else 0;
        assert Into(ts[0], a) == amount * c;
        Distribute(amount, c, AccountCount(rest, a.id));
      }
    }
  }

  lemma {:induction false} TagOutflow(tags: seq<TicketTag>, src: SystemAccount, amount: int, a: AccountId)
    ensures Outflow(TagTransfers(tags, src, amount), a) == (if a == System(src) then amount * |tags| else 0)
  {
    if |tags| > 0 {
      var ts := TagTransfers(tags, src, amount);
      var rest := tags[1..];
      assert ts[1..] == TagTransfers(rest, src, amount);
      TagOutflow(rest, src, amount, a);
      Distribute(amount, 1, |rest|);
    }
  }

  lemma Distribute(x: int, c: int, k: int)
    ensures x * (c + k) == x * c + x * k
  {
  }

  function TicketSource(pm: PaymentMethod): SystemAccount {
    if pm == Cash then CashEntry else SumupEntry
  }

  /** Ticket money goes to the sale exit and each tag's top-up to the tag,
      both from the cash entry (cash) or the sumup account (card); cash
      also fills the cashier's drawer from the vault. */
  function TicketTransfers(s: NewTicketSale, cashierAccount: int, initialTopUp: int, p: PendingTicketSale): seq<Transfer> {
    [Transfer(System(TicketSource(s.paymentMethod)), System(SaleExit), p.ticketTotal)]
    + TagTransfers(s.tags, TicketSource(s.paymentMethod), initialTopUp)
    + (if s.paymentMethod == Cash then [Transfer(System(CashVault), User(cashierAccount), p.totalPrice)] else [])
  }

  function BookTicketSale(ledger: map<AccountId, int>, layout: Layout, catalog: Catalog, profile: TillProfile,
                          cashierAccount: int, initialTopUp: int, s: NewTicketSale)
    : (r: Result<(map<AccountId, int>, PendingTicketSale), OrderError>)
    requires LayoutClosed(layout, catalog)
    ensures r.Failure? <==> CheckTicketSale(layout, catalog, profile, initialTopUp, s).Failure?
    ensures r.Success? ==> r.value.1 == CheckTicketSale(layout, catalog, profile, initialTopUp, s).value
  {
    match CheckTicketSale(layout, catalog, profile, initialTopUp, s)
    case Failure(e) => Failure(e)
    case Success(p) => Success((ApplyTransfers(ledger, TicketTransfers(s, cashierAccount, initialTopUp, p)), p))
  }

  lemma TicketTransfersFlow(s: NewTicketSale, cashierAccount: int, initialTopUp: int, p: PendingTicketSale, a: AccountId)
    ensures var ts := TicketTransfers(s, cashierAccount, initialTopUp, p);
            var src := TicketSource(s.paymentMethod);
            var cash := s.paymentMethod == Cash;
            && Inflow(ts, a) == (if a == System(SaleExit) then p.ticketTotal else 0)
                                + (if a.User? then initialTopUp * AccountCount(s.tags, a.id) else 0)
                                + (if cash && a == User(cashierAccount) then p.totalPrice else 0)
            && Outflow(ts, a) == (if a == System(src) then p.ticketTotal + initialTopUp * |s.tags| else 0)
                                 + (if cash && a == System(CashVault) then p.totalPrice else 0)
  {
    var src := TicketSource(s.paymentMethod);
    var head := [Transfer(System(src), System(SaleExit), p.ticketTotal)];
    var tags := TagTransfers(s.tags, src, initialTopUp);
    var tail := if s.paymentMethod == Cash then [Transfer(System(CashVault), User(cashierAccount), p.totalPrice)] else [];
    FlowConcat(head + tags, tail, a);
    FlowConcat(head, tags, a);
    TagTransfersFlow(s.tags, src, initialTopUp, a);
    assert head[1..] == [] && (|tail| > 0 ==> tail[1..] == []);
  }

  lemma TicketBalances(ledger: map<AccountId, int>, s: NewTicketSale, cashierAccount: int, initialTopUp: int,
                       p: PendingTicketSale, x: int)
    requires p.totalPrice == p.ticketTotal + |s.tags| * initialTopUp
    requires x != cashierAccount && AccountCount(s.tags, cashierAccount) == 0
    ensures var booked := ApplyTransfers(ledger, TicketTransfers(s, cashierAccount, initialTopUp, p));
            && Balance(booked, User(x)) == Balance(ledger, User(x)) + initialTopUp * AccountCount(s.tags, x)
            && Balance(booked, System(SaleExit)) == Balance(ledger, System(SaleExit)) + p.ticketTotal
            && (s.paymentMethod == Cash ==>
                  && Balance(booked, System(CashEntry)) == Balance(ledger, System(CashEntry)) - p.totalPrice
                  && Balance(booked, System(CashVault)) == Balance(ledger, System(CashVault)) - p.totalPrice
                  && Balance(booked, User(cashierAccount)) == Balance(ledger, User(cashierAccount)) + p.totalPrice)
            && (s.paymentMethod == Sumup ==>
                  Balance(booked, System(SumupEntry)) == Balance(ledger, System(SumupEntry)) - p.totalPrice)
  {
    var ts := TicketTransfers(s, cashierAccount, initialTopUp, p);
    TicketTransfersFlow(s, cashierAccount, initialTopUp, p, User(x));
    ApplyTransfersDelta(ledger, ts, User(x));
    TicketTransfersFlow(s, cashierAccount, initialTopUp, p, System(SaleExit));
    ApplyTransfersDelta(ledger, ts, System(SaleExit));
    TicketTransfersFlow(s, cashierAccount, initialTopUp, p, System(CashEntry));
    ApplyTransfersDelta(ledger, ts, System(CashEntry));
    TicketTransfersFlow(s, cashierAccount, initialTopUp, p, System(CashVault));
    ApplyTransfersDelta(ledger, ts, System(CashVault));
    TicketTransfersFlow(s, cashierAccount, initialTopUp, p, User(cashierAccount));
    ApplyTransfersDelta(ledger, ts, User(cashierAccount));
    TicketTransfersFlow(s, cashierAccount, initialTopUp, p, System(SumupEntry));
    ApplyTransfersDelta(ledger, ts, System(SumupEntry));
  }

  /** After a booked ticket sale each tag's account gained the initial
      top-up once per tag holding it; the sale exit gained the ticket money;
      the paying side lost the total. */
  lemma BookedTicketDeltas(ledger: map<AccountId, int>, layout: Layout, catalog: Catalog, profile: TillProfile,
                           cashierAccount: int, initialTopUp: int, s: NewTicketSale, x: int)
    requires LayoutClosed(layout, catalog)
    requires BookTicketSale(ledger, layout, catalog, profile, cashierAccount, initialTopUp, s).Success?
    requires x != cashierAccount
    requires forall i :: 0 <= i < |s.tags| ==> s.tags[i].accountId != cashierAccount
    ensures var r := BookTicketSale(ledger, layout, catalog, profile, cashierAccount, initialTopUp, s).value;
            var booked := r.0;
            var p := r.1;
            && Balance(booked, User(x)) == Balance(ledger, User(x)) + initialTopUp * AccountCount(s.tags, x)
            && Balance(booked, System(SaleExit)) == Balance(ledger, System(SaleExit)) + p.ticketTotal
            && (s.paymentMethod == Cash ==>
                  && Balance(booked, System(CashEntry)) == Balance(ledger, System(CashEntry)) - p.totalPrice
                  && Balance(booked, System(CashVault)) == Balance(ledger, System(CashVault)) - p.totalPrice
                  && Balance(booked, User(cashierAccount)) == Balance(ledger, User(cashierAccount)) + p.totalPrice)
            && (s.paymentMethod == Sumup ==>
                  Balance(booked, System(SumupEntry)) == Balance(ledger, System(SumupEntry)) - p.totalPrice)
  {
    var p := CheckTicketSale(layout, catalog, profile, initialTopUp, s).value;
    TicketTotal(layout, catalog, profile, initialTopUp, s);
    NotHeldCountsZero(s.tags, cashierAccount);
    TicketBalances(ledger, s, cashierAccount, initialTopUp, p, x);
  }

  lemma {:induction false} NotHeldCountsZero(tags: seq<TicketTag>, x: int)
    requires forall i :: 0 <= i < |tags| ==> tags[i].accountId != x
    ensures AccountCount(tags, x) == 0
  {
    if |tags| > 0 {
      NotHeldCountsZero(tags[1..], x);
    }
  }

  lemma {:induction false} UniqueHeldCountsOne(tags: seq<TicketTag>, i: nat)
    requires i < |tags|
    requires forall j, k :: 0 <= j < k < |tags| ==> tags[j].accountId != tags[k].accountId
    ensures AccountCount(tags, tags[i].accountId) == 1
  {
    if i == 0 {
      NotHeldCountsZero(tags[1..], tags[0].accountId);
    } else {
      UniqueHeldCountsOne(tags[1..], i - 1);
    }
  }

  /** New tags with distinct, empty accounts each end the ticket sale holding
      exactly the initial top-up. */
  lemma NewTagsHoldInitialTopUp(ledger: map<AccountId, int>, layout: Layout, catalog: Catalog, profile: TillProfile,
                                cashierAccount: int, initialTopUp: int, s: NewTicketSale, i: nat)
    requires LayoutClosed(layout, catalog)
    requires BookTicketSale(ledger, layout, catalog, profile, cashierAccount, initialTopUp, s).Success?
    requires forall j :: 0 <= j < |s.tags| ==> s.tags[j].accountId != cashierAccount
    requires forall j, k :: 0 <= j < k < |s.tags| ==> s.tags[j].accountId != s.tags[k].accountId
    requires i < |s.tags| && Balance(ledger, User(s.tags[i].accountId)) == 0
    ensures Balance(BookTicketSale(ledger, layout, catalog, profile, cashierAccount, initialTopUp, s).value.0,
                    User(s.tags[i].accountId)) == initialTopUp
  {
    UniqueHeldCountsOne(s.tags, i);
    BookedTicketDeltas(ledger, layout, catalog, profile, cashierAccount, initialTopUp, s, s.tags[i].accountId);
  }
}

=== FILE: string_order.dfy ===
/** Code-point lexicographic order on strings (the order Python's `sorted`
    uses for `str`) and an insertion sort by it. */
module StringOrder {

  /** `a` sorts before or equal to `b`: a proper prefix comes first,
      otherwise the first differing character decides. */
  predicate LexLe(a: string, b: string)
    decreases |a|
  {
    |a| == 0 || (|b| > 0 && (a[0] < b[0] || (a[0] == b[0] && LexLe(a[1..], b[1..]))))
  }

  lemma {:induction false} LexLeTotal(a: string, b: string)
    ensures LexLe(a, b) || LexLe(b, a)
    decreases |a|
  {
    if |a| > 0 && |b| > 0 && a[0] == b[0] {
      LexLeTotal(a[1..], b[1..]);
    }
  }

  predicate Sorted(xs: seq<string>) {
    forall i :: 0 < i < |xs| ==> LexLe(xs[i - 1], xs[i])
  }

  function Insert(x: string, xs: seq<string>): (r: seq<string>)
    requires Sorted(xs)
    ensures Sorted(r)
    ensures multiset(r) == multiset(xs) + multiset{x}
    ensures r[0] == x || (|xs| > 0 && r[0] == xs[0])
  {
    if |xs| == 0 || LexLe(x, xs[0]) then [x] + xs
    else
      LexLeTotal(x, xs[0]);
      var tail := Insert(x, xs[1..]);
      assert xs == [xs[0]] + xs[1..];
      [xs[0]] + tail
  }

  function Sort(xs: seq<string>): (r: seq<string>)
    ensures Sorted(r)
    ensures multiset(r) == multiset(xs)
  {
    if |xs| == 0 then []
    else
      assert xs == [xs[0]] + xs[1..];
      Insert(xs[0], Sort(xs[1..]))
  }
}

=== FILE: sumup.dfy ===
/** Online top-up checkouts through the SumUp gateway: creation behind a
    guard chain, reconciliation of a stored checkout against the gateway's
    record (booking the top-up on the first transition to PAID), the
    per-customer status check and one pass of the background poller.

    The checkout table is a map from checkout id to row, the gateway is a
    pair of oracle functions that may fail, amounts are integer cents and
    times integer seconds. */
module Sumup {
  import opened Wrappers
  import Ledger
  import SumupAuth

  type CheckoutId = string
  type Uuid = string

  datatype CheckoutStatus = Pending | Paid | Failed | Expired

  datatype InvalidReason =
    | TopUpDisabled
    | AmountNotPositive
    | BalanceCeiling(maxAccountBalance: int)
    | AmountNotInteger

  datatype Error =
    | InvalidArgument(reason: InvalidReason)
    | PendingCheckoutAlreadyExists
    | GatewayError(failure: SumupAuth.GatewayFailure)
    | Inconsistency
    | NotFound(checkoutId: CheckoutId)
    | Unauthorized
    | DuplicateCheckoutId(checkoutId: CheckoutId)
    | BookingFailed(cause: Ledger.BookingError)
    | ListingFailed(pyError: PyError)

  /** The request body posted to the gateway. */
  datatype CreateRequest = CreateRequest(
    reference: Uuid,
    amount: int,
    currency: string,
    merchantCode: string,
    description: string,
    returnUrl: string,
    customerId: int)

  /** The gateway's record of a checkout (its audit fields are left out). */
  datatype GatewayCheckout = GatewayCheckout(
    reference: Uuid,
    amount: int,
    currency: string,
    merchantCode: string,
    description: string,
    returnUrl: string,
    customerId: int,
    id: CheckoutId,
    status: CheckoutStatus,
    validUntil: Option<int>,
    date: int)

  /** A row of the local checkout table. */
  datatype Checkout = Checkout(
    reference: Uuid,
    amount: int,
    currency: string,
    merchantCode: string,
    description: string,
    returnUrl: string,
    id: CheckoutId,
    status: CheckoutStatus,
    date: int,
    validUntil: Option<int>,
    customerAccountId: int)

  datatype Customer = Customer(id: int, balance: int, userTagUidHex: string)

  /** Configuration read by the service: currency from the database, merchant
      code and return URL from the service config, the balance ceiling. */
  datatype TopUpConfig = TopUpConfig(
    currency: string,
    merchantCode: string,
    returnUrl: string,
    maxAccountBalance: int)

  datatype TopUpProduct = TopUpProduct(id: int, taxName: string)

  type Table = map<CheckoutId, Checkout>

  /** Everything reconciliation reads and writes: the checkout table and the ledger. */
  datatype Store = Store(checkouts: Table, ledger: Ledger.State)

  type CreateGateway = CreateRequest -> Result<GatewayCheckout, SumupAuth.GatewayFailure>
  type FetchGateway = CheckoutId -> Result<GatewayCheckout, SumupAuth.GatewayFailure>

  // ---------------------------------------------------------------------
  // Table queries

  predicate HasPending(t: Table, customerId: int) {
    exists id :: id in t && t[id].customerAccountId == customerId && t[id].status == Pending
  }

  function References(t: Table): set<Uuid> {
    set id | id in t :: t[id].reference
  }

  ghost predicate AtMostOnePendingPerCustomer(t: Table) {
    forall a, b ::
      (a in t && b in t && t[a].status == Pending && t[b].status == Pending
       && t[a].customerAccountId == t[b].customerAccountId) ==> a == b
  }

  /** The eight fields the reconciliation compares between stored and fetched record. */
  predicate Consistent(stored: Checkout, fetched: GatewayCheckout) {
    && fetched.reference == stored.reference
    && fetched.amount == stored.amount
    && fetched.currency == stored.currency
    && fetched.merchantCode == stored.merchantCode
    && fetched.description == stored.description
    && fetched.returnUrl == stored.returnUrl
    && fetched.id == stored.id
    && fetched.date == stored.date
  }

  // ---------------------------------------------------------------------
  // Creation

  /** The feature-flag guard put in front of the customer operations. */
  function RequireSumupEnabled(enabled: bool): (r: Option<Error>)
    ensures r.None? <==> enabled
    ensures r.Some? ==> r.value == InvalidArgument(TopUpDisabled)
  {
    if enabled then None else Some(InvalidArgument(TopUpDisabled))
  }

  /** The checks of a new checkout, in the order the service applies them;
      `None` means every check passed. */
  function CreateGuards(enabled: bool, cfg: TopUpConfig, customer: Customer, amount: int, t: Table): (r: Option<Error>)
    ensures r.None? <==>
      && enabled
      && !HasPending(t, customer.id)
      && 0 < amount <= cfg.maxAccountBalance - customer.balance
      && amount % 100 == 0
    ensures !enabled ==> r == Some(InvalidArgument(TopUpDisabled))
    ensures enabled && HasPending(t, customer.id) ==> r == Some(PendingCheckoutAlreadyExists)
    ensures enabled && !HasPending(t, customer.id) && amount <= 0 ==> r == Some(InvalidArgument(AmountNotPositive))
    ensures enabled && !HasPending(t, customer.id) && 0 < amount && amount > cfg.maxAccountBalance - customer.balance
            ==> r == Some(InvalidArgument(BalanceCeiling(cfg.maxAccountBalance)))
    ensures (enabled && !HasPending(t, customer.id) && 0 < amount <= cfg.maxAccountBalance - customer.balance
             && amount % 100 != 0) ==> r == Some(InvalidArgument(AmountNotInteger))
  {
    if !enabled then Some(InvalidArgument(TopUpDisabled))
    else if HasPending(t, customer.id) then Some(PendingCheckoutAlreadyExists)
    else if amount <= 0 then Some(InvalidArgument(AmountNotPositive))
    else if amount > cfg.maxAccountBalance - customer.balance then
      Some(InvalidArgument(BalanceCeiling(cfg.maxAccountBalance)))
    else if amount % 100 != 0 then Some(InvalidArgument(AmountNotInteger))
    else None
  }

  predicate HasFresh(candidates: seq<Uuid>, used: set<Uuid>) {
    exists j :: 0 <= j < |candidates| && candidates[j] !in used
  }

  /** The reference-regeneration loop: the index of the first generated uuid
      that no stored checkout uses yet. */
  function FirstFresh(candidates: seq<Uuid>, used: set<Uuid>): (k: nat)
    requires HasFresh(candidates, used)
    ensures k < |candidates| && candidates[k] !in used
    ensures forall j :: 0 <= j < k ==> candidates[j] in used
    decreases |candidates|
  {
    if candidates[0] !in used then 0
    else
      assert HasFresh(candidates[1..], used) by {
        var j :| 0 <= j < |candidates| && candidates[j] !in used;
        assert candidates[1..][j - 1] == candidates[j];
      }
      1 + FirstFresh(candidates[1..], used)
  }

  function DigitString(n: nat): (s: string)
    ensures |s| > 0
    ensures forall i :: 0 <= i < |s| ==> '0' <= s[i] <= '9'
  {
    var d := [(n % 10) as char + '0'];
    if n < 10 then d else DigitString(n / 10) + d
  }

  /** The checkout description; the amount is printed as Python prints the
      whole-euro float, e.g. "20.0". */
  function Description(tagUidHex: string, amount: int): string {
    "StuStaPay Online TopUp, Tag UUID: " + tagUidHex + ", amount: "
      + (if amount < 0 then "-" else "") + DigitString(if amount < 0 then -amount / 100 else amount / 100) + ".0"
  }

  /** The stored row made from the gateway's answer: every field is taken from
      the answer, `valid_until` starts empty. */
  function RowFromGateway(g: GatewayCheckout): (c: Checkout)
    ensures Consistent(c, g)
    ensures c.status == g.status && c.customerAccountId == g.customerId && c.validUntil.None?
  {
    Checkout(g.reference, g.amount, g.currency, g.merchantCode, g.description, g.returnUrl,
             g.id, g.status, g.date, None, g.customerId)
  }

  datatype Created = Created(request: CreateRequest, response: GatewayCheckout, checkouts: Table)

  /** Creates a checkout of `amount` cents for `customer`.  `candidates` is the
      stream of uuids the generator yields; `gateway` answers the POST. */
  function CreateCheckout(enabled: bool, cfg: TopUpConfig, customer: Customer, amount: int, t: Table,
                          candidates: seq<Uuid>, gateway: CreateGateway): (r: Result<Created, Error>)
    requires HasFresh(candidates, References(t))
    ensures CreateGuards(enabled, cfg, customer, amount, t).Some? ==>
              r == Failure(CreateGuards(enabled, cfg, customer, amount, t).value)
    ensures r.Success? ==> CreateGuards(enabled, cfg, customer, amount, t).None?
    ensures r.Success? ==>
      && r.value.request.reference !in References(t)
      && r.value.request.amount == amount
      && r.value.request.customerId == customer.id
      && r.value.request.currency == cfg.currency
      && r.value.request.merchantCode == cfg.merchantCode
      && r.value.request.returnUrl == cfg.returnUrl
      && gateway(r.value.request) == Success(r.value.response)
      && r.value.response.id !in t
      && r.value.checkouts == t[r.value.response.id := RowFromGateway(r.value.response)]
      && |r.value.checkouts| == |t| + 1
    ensures r.Success? && KeyedById(t) ==> KeyedById(r.value.checkouts)
    ensures CreateGuards(enabled, cfg, customer, amount, t).None? ==>
      var req := CreateRequest(candidates[FirstFresh(candidates, References(t))], amount, cfg.currency,
                               cfg.merchantCode, Description(customer.userTagUidHex, amount), cfg.returnUrl,
                               customer.id);
      && (gateway(req).Failure? ==> r == Failure(GatewayError(gateway(req).error)))
      && (gateway(req).Success? && gateway(req).value.id in t ==> r == Failure(DuplicateCheckoutId(gateway(req).value.id)))
      && (gateway(req).Success? && gateway(req).value.id !in t ==> r.Success? && r.value.request == req)
  {
    match CreateGuards(enabled, cfg, customer, amount, t)
    case Some(e) => Failure(e)
    case None =>
      var reference := candidates[FirstFresh(candidates, References(t))];
      var request := CreateRequest(reference, amount, cfg.currency, cfg.merchantCode,
                                   Description(customer.userTagUidHex, amount), cfg.returnUrl, customer.id);
      match gateway(request)
      case Failure(f) => Failure(GatewayError(f))
      case Success(response) =>
        if response.id in t then Failure(DuplicateCheckoutId(response.id))
        else Success(Created(request, response, t[response.id := RowFromGateway(response)]))
  }

  /** The generated reference is the first candidate not already stored. */
  lemma CreateUsesFirstFreshReference(enabled: bool, cfg: TopUpConfig, customer: Customer, amount: int, t: Table,
                                      candidates: seq<Uuid>, gateway: CreateGateway)
    requires HasFresh(candidates, References(t))
    requires CreateCheckout(enabled, cfg, customer, amount, t, candidates, gateway).Success?
    ensures var req := CreateCheckout(enabled, cfg, customer, amount, t, candidates, gateway).value.request;
            exists k :: 0 <= k < |candidates| && candidates[k] == req.reference
                        && forall j :: 0 <= j < k ==> candidates[j] in References(t)
  {
    var k := FirstFresh(candidates, References(t));
    assert candidates[k] == CreateCheckout(enabled, cfg, customer, amount, t, candidates, gateway).value.request.reference;
  }

  /** A rejected creation never reaches the gateway: its outcome is the same
      whatever the gateway would have answered. */
  lemma RejectedCreateIgnoresGateway(enabled: bool, cfg: TopUpConfig, customer: Customer, amount: int, t: Table,
                                     candidates: seq<Uuid>, g1: CreateGateway, g2: CreateGateway)
    requires HasFresh(candidates, References(t))
    requires CreateGuards(enabled, cfg, customer, amount, t).Some?
    ensures CreateCheckout(enabled, cfg, customer, amount, t, candidates, g1)
         == CreateCheckout(enabled, cfg, customer, amount, t, candidates, g2)
    ensures CreateCheckout(enabled, cfg, customer, amount, t, candidates, g1).Failure?
  {
  }

  /** Creation keeps at most one pending checkout per customer, provided the
      gateway echoes the customer id it was sent. */
  lemma CreateKeepsOnePending(enabled: bool, cfg: TopUpConfig, customer: Customer, amount: int, t: Table,
                              candidates: seq<Uuid>, gateway: CreateGateway)
    requires HasFresh(candidates, References(t))
    requires AtMostOnePendingPerCustomer(t)
    requires var r := CreateCheckout(enabled, cfg, customer, amount, t, candidates, gateway);
             r.Success? ==> r.value.response.customerId == customer.id
    ensures var r := CreateCheckout(enabled, cfg, customer, amount, t, candidates, gateway);
            r.Success? ==> AtMostOnePendingPerCustomer(r.value.checkouts)
  {
    var r := CreateCheckout(enabled, cfg, customer, amount, t, candidates, gateway);
    if r.Success? {
      assert !HasPending(t, customer.id);
    }
  }

  // ---------------------------------------------------------------------
  // Reconciliation

  /** The top-up order booked for a paid checkout: keyed by the checkout
      reference, one line of quantity 1 priced at the amount, and one transfer
      of the amount from the online top-up account to the customer. */
  function TopUpOrder(g: GatewayCheckout, product: TopUpProduct): (o: Ledger.Order)
    ensures o.uuid == g.reference && o.customer == g.customerId
    ensures Ledger.LineTotal(o.lineItems) == Ledger.TransferTotal(o.transfers) == g.amount
    ensures forall a :: Ledger.Inflow(o.transfers, a) == (if a == Ledger.User(g.customerId) then g.amount else 0)
    ensures forall a :: Ledger.Outflow(o.transfers, a)
                        == (if a == Ledger.System(Ledger.SumupCustomerTopup) then g.amount else 0)
  {
    Ledger.Order(
      g.reference, Ledger.TopUp, Ledger.SumupOnline, g.customerId,
      [Ledger.LineItem(product.id, 1, g.amount, product.taxName)],
      [Ledger.Transfer(Ledger.System(Ledger.SumupCustomerTopup), Ledger.User(g.customerId), g.amount)])
  }

  datatype Updated = Updated(store: Store, status: CheckoutStatus)

  /** Reconciles checkout `id` with the gateway.  The gateway is asked before
      the stored status is looked at, so a failing gateway fails even a
      checkout that is already settled. */
  function UpdateCheckoutStatus(s: Store, id: CheckoutId, product: TopUpProduct, fetch: FetchGateway): (r: Result<Updated, Error>)
    ensures id !in s.checkouts ==> r == Failure(NotFound(id))
    ensures id in s.checkouts && fetch(s.checkouts[id].id).Failure? ==>
              r == Failure(GatewayError(fetch(s.checkouts[id].id).error))
    ensures id in s.checkouts && fetch(s.checkouts[id].id).Success? && s.checkouts[id].status != Pending ==>
              r == Success(Updated(s, s.checkouts[id].status))
    ensures (id in s.checkouts && fetch(s.checkouts[id].id).Success? && s.checkouts[id].status == Pending
             && !Consistent(s.checkouts[id], fetch(s.checkouts[id].id).value)) ==> r == Failure(Inconsistency)
    ensures (id in s.checkouts && fetch(s.checkouts[id].id).Success? && s.checkouts[id].status == Pending
             && Consistent(s.checkouts[id], fetch(s.checkouts[id].id).value)) ==> r.Success?
    ensures r.Success? && s.checkouts[id].status == Pending ==>
      var fetched := fetch(s.checkouts[id].id).value;
      && Consistent(s.checkouts[id], fetched)
      && r.value.status == fetched.status
      && r.value.store.checkouts
         == s.checkouts[id := s.checkouts[id].(status := fetched.status, validUntil := fetched.validUntil)]
      && (fetched.status == Paid ==>
            Ledger.Book(s.ledger, TopUpOrder(fetched, product)) == Success(r.value.store.ledger))
      && (fetched.status != Paid ==> r.value.store.ledger == s.ledger)
  {
    if id !in s.checkouts then Failure(NotFound(id))
    else
      var stored := s.checkouts[id];
      match fetch(stored.id)
      case Failure(f) => Failure(GatewayError(f))
      case Success(fetched) =>
        if stored.status != Pending then Success(Updated(s, stored.status))
        else if !Consistent(stored, fetched) then Failure(Inconsistency)
        else
          var booked :=
            if fetched.status == Paid then Ledger.Book(s.ledger, TopUpOrder(fetched, product))
            else Success(s.ledger);
          match booked
          case Failure(e) => Failure(BookingFailed(e))
          case Success(ledger) =>
            var row := stored.(status := fetched.status, validUntil := fetched.validUntil);
            Success(Updated(Store(s.checkouts[id := row], ledger), fetched.status))
  }

  /** First reconciliation of a paid checkout: the customer named by the
      gateway gains the amount, the online top-up account loses it, every
      other account is untouched. */
  lemma PaidCheckoutCreditsCustomer(s: Store, id: CheckoutId, product: TopUpProduct, fetch: FetchGateway, a: Ledger.AccountId)
    requires id in s.checkouts && s.checkouts[id].status == Pending
    requires fetch(s.checkouts[id].id).Success? && fetch(s.checkouts[id].id).value.status == Paid
    requires fetch(s.checkouts[id].id).value.reference !in s.ledger.orders
    requires UpdateCheckoutStatus(s, id, product, fetch).Success?
    ensures var g := fetch(s.checkouts[id].id).value;
            var after := UpdateCheckoutStatus(s, id, product, fetch).value.store.ledger;
            && Ledger.Balance(after.balances, a) == Ledger.Balance(s.ledger.balances, a)
                 + (if a == Ledger.User(g.customerId) then g.amount else 0)
                 - (if a == Ledger.System(Ledger.SumupCustomerTopup) then g.amount else 0)
            && g.reference in after.orders
  {
  }

  /** Settled checkouts are final: reconciling them again changes nothing. */
  lemma SettledCheckoutIsFinal(s: Store, id: CheckoutId, product: TopUpProduct, fetch: FetchGateway)
    requires id in s.checkouts && s.checkouts[id].status != Pending
    ensures var r := UpdateCheckoutStatus(s, id, product, fetch);
            r.Success? ==> r.value.store == s && r.value.status == s.checkouts[id].status
  {
  }

  /** Two reconciliations of the same checkout book it at most once: the
      second finds the row settled (or still pending with nothing booked). */
  lemma SecondUpdateBooksNothing(s: Store, id: CheckoutId, product: TopUpProduct, fetch: FetchGateway)
    requires UpdateCheckoutStatus(s, id, product, fetch).Success?
    requires UpdateCheckoutStatus(s, id, product, fetch).value.status != Pending
    ensures var s1 := UpdateCheckoutStatus(s, id, product, fetch).value.store;
            var r2 := UpdateCheckoutStatus(s1, id, product, fetch);
            r2.Success? ==> r2.value.store == s1
  {
  }

  /** Reconciliation keeps at most one pending checkout per customer and
      never changes which checkouts exist. */
  lemma UpdateKeepsOnePending(s: Store, id: CheckoutId, product: TopUpProduct, fetch: FetchGateway)
    requires AtMostOnePendingPerCustomer(s.checkouts)
    ensures var r := UpdateCheckoutStatus(s, id, product, fetch);
            r.Success? ==> AtMostOnePendingPerCustomer(r.value.store.checkouts)
                           && r.value.store.checkouts.Keys == s.checkouts.Keys
                           && (KeyedById(s.checkouts) ==> KeyedById(r.value.store.checkouts))
  {
    var r := UpdateCheckoutStatus(s, id, product, fetch);
    if r.Success? && s.checkouts[id].status == Pending {
      var t := s.checkouts;
      var t' := r.value.store.checkouts;
      forall a, b | a in t' && b in t' && t'[a].status == Pending && t'[b].status == Pending
                    && t'[a].customerAccountId == t'[b].customerAccountId
        ensures a == b
      {
        assert t[a].status == Pending && t[b].status == Pending;
      }
    }
  }

  /** The 8-field comparison does not include the customer id, and the
      booking credits the customer the gateway names: a consistent gateway
      record naming another customer credits that customer's account. */
  lemma BookingFollowsGatewayCustomer(s: Store, id: CheckoutId, product: TopUpProduct, fetch: FetchGateway)
    requires id in s.checkouts && s.checkouts[id].status == Pending
    requires fetch(s.checkouts[id].id).Success?
    requires fetch(s.checkouts[id].id).value.status == Paid
    requires UpdateCheckoutStatus(s, id, product, fetch).Success?
    ensures var g := fetch(s.checkouts[id].id).value;
            Ledger.Book(s.ledger, TopUpOrder(g, product)).Success?
            && TopUpOrder(g, product).transfers[0].target == Ledger.User(g.customerId)
  {
  }

  // ---------------------------------------------------------------------
  // Customer-facing status check

  /** The status check of a customer's own checkout: feature flag, lookup,
      ownership, then reconciliation. */
  function CheckCheckout(enabled: bool, customer: Customer, s: Store, id: CheckoutId,
                         product: TopUpProduct, fetch: FetchGateway): (r: Result<Updated, Error>)
    ensures !enabled ==> r == Failure(InvalidArgument(TopUpDisabled))
    ensures enabled && id !in s.checkouts ==> r == Failure(NotFound(id))
    ensures enabled && id in s.checkouts && s.checkouts[id].customerAccountId != customer.id ==> r == Failure(Unauthorized)
    ensures enabled && id in s.checkouts && s.checkouts[id].customerAccountId == customer.id ==>
              r == UpdateCheckoutStatus(s, id, product, fetch)
  {
    if !enabled then Failure(InvalidArgument(TopUpDisabled))
    else if id !in s.checkouts then Failure(NotFound(id))
    else if s.checkouts[id].customerAccountId != customer.id then Failure(Unauthorized)
    else UpdateCheckoutStatus(s, id, product, fetch)
  }

  /** A customer can never settle or even probe another customer's checkout:
      the answer is Unauthorized whatever the gateway would say. */
  lemma ForeignCheckoutIgnoresGateway(enabled: bool, customer: Customer, s: Store, id: CheckoutId,
                                      product: TopUpProduct, f1: FetchGateway, f2: FetchGateway)
    requires id in s.checkouts && s.checkouts[id].customerAccountId != customer.id
    ensures CheckCheckout(enabled, customer, s, id, product, f1) == CheckCheckout(enabled, customer, s, id, product, f2)
    ensures CheckCheckout(enabled, customer, s, id, product, f1).Failure?
  {
  }

  // ---------------------------------------------------------------------
  // Background polling pass

  function PendingIds(t: Table): set<CheckoutId> {
    set id | id in t && t[id].status == Pending
  }

  /** `ids` is an enumeration, in some order, of the pending checkouts. */
  predicate ListsPending(t: Table, ids: seq<CheckoutId>) {
    && (forall i, j :: 0 <= i < j < |ids| ==> ids[i] != ids[j])
    && (set x | x in ids) == PendingIds(t)
  }

  /** Every row is stored under its own checkout id, the table's primary key. */
  predicate KeyedById(t: Table) {
    forall id :: id in t ==> t[id].id == id
  }

  // Listing the pending checkouts.  The query's rows are driver records;
  // the service iterates over what the driver returns and parses each
  // element into a checkout.

  /** The values the listing code handles: `None`, a text or integer
      column value, a record (one row of the checkout table) and a list. */
  datatype PyValue = PyNone | PyText(text: string) | PyInt(value: int) | PyRecord(row: Checkout) | PyList(items: seq<PyValue>)

  datatype PyError =
    | NotIterable   // iterating `None` or an integer raises a type error
    | NotAMapping   // `parse_obj` of anything but a record fails validation

  function StatusText(st: CheckoutStatus): string {
    match st
    case Pending => "PENDING"
    case Paid => "PAID"
    case Failed => "FAILED"
    case Expired => "EXPIRED"
  }

  /** The column values a record yields when iterated.  The table's column
      order is not known here; every column value is a text, an integer or
      `None`, never a record, whatever the order. */
  function Columns(c: Checkout): (vs: seq<PyValue>)
    ensures |vs| > 0 && forall i :: 0 <= i < |vs| ==> !vs[i].PyRecord?
  {
    [PyText(c.id), PyText(c.reference), PyInt(c.amount), PyText(c.currency), PyText(c.merchantCode),
     PyText(c.description), PyText(c.returnUrl), PyText(StatusText(c.status)), PyInt(c.date),
     (if c.validUntil.Some? then PyInt(c.validUntil.value) else PyNone), PyInt(c.customerAccountId)]
  }

  /** `for v in value`: a list yields its items, a record its column
      values, a text its characters; `None` and integers are not iterable. */
  function Iterate(v: PyValue): (r: Result<seq<PyValue>, PyError>)
    ensures v.PyNone? || v.PyInt? <==> r == Failure(NotIterable)
    ensures v.PyList? ==> r == Success(v.items)
    ensures v.PyRecord? ==> r == Success(Columns(v.row))
  {
    match v
    case PyNone => Failure(NotIterable)
    case PyInt(_) => Failure(NotIterable)
    case PyText(t) => Success(seq(|t|, i requires 0 <= i < |t| => PyText([t[i]])))
    case PyRecord(row) => Success(Columns(row))
    case PyList(items) => Success(items)
  }

  /** `CustomerCheckout.parse_obj(v)`: a record parses to its row, nothing
      else parses. */
  function ParseObj(v: PyValue): (r: Result<Checkout, PyError>)
    ensures r.Success? <==> v.PyRecord?
    ensures r.Success? ==> r.value == v.row
  {
    if v.PyRecord? then Success(v.row) else Failure(NotAMapping)
  }

  /** The list comprehension: every element parsed in order, the first
      failure raising. */
  function ParseAll(vs: seq<PyValue>): (r: Result<seq<Checkout>, PyError>)
    ensures r.Success? <==> forall i :: 0 <= i < |vs| ==> vs[i].PyRecord?
    ensures r.Success? ==> |r.value| == |vs| && forall i :: 0 <= i < |vs| ==> r.value[i] == vs[i].row
    ensures |vs| > 0 && !vs[0].PyRecord? ==> r == Failure(NotAMapping)
    decreases |vs|
  {
    if |vs| == 0 then Success([])
    else match ParseObj(vs[0])
      case Failure(e) => Failure(e)
      case Success(c) =>
        match ParseAll(vs[1..])
        case Failure(e) => Failure(e)
        case Success(cs) =>
          assert forall i :: 1 <= i < |vs| ==> vs[i] == vs[1..][i - 1];
          Success([c] + cs)
  }

  /** The rows the query `status = PENDING` returns, in the database's
      order `order`. */
  function PendingRows(t: Table, order: seq<CheckoutId>): (rows: seq<PyValue>)
    requires ListsPending(t, order)
    ensures |rows| == |order|
    ensures forall i :: 0 <= i < |order| ==> order[i] in t && rows[i] == PyRecord(t[order[i]])
  {
    assert forall i :: 0 <= i < |order| ==> order[i] in PendingIds(t) by {
      forall i | 0 <= i < |order| ensures order[i] in PendingIds(t) {
        assert order[i] in (set x | x in order);
      }
    }
    seq(|order|, i requires 0 <= i < |order| => PyRecord(t[order[i]]))
  }

  /** `fetch`: all rows, as a list. */
  function FetchAll(rows: seq<PyValue>): PyValue {
    PyList(rows)
  }

  /** `fetchrow`: the first row, or `None` when there is none. */
  function FetchRow(rows: seq<PyValue>): (v: PyValue)
    ensures |rows| == 0 ==> v == PyNone
    ensures |rows| > 0 ==> v == rows[0]
  {
    if |rows| == 0 then PyNone else rows[0]
  }

  function Ids(cs: seq<Checkout>): (ids: seq<CheckoutId>)
    ensures |ids| == |cs| && forall i :: 0 <= i < |cs| ==> ids[i] == cs[i].id
  {
    seq(|cs|, i requires 0 <= i < |cs| => cs[i].id)
  }

  /** Iterates what the driver returned and parses every element, giving
      the ids the pass then reconciles. */
  function ParseListing(fetched: PyValue): Result<seq<CheckoutId>, Error> {
    match Iterate(fetched)
    case Failure(e) => Failure(ListingFailed(e))
    case Success(vs) =>
      match ParseAll(vs)
      case Failure(e) => Failure(ListingFailed(e))
      case Success(cs) => Success(Ids(cs))
  }

  /** The listing with `fetch`: every pending checkout, in the database's order. */
  function ListPending(t: Table, order: seq<CheckoutId>): (r: Result<seq<CheckoutId>, Error>)
    requires ListsPending(t, order)
    ensures KeyedById(t) ==> r == Success(order)
  {
    var rows := PendingRows(t, order);
    RecordsParse(t, order, rows);
    ParseListing(FetchAll(rows))
  }

  lemma RecordsParse(t: Table, order: seq<CheckoutId>, rows: seq<PyValue>)
    requires |rows| == |order|
    requires forall i :: 0 <= i < |order| ==> order[i] in t && rows[i] == PyRecord(t[order[i]])
    ensures KeyedById(t) ==> ParseListing(PyList(rows)) == Success(order)
  {
    if KeyedById(t) {
      var cs := ParseAll(rows).value;
      assert Ids(cs) == order;
    }
  }

  /** The listing as the service actually obtains it, with `fetchrow`: no
      pending row gives `None`, which is not iterable; one or more give the
      first record, whose column values do not parse as checkouts. */
  function ListPendingAsWritten(t: Table, order: seq<CheckoutId>): (r: Result<seq<CheckoutId>, Error>)
    requires ListsPending(t, order)
    ensures PendingIds(t) == {} ==> r == Failure(ListingFailed(NotIterable))
    ensures PendingIds(t) != {} ==> r == Failure(ListingFailed(NotAMapping))
  {
    var rows := PendingRows(t, order);
    NoPendingNoRows(t, order);
    assert ParseListing(PyNone) == Failure(ListingFailed(NotIterable));
    assert |order| > 0 ==> ParseListing(rows[0]) == Failure(ListingFailed(NotAMapping)) by {
      if |order| > 0 {
        FirstRecordFails(rows[0].row);
      }
    }
    ParseListing(FetchRow(rows))
  }

  lemma NoPendingNoRows(t: Table, order: seq<CheckoutId>)
    requires ListsPending(t, order)
    ensures PendingIds(t) == {} <==> |order| == 0
  {
    if |order| > 0 {
      assert order[0] in (set x | x in order);
      assert order[0] in PendingIds(t);
    } else {
      assert (set x | x in order) == {};
    }
  }

  /** Iterating one record and parsing its elements fails on the first column. */
  lemma FirstRecordFails(c: Checkout)
    ensures ParseListing(PyRecord(c)) == Failure(ListingFailed(NotAMapping))
  {
    assert Iterate(PyRecord(c)) == Success(Columns(c));
    assert ParseAll(Columns(c)) == Failure(NotAMapping);
  }

  datatype PassResult = PassResult(store: Store, processed: nat, failure: Option<Error>)

  lemma PrefixCons<T>(xs: seq<T>, n: nat)
    requires n < |xs|
    ensures xs[..n + 1] == [xs[0]] + xs[1..][..n]
  {
  }

  /** A successful update touches only the checkout it was given, and
      only while that checkout is pending; it never drops a booked order. */
  lemma UpdateFrame(s: Store, id: CheckoutId, product: TopUpProduct, fetch: FetchGateway)
    requires UpdateCheckoutStatus(s, id, product, fetch).Success?
    ensures var u := UpdateCheckoutStatus(s, id, product, fetch).value;
            && u.store.checkouts.Keys == s.checkouts.Keys
            && (forall other :: other in s.checkouts && other != id ==> u.store.checkouts[other] == s.checkouts[other])
            && (s.checkouts[id].status != Pending ==> u.store.checkouts[id] == s.checkouts[id])
            && s.ledger.orders.Keys <= u.store.ledger.orders.Keys
  {
  }

  /** The loop of one pass: each checkout is reconciled in its own
      transaction; the first error ends the pass, keeping the committed work. */
  function ProcessListed(s: Store, ids: seq<CheckoutId>, product: TopUpProduct, fetch: FetchGateway): (r: PassResult)
    ensures r.processed <= |ids|
    ensures r.failure.None? ==> r.processed == |ids|
    ensures r.failure.Some? ==>
              r.processed < |ids| && UpdateCheckoutStatus(r.store, ids[r.processed], product, fetch) == Failure(r.failure.value)
    ensures r.store.checkouts.Keys == s.checkouts.Keys
    ensures s.ledger.orders.Keys <= r.store.ledger.orders.Keys
    ensures forall id :: id in s.checkouts && s.checkouts[id].status != Pending ==>
              r.store.checkouts[id] == s.checkouts[id]
    ensures forall id :: id in s.checkouts && id !in ids[..r.processed] ==> r.store.checkouts[id] == s.checkouts[id]
    decreases |ids|
  {
    if |ids| == 0 then PassResult(s, 0, None)
    else
      match UpdateCheckoutStatus(s, ids[0], product, fetch)
      case Failure(e) => PassResult(s, 0, Some(e))
      case Success(u) =>
        UpdateFrame(s, ids[0], product, fetch);
        var rest := ProcessListed(u.store, ids[1..], product, fetch);
        PrefixCons(ids, rest.processed);
        rest.(processed := rest.processed + 1)
  }

  /** Checkout `id`, pending in `before`, has been reconciled in `after`:
      the gateway answered with a record that agrees with the stored row,
      the row took the gateway's status and expiry, and a paid checkout's
      top-up order is booked. */
  predicate Reconciled(before: Table, after: Store, id: CheckoutId, fetch: FetchGateway)
    requires id in before
  {
    var stored := before[id];
    && fetch(stored.id).Success?
    && Consistent(stored, fetch(stored.id).value)
    && id in after.checkouts
    && after.checkouts[id] == stored.(status := fetch(stored.id).value.status, validUntil := fetch(stored.id).value.validUntil)
    && (fetch(stored.id).value.status == Paid ==> fetch(stored.id).value.reference in after.ledger.orders)
  }

  lemma ReconciledByUpdate(s: Store, id: CheckoutId, product: TopUpProduct, fetch: FetchGateway)
    requires UpdateCheckoutStatus(s, id, product, fetch).Success?
    requires id in s.checkouts && s.checkouts[id].status == Pending
    ensures Reconciled(s.checkouts, UpdateCheckoutStatus(s, id, product, fetch).value.store, id, fetch)
  {
  }

  /** A reconciled checkout stays reconciled while its row is untouched
      and no booked order is dropped. */
  lemma ReconciledPersists(before: Table, mid: Store, after: Store, id: CheckoutId, fetch: FetchGateway)
    requires id in before && Reconciled(before, mid, id, fetch)
    requires id in after.checkouts && after.checkouts[id] == mid.checkouts[id]
    requires mid.ledger.orders.Keys <= after.ledger.orders.Keys
    ensures Reconciled(before, after, id, fetch)
  {
  }

  /** Reconciliation only looks at the row stored before. */
  lemma ReconciledSameRow(b1: Table, b2: Table, after: Store, id: CheckoutId, fetch: FetchGateway)
    requires id in b1 && id in b2 && b1[id] == b2[id]
    ensures Reconciled(b1, after, id, fetch) == Reconciled(b2, after, id, fetch)
  {
  }

  /** The inductive step: the first checkout reconciled by its own update
      and the rest by the remaining pass stay reconciled at the end. */
  lemma ReconciledStep(before: Table, s1: Store, final: Store, ids: seq<CheckoutId>, processed: nat, fetch: FetchGateway)
    requires forall i, j :: 0 <= i < j < |ids| ==> ids[i] != ids[j]
    requires processed < |ids|
    requires ids[0] in before
    requires before[ids[0]].status == Pending ==> Reconciled(before, s1, ids[0], fetch)
    requires s1.checkouts.Keys == before.Keys
    requires forall other :: other in before && other != ids[0] ==> s1.checkouts[other] == before[other]
    requires final.checkouts.Keys == s1.checkouts.Keys
    requires s1.ledger.orders.Keys <= final.ledger.orders.Keys
    requires forall id :: id in s1.checkouts && id !in ids[1..][..processed] ==> final.checkouts[id] == s1.checkouts[id]
    requires forall i :: 0 <= i < processed ==>
               ids[1..][i] in s1.checkouts
               && (s1.checkouts[ids[1..][i]].status == Pending ==> Reconciled(s1.checkouts, final, ids[1..][i], fetch))
    ensures forall i :: 0 <= i < processed + 1 ==>
              ids[i] in before && (before[ids[i]].status == Pending ==> Reconciled(before, final, ids[i], fetch))
  {
    forall i | 0 <= i < processed + 1
      ensures ids[i] in before && (before[ids[i]].status == Pending ==> Reconciled(before, final, ids[i], fetch))
    {
      if i == 0 {
        if before[ids[0]].status == Pending {
          assert ids[0] !in ids[1..][..processed] by {
            forall k | 0 <= k < processed ensures ids[1..][..processed][k] != ids[0] {
              assert ids[1..][..processed][k] == ids[k + 1];
            }
          }
          ReconciledPersists(before, s1, final, ids[0], fetch);
        }
      } else {
        assert ids[i] == ids[1..][i - 1];
        ReconciledSameRow(before, s1.checkouts, final, ids[i], fetch);
      }
    }
  }

  /** Every checkout the pass got through that was pending is reconciled at
      the end of the pass, provided no checkout is listed twice. */
  lemma {:induction false} ProcessListedReconciles(s: Store, ids: seq<CheckoutId>, product: TopUpProduct, fetch: FetchGateway)
    requires forall i, j :: 0 <= i < j < |ids| ==> ids[i] != ids[j]
    ensures var r := ProcessListed(s, ids, product, fetch);
            forall i :: 0 <= i < r.processed ==>
              ids[i] in s.checkouts
              && (s.checkouts[ids[i]].status == Pending ==> Reconciled(s.checkouts, r.store, ids[i], fetch))
    decreases |ids|
  {
    if |ids| > 0 && UpdateCheckoutStatus(s, ids[0], product, fetch).Success? {
      var s1 := UpdateCheckoutStatus(s, ids[0], product, fetch).value.store;
      var rest := ProcessListed(s1, ids[1..], product, fetch);
      UpdateFrame(s, ids[0], product, fetch);
      if s.checkouts[ids[0]].status == Pending {
        ReconciledByUpdate(s, ids[0], product, fetch);
      }
      ProcessListedReconciles(s1, ids[1..], product, fetch);
      ReconciledStep(s.checkouts, s1, rest.store, ids, rest.processed, fetch);
    }
  }

  /** One pass of the background poller over the pending checkouts, which
      the database returns in the order `order`. */
  function PollPass(enabled: bool, s: Store, order: seq<CheckoutId>, product: TopUpProduct, fetch: FetchGateway): (r: PassResult)
    requires ListsPending(s.checkouts, order) && KeyedById(s.checkouts)
    ensures !enabled ==> r == PassResult(s, 0, None)
    ensures r.store.checkouts.Keys == s.checkouts.Keys
    ensures forall id :: id in s.checkouts && s.checkouts[id].status != Pending ==>
              r.store.checkouts[id] == s.checkouts[id]
    ensures r.processed <= |order|
    ensures forall id :: id in s.checkouts && id !in order[..r.processed] ==> r.store.checkouts[id] == s.checkouts[id]
    ensures forall i :: 0 <= i < r.processed ==>
              order[i] in s.checkouts && Reconciled(s.checkouts, r.store, order[i], fetch)
    ensures enabled && r.failure.None? ==>
              forall id :: id in PendingIds(s.checkouts) ==> Reconciled(s.checkouts, r.store, id, fetch)
    ensures r.failure.Some? ==>
              r.processed < |order| && UpdateCheckoutStatus(r.store, order[r.processed], product, fetch) == Failure(r.failure.value)
  {
    if !enabled then PassResult(s, 0, None)
    else
      match ListPending(s.checkouts, order)
      case Failure(e) => PassResult(s, 0, Some(e))
      case Success(ids) =>
        PassCoversPending(s, order, product, fetch);
        ProcessListed(s, ids, product, fetch)
  }

  lemma PassCoversPending(s: Store, order: seq<CheckoutId>, product: TopUpProduct, fetch: FetchGateway)
    requires ListsPending(s.checkouts, order)
    ensures var r := ProcessListed(s, order, product, fetch);
            && (forall i :: 0 <= i < r.processed ==>
                  order[i] in s.checkouts && Reconciled(s.checkouts, r.store, order[i], fetch))
            && (r.failure.None? ==>
                  forall id :: id in PendingIds(s.checkouts) ==> Reconciled(s.checkouts, r.store, id, fetch))
  {
    var r := ProcessListed(s, order, product, fetch);
    ProcessListedReconciles(s, order, product, fetch);
    PendingListed(s.checkouts, order);
    if r.failure.None? {
      forall id | id in PendingIds(s.checkouts) ensures Reconciled(s.checkouts, r.store, id, fetch) {
        var i :| 0 <= i < |order| && order[i] == id;
      }
    }
  }

  lemma PendingListed(t: Table, order: seq<CheckoutId>)
    requires ListsPending(t, order)
    ensures forall i :: 0 <= i < |order| ==> order[i] in t && t[order[i]].status == Pending
    ensures forall id :: id in PendingIds(t) ==> exists i :: 0 <= i < |order| && order[i] == id
  {
    forall i | 0 <= i < |order| ensures order[i] in t && t[order[i]].status == Pending {
      assert order[i] in (set x | x in order);
      assert order[i] in PendingIds(t);
    }
    forall id | id in PendingIds(t) ensures exists i :: 0 <= i < |order| && order[i] == id {
      assert id in (set x | x in order);
    }
  }

  /** When the gateway answers consistently for every pending checkout, an
      enabled pass ends without error and has reconciled all of them. */
  lemma CleanGatewayPassSettlesAll(s: Store, order: seq<CheckoutId>, product: TopUpProduct, fetch: FetchGateway)
    requires ListsPending(s.checkouts, order) && KeyedById(s.checkouts)
    requires forall id :: id in PendingIds(s.checkouts) ==>
               fetch(s.checkouts[id].id).Success? && Consistent(s.checkouts[id], fetch(s.checkouts[id].id).value)
    ensures PollPass(true, s, order, product, fetch).failure.None?
    ensures forall id :: id in PendingIds(s.checkouts) ==> Reconciled(s.checkouts, PollPass(true, s, order, product, fetch).store, id, fetch)
  {
    var r := PollPass(true, s, order, product, fetch);
    if r.failure.Some? {
      PendingListed(s.checkouts, order);
      assert false;
    }
  }

  /** The pass keeps at most one pending checkout per customer. */
  lemma {:induction false} ProcessListedKeepsOnePending(s: Store, ids: seq<CheckoutId>, product: TopUpProduct, fetch: FetchGateway)
    requires AtMostOnePendingPerCustomer(s.checkouts)
    ensures AtMostOnePendingPerCustomer(ProcessListed(s, ids, product, fetch).store.checkouts)
    decreases |ids|
  {
    if |ids| > 0 {
      UpdateKeepsOnePending(s, ids[0], product, fetch);
      var u := UpdateCheckoutStatus(s, ids[0], product, fetch);
      if u.Success? {
        ProcessListedKeepsOnePending(u.value.store, ids[1..], product, fetch);
      }
    }
  }

  /** The pass as written: the listing fails before the first checkout, so
      the store is never changed, and the failure is the listing's. */
  function PollPassAsWritten(enabled: bool, s: Store, order: seq<CheckoutId>, product: TopUpProduct, fetch: FetchGateway)
    : (r: PassResult)
    requires ListsPending(s.checkouts, order)
    ensures r.store == s && r.processed == 0
    ensures enabled <==> r.failure.Some?
    ensures r.failure.Some? ==> r.failure.value.ListingFailed?
  {
    if !enabled then PassResult(s, 0, None)
    else
      match ListPendingAsWritten(s.checkouts, order)
      case Failure(e) => PassResult(s, 0, Some(e))
      case Success(ids) => ProcessListed(s, ids, product, fetch)
  }

  // The scenario: one pending checkout "c1" of 20.00 for customer 7, which
  // the gateway reports paid.

  function PollRow(): Checkout {
    Checkout("ref-1", 2000, "EUR", "M1", "d", "u", "c1", Pending, 0, None, 7)
  }

  function PollStore(): Store {
    Store(map["c1" := PollRow()], Ledger.State(map[], map[]))
  }

  function PaidCopy(): GatewayCheckout {
    GatewayCheckout("ref-1", 2000, "EUR", "M1", "d", "u", 7, "c1", Paid, Some(60), 0)
  }

  function ReportsPaid(): FetchGateway {
    _ => Success(PaidCopy())
  }

  lemma PollStoreListed()
    ensures ListsPending(PollStore().checkouts, ["c1"]) && KeyedById(PollStore().checkouts)
  {
    assert PendingIds(PollStore().checkouts) == {"c1"};
  }

  lemma CorrectedPassSettles(product: TopUpProduct)
    requires ListsPending(PollStore().checkouts, ["c1"]) && KeyedById(PollStore().checkouts)
    ensures var r := PollPass(true, PollStore(), ["c1"], product, ReportsPaid());
            && r.store.checkouts["c1"].status == Paid
            && Ledger.Balance(r.store.ledger.balances, Ledger.User(7)) == 2000
  {
    var s := PollStore();
    var u := UpdateCheckoutStatus(s, "c1", product, ReportsPaid());
    assert u.Success?;
    PaidCheckoutCreditsCustomer(s, "c1", product, ReportsPaid(), Ledger.User(7));
    assert ProcessListed(u.value.store, [], product, ReportsPaid()).store == u.value.store;
  }

  /** A paid checkout that only the poller would notice stays pending under
      the code as written, while the intended pass settles it and books the
      top-up. */
  lemma PollerAsWrittenNeverSettles()
    ensures var s := PollStore();
            var product := TopUpProduct(1, "none");
            && ListsPending(s.checkouts, ["c1"]) && KeyedById(s.checkouts)
            && PollPassAsWritten(true, s, ["c1"], product, ReportsPaid()).store.checkouts["c1"].status == Pending
            && PollPass(true, s, ["c1"], product, ReportsPaid()).store.checkouts["c1"].status == Paid
            && Ledger.Balance(PollPass(true, s, ["c1"], product, ReportsPaid()).store.ledger.balances, Ledger.User(7)) == 2000
  {
    PollStoreListed();
    CorrectedPassSettles(TopUpProduct(1, "none"));
  }
}

=== FILE: sumup_auth.dfy ===
/** The gateway bearer-token cache of the SumUp service: a token is requested
    when none is cached or the cached one runs out within the refresh
    threshold; the token endpoint itself is an oracle result. */
module SumupAuth {
  import opened Wrappers

  /** Seconds before expiry at which a cached token is already replaced. */
  const RefreshThreshold: int := 180

  datatype Auth = Auth(accessToken: string, validUntil: int)

  datatype TokenResponse = TokenResponse(accessToken: string, tokenType: string, expiresIn: int)

  /** Why a gateway call failed: a non-success HTTP status or the 2 s timeout. */
  datatype GatewayFailure = ApiError | ApiTimeout

  datatype Header = Header(name: string, value: string)

  /** The result of asking for auth headers: the cache afterwards, the headers,
      and whether a token request was sent. */
  datatype AuthOutcome = AuthOutcome(cache: Auth, headers: seq<Header>, requested: bool)

  predicate NeedsRefresh(cache: Option<Auth>, now: int) {
    cache.None? || cache.value.validUntil < now + RefreshThreshold
  }

  function BearerHeaders(auth: Auth): (h: seq<Header>)
    ensures |h| == 2 && h[0].name == "Accept" && h[1].name == "Authorization"
    ensures |h[1].value| >= 7 && h[1].value[..7] == "Bearer " && h[1].value[7..] == auth.accessToken
  {
    [Header("Accept", "application/json"), Header("Authorization", "Bearer " + auth.accessToken)]
  }

  /** One token request answered by `response` at clock time `issuedAt`:
      the new token is valid for `expiresIn` seconds from that time. */
  function AuthWithSumup(response: Result<TokenResponse, GatewayFailure>, issuedAt: int): (r: Result<Auth, GatewayFailure>)
    ensures response.Failure? <==> r.Failure?
    ensures r.Failure? ==> r.error == response.error
    ensures r.Success? ==> r.value.accessToken == response.value.accessToken
    ensures r.Success? ==> r.value.validUntil - issuedAt == response.value.expiresIn
  {
    match response
    case Failure(e) => Failure(e)
    case Success(resp) => Success(Auth(resp.accessToken, issuedAt + resp.expiresIn))
  }

  /** The auth headers for a gateway call made at `now`.  The token endpoint's
      `response` is only consulted when a refresh is due; `issuedAt` is the
      second clock reading taken when the new token is stored.  On failure the
      caller keeps its old cache. */
  function GetAuthHeaders(cache: Option<Auth>, now: int,
                          response: Result<TokenResponse, GatewayFailure>, issuedAt: int): (r: Result<AuthOutcome, GatewayFailure>)
    ensures r.Success? ==> r.value.requested == NeedsRefresh(cache, now)
    ensures r.Failure? <==> NeedsRefresh(cache, now) && response.Failure?
    ensures r.Failure? ==> r.error == response.error
    ensures r.Success? && !r.value.requested ==> Some(r.value.cache) == cache
    ensures r.Success? && r.value.requested ==>
              r.value.cache == Auth(response.value.accessToken, issuedAt + response.value.expiresIn)
    ensures r.Success? ==> r.value.headers == BearerHeaders(r.value.cache)
  {
    if NeedsRefresh(cache, now) then
      match AuthWithSumup(response, issuedAt)
      case Failure(e) => Failure(e)
      case Success(auth) => Success(AuthOutcome(auth, BearerHeaders(auth), true))
    else
      Success(AuthOutcome(cache.value, BearerHeaders(cache.value), false))
  }

  /** A token issued at `issuedAt` for `expiresIn` seconds is reused exactly
      until `RefreshThreshold` seconds before it expires. */
  lemma RefreshWindow(issuedAt: int, expiresIn: int, token: string, later: int,
                      response: Result<TokenResponse, GatewayFailure>, issuedAgain: int)
    ensures var r := GetAuthHeaders(Some(Auth(token, issuedAt + expiresIn)), later, response, issuedAgain);
            (r.Success? && !r.value.requested) <==> later <= issuedAt + expiresIn - RefreshThreshold
  {
  }

  /** Right after a successful refresh with a lifetime of at least the
      threshold, a second call at the same instant sends no token request. */
  lemma RefreshedTokenIsReused(cache: Option<Auth>, now: int, response: Result<TokenResponse, GatewayFailure>,
                               other: Result<TokenResponse, GatewayFailure>, later: int)
    requires GetAuthHeaders(cache, now, response, now).Success?
    requires response.Success? ==> response.value.expiresIn >= RefreshThreshold
    ensures var first := GetAuthHeaders(cache, now, response, now).value;
            GetAuthHeaders(Some(first.cache), now, other, later) == Success(first.(requested := false))
  {
  }
}

=== FILE: tse_wrapper.dfy ===
/** The TSE (fiscal signing device) wrapper: the queue of signature rows in
    the database, the selection of the next request, the receipt totals,
    the till registration bookkeeping and the TSE status dispatch.

    The signature table is a sequence of rows, the till table a map from
    till id to row, the TSE's registered clients a set of till names. */
module TseWrapper {
  import opened Wrappers
  import StringOrder

  datatype SignatureStatus = Todo | Pending | Done

  /** What the TSE returns for a completed signature. */
  datatype SignResult = SignResult(transaction: int, signatureNr: int, start: string, end: string, signature: string)

  datatype ReceiptLine = ReceiptLine(totalPrice: int, taxName: string)

  /** The receipt handed to the TSE: its lines and one payment of `total`. */
  datatype Receipt = Receipt(lines: seq<ReceiptLine>, total: int, zahlungsart: string, currency: string)

  datatype SignatureRow = SignatureRow(
    orderId: int,
    tillId: int,
    status: SignatureStatus,
    tseId: Option<int>,
    resultMessage: Option<string>,
    receipt: Option<Receipt>,
    result: Option<SignResult>)

  datatype TillRow = TillRow(name: string, tseId: Option<int>)

  datatype OrderRow = OrderRow(paymentMethod: Option<string>, lineItems: seq<ReceiptLine>)

  datatype TseError =
    | InvalidOrder(orderId: int)
    | InvalidPaymentMethod(paymentMethod: string)
    | ForbiddenTseState

  type Signatures = seq<SignatureRow>
  type Tills = map<int, TillRow>

  // ---------------------------------------------------------------------
  // Selecting the next request

  predicate TillIsSigning(db: Signatures, tillId: int) {
    exists k :: 0 <= k < |db| && db[k].tillId == tillId && db[k].status == Pending
  }

  /** Row `k` may be signed by TSE `tse`: it waits, its till is assigned to
      this TSE, and no signature of that till is in progress anywhere. */
  predicate Eligible(db: Signatures, tills: Tills, tse: int, k: int) {
    && 0 <= k < |db|
    && db[k].status == Todo
    && db[k].tillId in tills
    && tills[db[k].tillId].tseId == Some(tse)
    && !TillIsSigning(db, db[k].tillId)
  }

  predicate UniqueOrderIds(db: Signatures) {
    forall i, j :: 0 <= i < j < |db| ==> db[i].orderId != db[j].orderId
  }

  ghost predicate AtMostOnePendingPerTill(db: Signatures) {
    forall i, j :: 0 <= i < j < |db| && db[i].status == Pending && db[j].status == Pending ==> db[i].tillId != db[j].tillId
  }

  /** The eligible row of `db[i..]` with the smallest order id. */
  function SelectFrom(db: Signatures, tills: Tills, tse: int, i: nat): (r: Option<nat>)
    requires i <= |db|
    ensures r.None? <==> forall k :: i <= k < |db| ==> !Eligible(db, tills, tse, k)
    ensures r.Some? ==> i <= r.value < |db| && Eligible(db, tills, tse, r.value)
    ensures r.Some? ==> forall k :: i <= k < |db| && Eligible(db, tills, tse, k) ==> db[r.value].orderId <= db[k].orderId
    decreases |db| - i
  {
    if i == |db| then None
    else
      var rest := SelectFrom(db, tills, tse, i + 1);
      if !Eligible(db, tills, tse, i) then rest
      else if rest.Some? && db[rest.value].orderId < db[i].orderId then rest
      else Some(i)
  }

  /** Rows whose order id is `orderId` become pending on TSE `tse`. */
  function MarkPending(db: Signatures, orderId: int, tse: int): (r: Signatures)
    ensures |r| == |db|
    ensures forall i :: 0 <= i < |db| ==>
              r[i] == (if db[i].orderId == orderId then db[i].(status := Pending, tseId := Some(tse)) else db[i])
  {
    seq(|db|, i requires 0 <= i < |db| =>
      if db[i].orderId == orderId then db[i].(status := Pending, tseId := Some(tse)) else db[i])
  }

  datatype Selected = Selected(orderId: int, tillName: string)

  datatype Grab = Grab(request: Option<Selected>, signatures: Signatures)

  /** Picks the next request for TSE `tse` and claims it; nothing is picked
      once the wrapper is stopping. */
  function GrabNextRequest(stop: bool, tse: int, db: Signatures, tills: Tills): (g: Grab)
    ensures stop ==> g == Grab(None, db)
    ensures g.request.None? ==> g.signatures == db
    ensures !stop && (forall k :: 0 <= k < |db| ==> !Eligible(db, tills, tse, k)) ==> g.request.None?
    ensures g.request.Some? ==>
      && !stop
      && exists k :: Eligible(db, tills, tse, k)
           && db[k].orderId == g.request.value.orderId
           && tills[db[k].tillId].name == g.request.value.tillName
           && (forall j :: 0 <= j < |db| && Eligible(db, tills, tse, j) ==> db[k].orderId <= db[j].orderId)
           && g.signatures == MarkPending(db, db[k].orderId, tse)
  {
    if stop then Grab(None, db)
    else
      match SelectFrom(db, tills, tse, 0)
      case None => Grab(None, db)
      case Some(k) =>
        Grab(Some(Selected(db[k].orderId, tills[db[k].tillId].name)), MarkPending(db, db[k].orderId, tse))
  }

  /** Claiming a request never starts a second signature on a till. */
  lemma GrabKeepsOnePendingPerTill(stop: bool, tse: int, db: Signatures, tills: Tills)
    requires UniqueOrderIds(db)
    requires AtMostOnePendingPerTill(db)
    ensures AtMostOnePendingPerTill(GrabNextRequest(stop, tse, db, tills).signatures)
    ensures var g := GrabNextRequest(stop, tse, db, tills);
            forall i :: 0 <= i < |db| && g.request.Some? && db[i].orderId == g.request.value.orderId ==>
              g.signatures[i].status == Pending && g.signatures[i].tseId == Some(tse) && db[i].status == Todo
  {
    var g := GrabNextRequest(stop, tse, db, tills);
    if g.request.Some? {
      var k :| Eligible(db, tills, tse, k) && db[k].orderId == g.request.value.orderId
               && g.signatures == MarkPending(db, db[k].orderId, tse);
      var r := g.signatures;
      forall i, j | 0 <= i < j < |r| && r[i].status == Pending && r[j].status == Pending
        ensures r[i].tillId != r[j].tillId
      {
        if i == k {
          assert db[j].status == Pending;
        } else if j == k {
          assert db[i].status == Pending;
        }
      }
    }
  }

  // ---------------------------------------------------------------------
  // Building the signature request

  /** The payment kinds of the receipt format: cash is "Bar", card and tag
      payments are "Unbar"; any other method has no kind. */
  function Zahlungsart(paymentMethod: string): (r: Option<string>)
    ensures paymentMethod == "cash" ==> r == Some("Bar")
    ensures paymentMethod in {"sumup", "tag"} ==> r == Some("Unbar")
    ensures r.Some? <==> paymentMethod in {"cash", "sumup", "tag"}
  {
    if paymentMethod == "cash" then Some("Bar")
    else if paymentMethod == "sumup" || paymentMethod == "tag" then Some("Unbar")
    else None
  }

  function SumTotal(lines: seq<ReceiptLine>): int {
    if |lines| == 0 then 0 else SumTotal(lines[..|lines| - 1]) + lines[|lines| - 1].totalPrice
  }

  /** The running total over the line items, as the receipt loop adds them up. */
  method PaymentTotal(lines: seq<ReceiptLine>) returns (total: int)
    ensures total == SumTotal(lines)
  {
    total := 0;
    var i := 0;
    while i < |lines|
      invariant 0 <= i <= |lines|
      invariant total == SumTotal(lines[..i])
    {
      assert lines[..i + 1][..i] == lines[..i];
      total := total + lines[i].totalPrice;
      i := i + 1;
    }
    assert lines[..|lines|] == lines;
  }

  datatype SignatureRequest = SignatureRequest(orderId: int, tillName: string, receipt: Receipt)

  /** The order exists and has a payment method the TSE knows a kind for. */
  predicate Signable(orders: map<int, OrderRow>, orderId: int) {
    && orderId in orders
    && orders[orderId].paymentMethod.Some?
    && Zahlungsart(orders[orderId].paymentMethod.value).Some?
  }

  /** The receipt of a signable order: its lines, their summed total as the
      single payment of its kind, in EUR. */
  function ReceiptFor(orders: map<int, OrderRow>, orderId: int): Receipt
    requires Signable(orders, orderId)
  {
    var o := orders[orderId];
    Receipt(o.lineItems, SumTotal(o.lineItems), Zahlungsart(o.paymentMethod.value).value, "EUR")
  }

  /** The request for order `orderId`: its payment method must be known and
      mapped, and the single payment is the sum of the line totals, in EUR. */
  method MakeSignatureRequest(orders: map<int, OrderRow>, orderId: int, tillName: string)
    returns (r: Result<SignatureRequest, TseError>)
    ensures (orderId !in orders || orders[orderId].paymentMethod.None?) ==> r == Failure(InvalidOrder(orderId))
    ensures orderId in orders && orders[orderId].paymentMethod.Some?
            && Zahlungsart(orders[orderId].paymentMethod.value).None? ==>
              r == Failure(InvalidPaymentMethod(orders[orderId].paymentMethod.value))
    ensures r.Success? ==>
      && orderId in orders && orders[orderId].paymentMethod.Some?
      && r.value.orderId == orderId && r.value.tillName == tillName
      && r.value.receipt.lines == orders[orderId].lineItems
      && r.value.receipt.total == SumTotal(orders[orderId].lineItems)
      && Some(r.value.receipt.zahlungsart) == Zahlungsart(orders[orderId].paymentMethod.value)
      && r.value.receipt.currency == "EUR"
    ensures Signable(orders, orderId) ==>
              r == Success(SignatureRequest(orderId, tillName, ReceiptFor(orders, orderId)))
  {
    if orderId !in orders || orders[orderId].paymentMethod.None? {
      return Failure(InvalidOrder(orderId));
    }
    var pm := orders[orderId].paymentMethod.value;
    var kind := Zahlungsart(pm);
    if kind.None? {
      return Failure(InvalidPaymentMethod(pm));
    }
    var total := PaymentTotal(orders[orderId].lineItems);
    r := Success(SignatureRequest(orderId, tillName, Receipt(orders[orderId].lineItems, total, kind.value, "EUR")));
  }

  // ---------------------------------------------------------------------
  // Finishing a request

  /** A cleanly aborted request goes back to the queue, unclaimed. */
  function ReturnRequest(db: Signatures, orderId: int): (r: Signatures)
    ensures |r| == |db|
    ensures forall i :: 0 <= i < |db| && db[i].orderId != orderId ==> r[i] == db[i]
    ensures forall i :: 0 <= i < |db| && db[i].orderId == orderId ==>
              r[i].status == Todo && r[i].tseId.None? && r[i].orderId == orderId && r[i].tillId == db[i].tillId
  {
    seq(|db|, i requires 0 <= i < |db| =>
      if db[i].orderId == orderId then db[i].(status := Todo, tseId := None) else db[i])
  }

  /** A signed request is stored as done, with its receipt and signature. */
  function RequestDone(db: Signatures, request: SignatureRequest, result: SignResult): (r: Signatures)
    ensures |r| == |db|
    ensures forall i :: 0 <= i < |db| && db[i].orderId != request.orderId ==> r[i] == db[i]
    ensures forall i :: 0 <= i < |db| && db[i].orderId == request.orderId ==>
              && r[i].status == Done && r[i].resultMessage == Some("success")
              && r[i].receipt == Some(request.receipt) && r[i].result == Some(result)
              && r[i].tseId == db[i].tseId && r[i].tillId == db[i].tillId
  {
    seq(|db|, i requires 0 <= i < |db| =>
      if db[i].orderId == request.orderId then
        db[i].(status := Done, resultMessage := Some("success"), receipt := Some(request.receipt), result := Some(result))
      else db[i])
  }

  /** Finishing a request never creates a pending signature. */
  lemma FinishKeepsOnePendingPerTill(db: Signatures, request: SignatureRequest, outcome: Option<SignResult>)
    requires AtMostOnePendingPerTill(db)
    ensures AtMostOnePendingPerTill(if outcome.None? then ReturnRequest(db, request.orderId)
                                    else RequestDone(db, request, outcome.value))
  {
    var r := if outcome.None? then ReturnRequest(db, request.orderId) else RequestDone(db, request, outcome.value);
    forall i, j | 0 <= i < j < |r| && r[i].status == Pending && r[j].status == Pending
      ensures r[i].tillId != r[j].tillId
    {
      assert db[i].status == Pending && db[j].status == Pending;
    }
  }

  // ---------------------------------------------------------------------
  // Till registration

  datatype HistoryAction = Register | Deregister

  datatype HistoryEntry = HistoryEntry(tillName: string, tseId: int, what: HistoryAction)

  /** The wrapper's view of the TSE: registered till names and the
      till/TSE history table. */
  datatype Registry = Registry(tills: set<string>, history: seq<HistoryEntry>)

  function TillAdd(reg: Registry, till: string, tse: int): (r: Registry)
    ensures r.tills == reg.tills + {till}
    ensures r.history == reg.history + [HistoryEntry(till, tse, Register)]
  {
    Registry(reg.tills + {till}, reg.history + [HistoryEntry(till, tse, Register)])
  }

  /** Removing a till that is not registered fails in the source (`set.remove`). */
  function TillRemove(reg: Registry, till: string, tse: int): (r: Registry)
    requires till in reg.tills
    ensures r.tills == reg.tills - {till} && |r.tills| == |reg.tills| - 1
    ensures r.history == reg.history + [HistoryEntry(till, tse, Deregister)]
  {
    Registry(reg.tills - {till}, reg.history + [HistoryEntry(till, tse, Deregister)])
  }

  /** Signing registers the request's till first when the TSE does not know
      it; `outcome` is the TSE's answer (`None`: cleanly aborted). */
  function Sign(reg: Registry, request: SignatureRequest, tse: int, outcome: Option<SignResult>): (r: (Registry, Option<SignResult>))
    ensures request.tillName in r.0.tills
    ensures request.tillName in reg.tills ==> r.0 == reg
    ensures request.tillName !in reg.tills ==> r.0 == TillAdd(reg, request.tillName, tse)
    ensures r.1 == outcome
  {
    if request.tillName !in reg.tills then (TillAdd(reg, request.tillName, tse), outcome)
    else (reg, outcome)
  }

  function Registrations(names: seq<string>, tse: int): seq<HistoryEntry> {
    seq(|names|, i requires 0 <= i < |names| => HistoryEntry(names[i], tse, Register))
  }

  function Deregistrations(names: seq<string>, tse: int): seq<HistoryEntry> {
    seq(|names|, i requires 0 <= i < |names| => HistoryEntry(names[i], tse, Deregister))
  }

  lemma HistoryCons(names: seq<string>, tse: int)
    requires |names| > 0
    ensures Registrations(names, tse) == [HistoryEntry(names[0], tse, Register)] + Registrations(names[1..], tse)
    ensures Deregistrations(names, tse) == [HistoryEntry(names[0], tse, Deregister)] + Deregistrations(names[1..], tse)
  {
  }

  predicate Distinct(xs: seq<string>) {
    forall i, j :: 0 <= i < j < |xs| ==> xs[i] != xs[j]
  }

  function SetOf(xs: seq<string>): set<string> {
    set x | x in xs
  }

  lemma SetOfCons(x: string, xs: seq<string>)
    ensures SetOf([x] + xs) == {x} + SetOf(xs)
  {
    assert forall y :: y in [x] + xs <==> y == x || y in xs;
  }

  lemma DistinctTail(xs: seq<string>)
    requires |xs| > 0 && Distinct(xs)
    ensures Distinct(xs[1..]) && xs[0] !in SetOf(xs[1..])
  {
    forall i, j | 0 <= i < j < |xs[1..]| ensures xs[1..][i] != xs[1..][j] {
      assert xs[1..][i] == xs[i + 1] && xs[1..][j] == xs[j + 1];
    }
  }

  /** The database tills that `known` lacks, each once, in database order. */
  function Missing(known: set<string>, dbTills: seq<string>): (m: seq<string>)
    ensures SetOf(m) == SetOf(dbTills) - known
    ensures Distinct(m)
    decreases |dbTills|
  {
    if |dbTills| == 0 then []
    else
      assert dbTills == [dbTills[0]] + dbTills[1..];
      SetOfCons(dbTills[0], dbTills[1..]);
      if dbTills[0] in known then Missing(known, dbTills[1..])
      else
        var rest := Missing(known + {dbTills[0]}, dbTills[1..]);
        SetOfCons(dbTills[0], rest);
        [dbTills[0]] + rest
  }

  /** The first phase of reconciliation: walk the database tills and
      register every one the TSE does not know yet. */
  function AddMissing(reg: Registry, dbTills: seq<string>, tse: int): (r: Registry)
    ensures r.tills == reg.tills + SetOf(dbTills)
    ensures r.history == reg.history + Registrations(Missing(reg.tills, dbTills), tse)
    decreases |dbTills|
  {
    if |dbTills| == 0 then reg
    else
      assert SetOf(dbTills) == {dbTills[0]} + SetOf(dbTills[1..]);
      if dbTills[0] in reg.tills then AddMissing(reg, dbTills[1..], tse)
      else
        var next := TillAdd(reg, dbTills[0], tse);
        var rest := Missing(next.tills, dbTills[1..]);
        HistoryCons([dbTills[0]] + rest, tse);
        assert ([dbTills[0]] + rest)[1..] == rest;
        var r := AddMissing(next, dbTills[1..], tse);
        assert r.history == reg.history + ([HistoryEntry(dbTills[0], tse, Register)] + Registrations(rest, tse));
        r
  }

  lemma RemoveStep(tills: set<string>, names: seq<string>)
    requires |names| > 0 && SetOf(names) <= tills && Distinct(names)
    ensures SetOf(names[1..]) <= tills - {names[0]}
    ensures (tills - {names[0]}) - SetOf(names[1..]) == tills - SetOf(names)
  {
    assert names == [names[0]] + names[1..];
    SetOfCons(names[0], names[1..]);
    DistinctTail(names);
  }

  /** The second phase: deregister the given tills in the given order. */
  function RemoveAll(reg: Registry, names: seq<string>, tse: int): (r: Registry)
    requires SetOf(names) <= reg.tills && Distinct(names)
    ensures r.tills == reg.tills - SetOf(names)
    ensures r.history == reg.history + Deregistrations(names, tse)
    decreases |names|
  {
    if |names| == 0 then reg
    else
      DistinctTail(names);
      var next := TillRemove(reg, names[0], tse);
      assert SetOf(names[1..]) <= next.tills;
      var r := RemoveAll(next, names[1..], tse);
      HistoryCons(names, tse);
      assert r.history == reg.history + ([HistoryEntry(names[0], tse, Deregister)] + Deregistrations(names[1..], tse));
      r
  }

  /** The tills the TSE knows but the database does not assign to it, each
      once, in sorted order. */
  function SortedExtra(clientIds: seq<string>, dbTills: seq<string>): (xs: seq<string>)
    ensures SetOf(xs) == SetOf(clientIds) - SetOf(dbTills)
    ensures Distinct(xs)
    ensures StringOrder.Sorted(xs)
  {
    var unsorted := Missing(SetOf(dbTills), clientIds);
    var xs := StringOrder.Sort(unsorted);
    assert forall x :: x in xs <==> x in unsorted by {
      forall x ensures x in xs <==> x in unsorted {
        assert x in xs <==> x in multiset(xs);
        assert x in unsorted <==> x in multiset(unsorted);
      }
    }
    assert Distinct(xs) by {
      forall i, j | 0 <= i < j < |xs| ensures xs[i] != xs[j] {
        if xs[i] == xs[j] {
          MultisetAtLeastTwo(xs, i, j);
          DistinctMultiplicity(unsorted, xs[i]);
        }
      }
    }
    xs
  }

  lemma MultisetAtLeastTwo(xs: seq<string>, i: int, j: int)
    requires 0 <= i < j < |xs| && xs[i] == xs[j]
    ensures multiset(xs)[xs[i]] >= 2
  {
    assert xs == xs[..i] + [xs[i]] + xs[i + 1..j] + [xs[j]] + xs[j + 1..];
  }

  lemma {:induction false} DistinctMultiplicity(xs: seq<string>, x: string)
    requires Distinct(xs)
    ensures multiset(xs)[x] <= 1
  {
    if |xs| > 0 {
      assert xs == [xs[0]] + xs[1..];
      DistinctMultiplicity(xs[1..], x);
      if xs[0] == x {
        assert x !in xs[1..];
      }
    }
  }

  /** Till reconciliation after connecting: the TSE reports `clientIds`, the
      database assigns `dbTills` to this TSE.  Missing tills are registered in
      database order, then extra tills are deregistered in sorted order. */
  function ReconcileTills(clientIds: seq<string>, dbTills: seq<string>, history: seq<HistoryEntry>, tse: int): (r: Registry)
    ensures r.tills == SetOf(dbTills)
    ensures r.history == history + Registrations(Missing(SetOf(clientIds), dbTills), tse)
                                 + Deregistrations(SortedExtra(clientIds, dbTills), tse)
  {
    var start := Registry(SetOf(clientIds), history);
    var added := AddMissing(start, dbTills, tse);
    RemoveAll(added, SortedExtra(clientIds, dbTills), tse)
  }

  lemma HistoryMembership(names: seq<string>, tse: int, t: string)
    ensures HistoryEntry(t, tse, Register) in Registrations(names, tse) <==> t in names
    ensures HistoryEntry(t, tse, Deregister) in Deregistrations(names, tse) <==> t in names
    ensures HistoryEntry(t, tse, Register) !in Deregistrations(names, tse)
    ensures HistoryEntry(t, tse, Deregister) !in Registrations(names, tse)
  {
    if t in names {
      var i :| 0 <= i < |names| && names[i] == t;
      assert Registrations(names, tse)[i] == HistoryEntry(t, tse, Register);
      assert Deregistrations(names, tse)[i] == HistoryEntry(t, tse, Deregister);
    }
  }

  /** Every till whose registration changes gets exactly one history entry,
      and no other till gets one. */
  lemma ReconcileHistoryIsExact(clientIds: seq<string>, dbTills: seq<string>, history: seq<HistoryEntry>, tse: int)
    ensures var added := ReconcileTills(clientIds, dbTills, history, tse).history[|history|..];
            && (forall t :: t in SetOf(dbTills) - SetOf(clientIds) <==> HistoryEntry(t, tse, Register) in added)
            && (forall t :: t in SetOf(clientIds) - SetOf(dbTills) <==> HistoryEntry(t, tse, Deregister) in added)
            && |added| == |SetOf(dbTills) - SetOf(clientIds)| + |SetOf(clientIds) - SetOf(dbTills)|
  {
    var m := Missing(SetOf(clientIds), dbTills);
    var x := SortedExtra(clientIds, dbTills);
    var h := ReconcileTills(clientIds, dbTills, history, tse).history;
    SliceAfter(history, Registrations(m, tse), Deregistrations(x, tse));
    LogIsExact(m, x, SetOf(dbTills) - SetOf(clientIds), SetOf(clientIds) - SetOf(dbTills), tse, h[|history|..]);
  }

  lemma SliceAfter<T>(a: seq<T>, b: seq<T>, c: seq<T>)
    ensures (a + b + c)[|a|..] == b + c
  {
  }

  /** A register log of distinct tills `m` followed by a deregister log of
      distinct tills `x` names each till of `m` and `x` once and no other. */
  lemma LogIsExact(m: seq<string>, x: seq<string>, registered: set<string>, deregistered: set<string>, tse: int,
                   log: seq<HistoryEntry>)
    requires Distinct(m) && SetOf(m) == registered
    requires Distinct(x) && SetOf(x) == deregistered
    requires log == Registrations(m, tse) + Deregistrations(x, tse)
    ensures forall t :: t in registered <==> HistoryEntry(t, tse, Register) in log
    ensures forall t :: t in deregistered <==> HistoryEntry(t, tse, Deregister) in log
    ensures |log| == |registered| + |deregistered|
  {
    DistinctCardinality(m);
    DistinctCardinality(x);
    forall t
      ensures t in registered <==> HistoryEntry(t, tse, Register) in log
      ensures t in deregistered <==> HistoryEntry(t, tse, Deregister) in log
    {
      HistoryMembership(m, tse, t);
      HistoryMembership(x, tse, t);
    }
  }

  lemma {:induction false} DistinctCardinality(xs: seq<string>)
    requires Distinct(xs)
    ensures |SetOf(xs)| == |xs|
  {
    if |xs| > 0 {
      assert SetOf(xs) == {xs[0]} + SetOf(xs[1..]);
      assert xs[0] !in SetOf(xs[1..]);
      DistinctCardinality(xs[1..]);
    }
  }

  // ---------------------------------------------------------------------
  // One iteration of the signing loop

  /** The state after one loop iteration; `error` is the exception that ended
      the iteration, if any (the claimed row then stays pending). */
  datatype Step = Step(signatures: Signatures, registry: Registry, error: Option<TseError>)

  /** Grab a request, build it, sign it (the TSE answers `outcome`) and
      record the result: a clean abort returns the row to the queue. */
  method HandleNextRequest(stop: bool, tse: int, db: Signatures, tills: Tills, orders: map<int, OrderRow>,
                           reg: Registry, outcome: Option<SignResult>) returns (step: Step)
    ensures GrabNextRequest(stop, tse, db, tills).request.None? ==> step == Step(db, reg, None)
    ensures step.error.Some? ==> step.signatures == GrabNextRequest(stop, tse, db, tills).signatures && step.registry == reg
    ensures var g := GrabNextRequest(stop, tse, db, tills);
            g.request.Some? && step.error.None? ==>
              && g.request.value.tillName in step.registry.tills
              && (outcome.None? ==> step.signatures == ReturnRequest(g.signatures, g.request.value.orderId))
              && (outcome.Some? ==>
                    (&& |step.signatures| == |db|
                     && forall i :: 0 <= i < |db| && db[i].orderId == g.request.value.orderId ==>
                          step.signatures[i].status == Done && step.signatures[i].result == outcome))
    ensures var g := GrabNextRequest(stop, tse, db, tills);
            g.request.Some? ==>
              var o := g.request.value.orderId;
              && (step.error.Some? <==> !Signable(orders, o))
              && ((o !in orders || orders[o].paymentMethod.None?) ==> step.error == Some(InvalidOrder(o)))
              && (Signable(orders, o) && outcome.Some? ==>
                    step.signatures
                    == RequestDone(g.signatures, SignatureRequest(o, g.request.value.tillName, ReceiptFor(orders, o)),
                                   outcome.value))
  {
    var g := GrabNextRequest(stop, tse, db, tills);
    if g.request.None? {
      return Step(db, reg, None);
    }
    var sel := g.request.value;
    var req := MakeSignatureRequest(orders, sel.orderId, sel.tillName);
    if req.Failure? {
      return Step(g.signatures, reg, Some(req.error));
    }
    var (reg', result) := Sign(reg, req.value, tse, outcome);
    if result.None? {
      step := Step(ReturnRequest(g.signatures, sel.orderId), reg', None);
    } else {
      step := Step(RequestDone(g.signatures, req.value, result.value), reg', None);
    }
  }

  /** A claimed request that is never finished (as after a request-building
      error) keeps its till busy: the till's next order is not selected. */
  lemma PendingSignatureBlocksTill()
    ensures var db := [SignatureRow(1, 5, Todo, None, None, None, None), SignatureRow(2, 5, Todo, None, None, None, None)];
            var tills := map[5 := TillRow("till-5", Some(9))];
            var g := GrabNextRequest(false, 9, db, tills);
            && g.request == Some(Selected(1, "till-5"))
            && g.signatures[0].status == Pending
            && GrabNextRequest(false, 9, g.signatures, tills).request.None?
  {
    var db := [SignatureRow(1, 5, Todo, None, None, None, None), SignatureRow(2, 5, Todo, None, None, None, None)];
    var tills := map[5 := TillRow("till-5", Some(9))];
    assert Eligible(db, tills, 9, 0);
    var g := GrabNextRequest(false, 9, db, tills);
    assert TillIsSigning(g.signatures, 5);
  }

  // ---------------------------------------------------------------------
  // TSE status dispatch

  datatype MasterData = MasterData(
    serial: string, hashAlgo: string, timeFormat: string,
    publicKey: string, certificate: string, processDataEncoding: string)

  datatype TseRecord = TseRecord(status: Option<string>, masterData: Option<MasterData>)

  /** On connect: a new TSE becomes active and stores the device's master
      data; active, disabled and failed TSEs are left alone; any other status
      (including none) is a forbidden database state. */
  function ApplyTseStatus(rec: TseRecord, md: MasterData): (r: Result<TseRecord, TseError>)
    ensures rec.status == Some("new") ==> r == Success(TseRecord(Some("active"), Some(md)))
    ensures rec.status.Some? && rec.status.value in {"active", "disabled", "failed"} ==> r == Success(rec)
    ensures r.Failure? <==> rec.status.None? || rec.status.value !in {"new", "active", "disabled", "failed"}
  {
    match rec.status
    case Some("new") => Success(TseRecord(Some("active"), Some(md)))
    case Some("active") => Success(rec)
    case Some("disabled") => Success(rec)
    case Some("failed") => Success(rec)
    case _ => Failure(ForbiddenTseState)
  }
}

=== FILE: user_tag.dfy ===
/** User-tag search and comment update.  A search term that looks like a hex
    number also matches the tag with that uid; every term is matched as a SQL
    LIKE pattern `%term%` (lower-cased) against the uid's hex form. */
module UserTag {
  import opened Wrappers
  import opened Ascii

  /** The service's `InvalidArgument` for an unknown tag uid. */
  datatype Error = InvalidArgument(uid: nat)

  datatype UserTagDetail = UserTagDetail(uid: nat, comment: Option<string>)

  // ---------------------------------------------------------------------
  // Hex recognition and parsing

  predicate IsHexDigit(c: char) {
    '0' <= c <= '9' || 'a' <= c <= 'f' || 'A' <= c <= 'F'
  }

  predicate AllHex(s: string) {
    forall i :: 0 <= i < |s| ==> IsHexDigit(s[i])
  }

  /** Python's `re.match("^[A-Fa-f0-9]+$", term)`: one or more hex digits up
      to the end, where `$` also accepts a single final newline. */
  predicate LooksHex(term: string) {
    || (|term| > 0 && AllHex(term))
    || (|term| > 1 && term[|term| - 1] == '\n' && AllHex(term[..|term| - 1]))
  }

  /** The digits `int(term, 16)` reads: surrounding whitespace is ignored. */
  function HexDigits(term: string): string {
    if |term| > 0 && term[|term| - 1] == '\n' then term[..|term| - 1] else term
  }

  function DigitValue(c: char): (v: nat)
    requires IsHexDigit(c)
    ensures v < 16
  {
    if '0' <= c <= '9' then (c - '0') as nat
    else if 'a' <= c <= 'f' then (c - 'a') as nat + 10
    else (c - 'A') as nat + 10
  }

  /** Base-16 value, most significant digit first. */
  function HexValue(s: string): nat
    requires AllHex(s)
  {
    if |s| == 0 then 0 else HexValue(s[..|s| - 1]) * 16 + DigitValue(s[|s| - 1])
  }

  /** The numeric reading of a search term, when it looks hex. */
  function ParseSearchTerm(term: string): (r: Option<nat>)
    ensures r.Some? <==> LooksHex(term)
    ensures r.Some? ==> AllHex(HexDigits(term)) && r.value == HexValue(HexDigits(term))
  {
    if LooksHex(term) then Some(HexValue(HexDigits(term))) else None
  }

  function HexChar(d: nat): (c: char)
    requires d < 16
    ensures IsHexDigit(c) && DigitValue(c) == d
    ensures c != '%' && c != '_' && c != '\\' && c != '\n'
  {
    if d < 10 then ('0' as int + d) as char else ('a' as int + d - 10) as char
  }

  /** The lower-case hex form without leading zeros, as `to_hex` prints a uid. */
  function ToHex(n: nat): (s: string)
    ensures |s| > 0 && AllHex(s)
    ensures forall i :: 0 <= i < |s| ==> s[i] != '%' && s[i] != '_' && s[i] != '\\' && s[i] != '\n'
  {
    if n < 16 then [HexChar(n)] else ToHex(n / 16) + [HexChar(n % 16)]
  }

  /** Reading back the printed hex form of a uid yields the uid. */
  lemma {:induction false} HexRoundTrip(n: nat)
    ensures ParseSearchTerm(ToHex(n)) == Some(n)
    ensures HexValue(ToHex(n)) == n
  {
    var h := ToHex(n);
    assert h[|h| - 1] != '\n';
    assert HexDigits(h) == h;
    if n >= 16 {
      HexRoundTrip(n / 16);
      assert h[..|h| - 1] == ToHex(n / 16);
      assert h[|h| - 1] == HexChar(n % 16);
      assert HexValue(h) == HexValue(ToHex(n / 16)) * 16 + n % 16;
    }
    assert LooksHex(h);
    assert ParseSearchTerm(h) == Some(HexValue(h));
  }

  // ---------------------------------------------------------------------
  // Case folding

  lemma {:induction false} HexValueIgnoresCase(s: string)
    requires AllHex(s)
    ensures AllHex(Lower(s)) && HexValue(Lower(s)) == HexValue(s)
  {
    if |s| > 0 {
      assert Lower(s)[..|s| - 1] == Lower(s[..|s| - 1]);
      HexValueIgnoresCase(s[..|s| - 1]);
    }
  }

  /** The numeric reading of a term does not depend on letter case. */
  lemma ParseIgnoresCase(term: string)
    ensures ParseSearchTerm(Lower(term)) == ParseSearchTerm(term)
  {
    var l := Lower(term);
    if |term| > 0 {
      assert l[..|l| - 1] == Lower(term[..|term| - 1]);
    }
    assert AllHex(l) <==> AllHex(term);
    assert |term| > 0 ==> (AllHex(l[..|l| - 1]) <==> AllHex(term[..|term| - 1]));
    if LooksHex(term) {
      assert HexDigits(l) == Lower(HexDigits(term));
      HexValueIgnoresCase(HexDigits(term));
    }
  }

  // ---------------------------------------------------------------------
  // SQL LIKE

  /** LIKE pattern elements: `%` any run, `_` any one character, otherwise
      a literal (a backslash makes the next character literal). */
  datatype Token = AnyRun | AnyChar | Lit(c: char)

  function Prepend(t: Token, rest: Option<seq<Token>>): Option<seq<Token>> {
    match rest
    case None => None
    case Some(ts) => Some([t] + ts)
  }

  /** Splits a pattern into tokens; a pattern ending in a lone backslash
      has no reading. */
  function Tokenize(p: string): Option<seq<Token>>
    decreases |p|
  {
    if |p| == 0 then Some([])
    else if p[0] == '\\' then
      if |p| == 1 then None else Prepend(Lit(p[1]), Tokenize(p[2..]))
    else
      var head := if p[0] == '%' then AnyRun else if p[0] == '_' then AnyChar else Lit(p[0]);
      Prepend(head, Tokenize(p[1..]))
  }

  predicate MatchTokens(text: string, ts: seq<Token>)
    decreases |ts|, |text|
  {
    if |ts| == 0 then |text| == 0
    else match ts[0]
      case AnyRun => MatchTokens(text, ts[1..]) || (|text| > 0 && MatchTokens(text[1..], ts))
      case AnyChar => |text| > 0 && MatchTokens(text[1..], ts[1..])
      case Lit(c) => |text| > 0 && text[0] == c && MatchTokens(text[1..], ts[1..])
  }

  function Literals(t: string): (ts: seq<Token>)
    ensures |ts| == |t|
    ensures forall i :: 0 <= i < |t| ==> ts[i] == Lit(t[i])
  {
    seq(|t|, i requires 0 <= i < |t| => Lit(t[i]))
  }

  predicate NoWildcards(t: string) {
    forall i :: 0 <= i < |t| ==> t[i] != '%' && t[i] != '_' && t[i] != '\\'
  }

  /** The search pattern: the lower-cased term between two `%`. */
  function SearchPattern(term: string): string {
    "%" + Lower(term) + "%"
  }

  lemma {:induction false} TokenizeLiteralThenRun(t: string)
    requires NoWildcards(t)
    ensures Tokenize(t + "%") == Some(Literals(t) + [AnyRun])
    decreases |t|
  {
    if |t| == 0 {
      assert t + "%" == "%";
      assert "%"[1..] == "";
      assert Literals(t) + [AnyRun] == [AnyRun];
      assert Tokenize("") == Some([]);
      assert Tokenize("%") == Prepend(AnyRun, Tokenize(""));
      assert [AnyRun] + [] == [AnyRun];
    } else {
      var p := t + "%";
      assert p[0] == t[0] && p[1..] == t[1..] + "%";
      assert p[0] != '%' && p[0] != '_' && p[0] != '\\';
      TokenizeLiteralThenRun(t[1..]);
      assert Tokenize(p) == Prepend(Lit(t[0]), Tokenize(t[1..] + "%"));
      assert Literals(t) == [Lit(t[0])] + Literals(t[1..]);
      assert [Lit(t[0])] + (Literals(t[1..]) + [AnyRun]) == Literals(t) + [AnyRun];
    }
  }

  lemma {:induction false} AnyRunMatchesAll(text: string)
    ensures MatchTokens(text, [AnyRun])
    decreases |text|
  {
    if |text| > 0 {
      AnyRunMatchesAll(text[1..]);
    }
  }

  lemma {:induction false} LiteralsThenRunIsPrefix(text: string, t: string)
    ensures MatchTokens(text, Literals(t) + [AnyRun]) <==> t <= text
    decreases |t|
  {
    if |t| == 0 {
      assert Literals(t) + [AnyRun] == [AnyRun];
      AnyRunMatchesAll(text);
    } else {
      assert (Literals(t) + [AnyRun])[1..] == Literals(t[1..]) + [AnyRun];
      if |text| > 0 {
        LiteralsThenRunIsPrefix(text[1..], t[1..]);
      }
    }
  }

  lemma {:induction false} ContainsMatch(text: string, t: string)
    ensures MatchTokens(text, [AnyRun] + Literals(t) + [AnyRun]) <==> exists k :: 0 <= k <= |text| && t <= text[k..]
    decreases |text|
  {
    var ts := [AnyRun] + Literals(t) + [AnyRun];
    assert ts[1..] == Literals(t) + [AnyRun];
    LiteralsThenRunIsPrefix(text, t);
    assert text[0..] == text;
    if |text| > 0 {
      ContainsMatch(text[1..], t);
      if exists k :: 0 <= k <= |text| && t <= text[k..] {
        var k :| 0 <= k <= |text| && t <= text[k..];
        if k > 0 {
          assert text[1..][k - 1..] == text[k..];
        }
      }
      if exists k :: 0 <= k <= |text[1..]| && t <= text[1..][k..] {
        var k :| 0 <= k <= |text[1..]| && t <= text[1..][k..];
        assert text[1..][k..] == text[k + 1..];
      }
    }
  }

  /** A pattern that ends in `%` always has a reading: a backslash just
      before that `%` makes it a literal percent sign instead of an error. */
  lemma {:induction false} RunEndedPatternReads(x: string)
    ensures Tokenize(x + "%").Some?
    decreases |x|
  {
    var p := x + "%";
    if |x| == 0 {
      assert p == "%" && p[1..] == "";
    } else if x[0] == '\\' && |x| == 1 {
      assert p == "\\%" && p[2..] == "";
    } else if x[0] == '\\' {
      assert p[2..] == x[2..] + "%";
      RunEndedPatternReads(x[2..]);
    } else {
      assert p[1..] == x[1..] + "%";
      RunEndedPatternReads(x[1..]);
    }
  }

  /** The search pattern's LIKE tokens. */
  function SearchTokens(term: string): (ts: seq<Token>)
    ensures Tokenize(SearchPattern(term)) == Some(ts)
  {
    RunEndedPatternReads("%" + Lower(term));
    Tokenize(SearchPattern(term)).value
  }

  /** For a term without LIKE metacharacters, the pattern match is plain
      substring search of the lower-cased term. */
  lemma PatternIsSubstringSearch(text: string, term: string)
    requires NoWildcards(term)
    ensures MatchTokens(text, SearchTokens(term))
            <==> exists k :: 0 <= k <= |text| && Lower(term) <= text[k..]
  {
    var l := Lower(term);
    assert NoWildcards(l);
    TokenizeLiteralThenRun(l);
    assert SearchPattern(term)[1..] == l + "%";
    assert Tokenize(SearchPattern(term)) == Some([AnyRun] + (Literals(l) + [AnyRun]));
    assert [AnyRun] + (Literals(l) + [AnyRun]) == [AnyRun] + Literals(l) + [AnyRun];
    ContainsMatch(text, l);
  }

  // ---------------------------------------------------------------------
  // The service operations

  /** The tags whose hex uid matches the pattern `%term%` (lower-cased) or
      whose uid equals the term's numeric reading. */
  function FindUserTags(tags: map<nat, UserTagDetail>, term: string): (r: set<nat>)
    ensures r <= tags.Keys
    ensures forall uid :: uid in tags && ParseSearchTerm(term) == Some(uid) ==> uid in r
    ensures forall uid :: uid in tags && MatchTokens(ToHex(uid), SearchTokens(term)) ==> uid in r
    ensures forall uid :: uid in r ==> MatchTokens(ToHex(uid), SearchTokens(term)) || ParseSearchTerm(term) == Some(uid)
  {
    var ts := SearchTokens(term);
    var value := ParseSearchTerm(term);
    set uid | uid in tags && (MatchTokens(ToHex(uid), ts) || value == Some(uid))
  }

  /** For a term without LIKE metacharacters the search is: every tag
      whose hex uid contains the lower-cased term, plus the tag the term
      spells as a hex number. */
  lemma SearchIsSubstringOrValue(tags: map<nat, UserTagDetail>, term: string)
    requires NoWildcards(term)
    ensures FindUserTags(tags, term)
            == set uid | uid in tags && ((exists k :: 0 <= k <= |ToHex(uid)| && Lower(term) <= ToHex(uid)[k..])
                                         || ParseSearchTerm(term) == Some(uid))
  {
    forall uid | uid in tags {
      PatternIsSubstringSearch(ToHex(uid), term);
    }
  }

  /** A term ending in a backslash is not refused: the backslash escapes
      the closing `%`, which then has to match a literal percent sign. */
  lemma TrailingBackslashEscapesRun()
    ensures SearchTokens("ab\\") == [AnyRun, Lit('a'), Lit('b'), Lit('%')]
  {
    var p := SearchPattern("ab\\");
    assert Lower("ab\\") == "ab\\";
    assert p == "%ab\\%";
    assert p[1..] == "ab\\%" && p[1..][1..] == "b\\%" && p[1..][1..][1..] == "\\%" && p[1..][1..][1..][2..] == "";
  }

  /** Searching for a uid's hex form, in any letter case, finds that tag. */
  lemma SearchByHexFindsTag(tags: map<nat, UserTagDetail>, uid: nat, term: string)
    requires uid in tags
    requires Lower(term) == ToHex(uid)
    ensures uid in FindUserTags(tags, term)
  {
    HexRoundTrip(uid);
    ParseIgnoresCase(term);
  }

  /** A term with a trailing newline still reads as a number. */
  lemma TrailingNewlineStillHex()
    ensures ParseSearchTerm("ab\n") == Some(171)
  {
    assert HexDigits("ab\n") == "ab";
    assert "ab"[..1] == "a";
    assert "a"[..0] == "";
    assert HexValue("a") == 10;
  }

  /** Updating the comment of an unknown tag is refused; otherwise only that
      tag's comment changes. */
  function UpdateUserTagComment(tags: map<nat, UserTagDetail>, uid: nat, comment: string)
    : (r: Result<(map<nat, UserTagDetail>, UserTagDetail), Error>)
    ensures uid !in tags <==> r == Failure(InvalidArgument(uid))
    ensures r.Success? ==>
      && r.value.0.Keys == tags.Keys
      && r.value.1 == r.value.0[uid]
      && r.value.1.comment == Some(comment) && r.value.1.uid == tags[uid].uid
      && forall other :: other in tags && other != uid ==> r.value.0[other] == tags[other]
  {
    if uid !in tags then Failure(InvalidArgument(uid))
    else
      var detail := tags[uid].(comment := Some(comment));
      Success((tags[uid := detail], detail))
  }
}

=== FILE: wrappers.dfy ===
/** Failure-compatible wrappers shared by every module: `Option` for nullable
    values and `Result` for operations that raise one of the service errors. */
module Wrappers {

  datatype Option<+T> = None | Some(value: T)

  datatype Result<+R, +E> = Success(value: R) | Failure(error: E) {

    predicate IsFailure() {
      Failure?
    }

    function PropagateFailure<U>(): Result<U, E>
      requires Failure?
    {
      Failure(error)
    }

    function Extract(): R
      requires Success?
    {
      value
    }
  }
}
